=== FILE: README.md ===
# Gomoku engine core in Dafny

A model of the sequential core of a Gomoku (five in a row, 15x15) engine, with proofs
about it:

- **the threat evaluator.** It walks the four line windows through a stone. It parses each
  window into runs of stones with at most one single-cell gap. It classifies every run
  against the weight table. It scores the cell as the sum of its two largest weights.
  It has a memo keyed by window contents.
- **the game state.** This is the board, the active-candidate map and the undo stack. It
  covers `make_move`, `undo_move`, `update_active_map`, `undo_active_map_changes`,
  `invalidate` and `get_sorted_moves`, and the from-scratch path of
  `get_heuristic_value`.
- **the alpha-beta search.** This is `is_terminal` and the `alpha_beta` recursion. It
  includes the transposition-table lookup and store, the move loop with its break and
  cutoffs, the node and cut counters, and the stop flag.
- **the GUI rules.** This is the win check `check_winner`/`check_line`, and the pixel
  arithmetic of `handle_click` together with the effect of a click.

Files, one module each:

| file | module | models |
|---|---|---|
| `constants.dfy` | `Constants` | pieces, threat weights, `WIN` |
| `grid.dfy` | `Grid` | the 15x15 board, cells, directions |
| `sorting.dfy` | `Sorting` | `list.sort(key=…, reverse=True)` and the top-two sum |
| `evaluator.dfy` | `Evaluator` | `evaluator.py` |
| `game_state.dfy` | `GameState` | `game_state.py` without the value cache |
| `heuristic.dfy` | `Heuristic` | `get_heuristic_value` computed from scratch |
| `alpha_beta.dfy` | `AlphaBeta` | `is_terminal` and `alpha_beta` |
| `search_facts.dfy` | `SearchFacts` | what a search returns, stated against independent definitions |
| `gui.dfy` | `Gui` | `check_winner`, `check_line` and `handle_click` |

The model is functional:
- The game state is an immutable value, and `make_move` and `undo_move` are functions
  on it.
- The search is a recursive method over values. It threads the transposition table and
  the counters through its calls.
- Every cache is keyed by the board itself, not by a Zobrist hash.

Two behaviours of the code are worth stating up front, since a reader might expect otherwise:
- A gapped run of exactly five stones is classified NONE (`get_threat_type`).
- The transposition table records the ply of the search, not the depth searched (see
  Findings).

Four of the slips under "Findings" are each modelled twice, selected by a `Revision`
(`AsWritten` or `Corrected`). The fifth, the centre fallback on a full board, is shown
as written and kept out of the search by its precondition. The revision is a parameter of `Evaluate` and of everything
built on it: the memo, the move order, the position value and the search. `AsWritten`
is the program's `evaluate`, and `Corrected` is what it evidently means.

## Model

| member | source | states |
|---|---|---|
| `Constants.WeightTable` | gomoku/gomoku-template/constants.py:12-29 | No weight is negative and NONE is 0. FIVE reaches WIN. Every other weight is at most OPEN_FOUR, and two of them stay below WIN. Each OPEN shape weighs at least its BLOCKED variant. |
| `Constants.Opponent` | gomoku/gomoku-template/constants.py:7-9 | `player * (-1)` maps each player to the other one, and the two sum to zero. |
| `Evaluator.Walk` | gomoku/gomoku-template/evaluator.py:16-39 | `walk` reads 1 to 5 cells, and each is the board value or an opponent marker off the board. Every cell before the last is empty or the player's, and after an empty one only the player's stones follow before the last cell. A walk shorter than 5 ended on an opponent value or a second empty cell. |
| `Evaluator.WalkFrom` | gomoku/gomoku-template/evaluator.py:20-37 | The loop from iteration `i` on reads consecutive cells and ends by the stopping rule of `walk`. |
| `Evaluator.GetLine` | gomoku/gomoku-template/evaluator.py:41-47 | The joined line is a window: 3 to 11 pieces, with the player at index \|negative walk\| and an opponent value only at the two ends. |
| `Evaluator.Windows` | gomoku/gomoku-template/evaluator.py:49-54 | There are four windows, each of them a window of the player. |
| `Evaluator.EvaluateLocal` | gomoku/gomoku-template/evaluator.py:14-54 | Two boards that agree on the star of radius 5 around a cell give that cell the same windows and the same score. |
| `Evaluator.RunBefore` | gomoku/gomoku-template/evaluator.py:83-86 | The inner `while` walks back exactly over the stones before the index. A non-stone bounds it, so the index never goes below the scanned range. |
| `Evaluator.ScanStep` | gomoku/gomoku-template/evaluator.py:66-111 | One loop iteration keeps the scan invariant. Every reported run has at most one gap, and that gap is an empty cell inside the run. Corrected, its stone count equals the stones it covers. |
| `Evaluator.FindPatterns` | gomoku/gomoku-template/evaluator.py:56-119 | Every returned run has more than one stone and satisfies the run invariant. Corrected, its count is the number of stones it covers. |
| `Evaluator.ThreatType` | gomoku/gomoku-template/evaluator.py:169-200 | The result is a table weight. It reaches WIN, and equals FIVE, exactly for five stones without a gap or a longer gapped run whose gap is five stones from one end. |
| `Evaluator.BlockedNeverOutweighsOpen` | gomoku/gomoku-template/evaluator.py:174-198 | A blocked run never weighs more than the same run open, and a two-, three- or four-stone run weighs strictly less. |
| `Evaluator.ThreatsInLine` | gomoku/gomoku-template/evaluator.py:121-167 | Every threat is a table weight. A window blocked on both sides with fewer than five inner cells has no threat. |
| `Evaluator.CorrectedBlockedRule` | gomoku/gomoku-template/evaluator.py:125-165 | Corrected, all four branches apply one rule. The scanned range holds no opponent value, and a run is blocked exactly when it touches an opponent marker. |
| `Evaluator.RightBlockedSlip` | gomoku/gomoku-template/evaluator.py:149-157 | As written, `. . x x X` scores OPEN_TWO while its mirror `X x x . .` scores BLOCKED_TWO. Corrected, both score BLOCKED_TWO. |
| `Evaluator.RestartUndercount` | gomoku/gomoku-template/evaluator.py:82-89 | As written, the run restarted after a second gap in `X x . x x . x .` counts 2 of its 3 stones and scores OPEN_POKED_TWO. Corrected, it counts 3 and scores OPEN_POKED_THREE. |
| `Evaluator.Evaluate` | gomoku/gomoku-template/evaluator.py:202-220 | For either revision (`AsWritten` is the program's `evaluate`), the score is at least 0 and at least every threat of the four windows. It reaches WIN exactly when FIVE is among them, and otherwise stays at most two OPEN_FOURs. |
| `Evaluator.TopTwoOfWeights` | gomoku/gomoku-template/evaluator.py:213-220 | For weights, the top-two sum is 0 with no threat and the threat itself with one. It is at least every threat, and reaches WIN exactly when FIVE is present. |
| `Sorting.SortDesc` | gomoku/gomoku-template/evaluator.py:213 | The sort returns a non-increasing permutation of its input, and it is stable: for every key, the elements with that key keep their input order. |
| `Sorting.InsertWithKey` | gomoku/gomoku-template/evaluator.py:213 | Inserting into a sorted list puts the new element after every element of its own key and leaves the order of the others alone. |
| `Sorting.TopTwoSumIsBestPair` | gomoku/gomoku-template/evaluator.py:215-220 | `threats[0] + threats[1]` after the sort is the largest sum of two distinct threats, and some pair attains it. |
| `Evaluator.WindowDeterminesPlayer` | gomoku/gomoku-template/evaluator.py:206-210 | No window is a window of both players, so a memo keyed by window contents alone is sound. |
| `Evaluator.Lookup` | gomoku/gomoku-template/evaluator.py:206-211 | For either revision (`AsWritten` is the program's classifier), a memo hit or miss gives the threats computed without the memo. The memo stays sound and gains the window. |
| `Evaluator.EvaluateMemo` | gomoku/gomoku-template/evaluator.py:202-211 | For either revision (`AsWritten` is the program's `evaluate`), `evaluate` through the memo gives the score computed without it and leaves a sound memo holding the four windows. |
| `GameState.UpdateActiveMap` | gomoku/gomoku-template/game_state.py:58-83 | The played cell becomes inactive. Every empty cell one or two steps away in the 8 directions becomes active, and no other flag changes. The change list names exactly the flipped flags, each once. |
| `GameState.ToggleAll` | gomoku/gomoku-template/game_state.py:85-90 | Exactly the listed flags are negated. |
| `GameState.ToggleRestores` | gomoku/gomoku-template/game_state.py:69-90 | Toggling exactly the flipped flags gives the earlier map back. |
| `GameState.MakeMove` | gomoku/gomoku-template/game_state.py:38-46 | The player's stone goes on the cell and no other cell changes. One record (cell, player, exact changes) is pushed onto an otherwise unchanged history, and the turn passes to the opponent. |
| `GameState.UndoMove` | gomoku/gomoku-template/game_state.py:48-56 | The last record's cell becomes empty and no other cell changes. Exactly the flags in its change list are toggled, the player becomes the record's player, and the history loses that record. The result is well formed. |
| `GameState.UndoMakeMove` | gomoku/gomoku-template/game_state.py:38-56 | `undo_move` right after `make_move` on an empty cell gives back the board, the active map, the player and the history exactly. |
| `GameState.MakeMoveKeepsActiveExact` | gomoku/gomoku-template/game_state.py:69-81 | After a move the active cells are still exactly the empty cells near a stone, so every active cell is empty. |
| `GameState.ActiveIsEmpty` | gomoku/gomoku-template/game_state.py:78-81 | Under the invariant, an active cell is empty. |
| `GameState.MakeMoveKeepsInv` | gomoku/gomoku-template/game_state.py:38-46 | `make_move` on an empty cell keeps the invariant, and `undo_move` then gives the state back. |
| `GameState.UndoMoveKeepsInv` | gomoku/gomoku-template/game_state.py:48-56 | `undo_move` keeps the invariant, and replaying the popped move gives the state back. |
| `GameState.FromBoard` | gomoku/gomoku-template/game_state.py:27-35 | Building a state from a board makes the active map exact (the invariant holds), with the board and player given and an empty history. |
| `GameState.Initial` | gomoku/gomoku-template/game_state.py:27-28 | The start position is empty with no active cell, Black is to move, and the invariant holds. |
| `GameState.Invalidate` | gomoku/gomoku-template/game_state.py:92-105 | Exactly the on-board cells 0 to 5 steps from the cell along the 8 directions become `None`, and every other entry is kept. |
| `GameState.RaysAreStar` | gomoku/gomoku-template/game_state.py:97-105 | A cell lies on one of the 8 rays of the loop exactly when it is the cell itself or 1 to 5 steps away along a line. |
| `GameState.InvalidateKeepsScores` | gomoku/gomoku-template/game_state.py:92-96 | A cell that `invalidate` keeps has the same value for either player before and after the move, so the kept entries are still correct. |
| `GameState.Candidates` | gomoku/gomoku-template/game_state.py:165-175 | The row-major loop lists only active cells, in strictly increasing cell order. |
| `GameState.CandidatesCacheTransparent` | gomoku/gomoku-template/game_state.py:169-175 | A score map that is current on active cells gives the same candidates as no map at all. |
| `GameState.Order` | gomoku/gomoku-template/game_state.py:164-180 | The list is non-increasing by score. It is a permutation of the candidates, or of `[(7, 7, 0)]` when there are none. Moves of equal score keep the row-major order of the scan. |
| `GameState.SortedMovesFallback` | gomoku/gomoku-template/game_state.py:177-178 | With no active cell, the moves are exactly `[(7, 7, 0)]`. |
| `GameState.SortedMovesActive` | gomoku/gomoku-template/game_state.py:166-170 | With an active cell, every move is an active cell. |
| `GameState.SortedMovesComplete` | gomoku/gomoku-template/game_state.py:165-170 | Every active cell is among the moves. |
| `GameState.SortedMovesDistinct` | gomoku/gomoku-template/game_state.py:165-180 | No cell occurs twice among the moves. |
| `GameState.SortedMoves` | gomoku/gomoku-template/game_state.py:146-182 | The list is never empty, is non-increasing by score, and holds only on-board cells. Moves of equal score keep the row-major order of the scan. |
| `GameState.SortedMovesScored` | gomoku/gomoku-template/game_state.py:171-175 | For either revision (`AsWritten` is the program's `evaluate`), each move's score is `evaluate` for Black plus `evaluate` for White on the current board. |
| `GameState.NoActiveMeansNoStone` | gomoku/gomoku-template/game_state.py:177-178 | Under the invariant, no active cell together with some empty cell means the board is empty. So the centre fallback is played only on an empty board. |
| `GameState.ScoresAgreeOutside` | gomoku/gomoku-template/game_state.py:159-162 | A move changes no cell score outside the cells `invalidate` clears. |
| `GameState.CarriedScores` | gomoku/gomoku-template/game_state.py:156-162 | The scores handed on are `None` on every cell `invalidate` clears, and every other entry is the score of that cell in the previous position's move list. |
| `GameState.CachedSortedMovesExact` | gomoku/gomoku-template/game_state.py:156-175 | After a move, reusing the previous position's moves with the invalidated cells recomputed gives exactly the moves computed from scratch. |
| `Heuristic.CellValueSign` | gomoku/gomoku-template/game_state.py:132-139 | An empty cell contributes 0, a black stone a value of at least 0 and a white stone one of at most 0. |
| `Heuristic.CellValueFive` | gomoku/gomoku-template/game_state.py:137-139 | A stone that sees a five contributes at least FIVE towards its own colour. |
| `Heuristic.HeuristicValue` | gomoku/gomoku-template/game_state.py:128-143 | A position without white stones has a value of at least 0, and one without black stones a value of at most 0. |
| `Heuristic.NoFiveNoWin` | gomoku/gomoku-template/game_state.py:128-143 | Without a stone that sees a five, the position value stays strictly between -WIN and WIN. |
| `Heuristic.BlackFiveWins` | gomoku/gomoku-template/game_state.py:128-143 | A black stone that sees a five, and no white one that does, make the value at least WIN. |
| `Heuristic.WhiteFiveWins` | gomoku/gomoku-template/game_state.py:128-143 | A white stone that sees a five, and no black one that does, make the value at most -WIN. |
| `AlphaBeta.Search` | gomoku/gomoku-template/alpha_beta_engine.py:74-131 | A deep-enough table entry is returned as is, with nothing else touched. Otherwise a leaf returns (value, None), and an inner node runs the move loop. The state is the one on entry, restored by `undo_move` after each child. The table stays legal, and only the node's own entry or deeper ones change. The counters only grow. A stop is reported only once the flag is set, and a returned move is an empty cell. |
| `AlphaBeta.Expand` | gomoku/gomoku-template/alpha_beta_engine.py:81-83 | With no plies left or a decided value, the result is (value, None) and nothing changes. Otherwise it is the inner node. |
| `AlphaBeta.Node` | gomoku/gomoku-template/alpha_beta_engine.py:85-131 | The entry `(b, best_move, saved depth)` is written exactly when the loop ended without a cutoff or a stop. The counters add one node per child, the children's counts, and one cut for a cutoff. |
| `AlphaBeta.Explore` | gomoku/gomoku-template/alpha_beta_engine.py:85-128 | Children are the first moves in order, each searched with the window left by the ones before. The loop stops exactly when the flag is set after a child. Otherwise it returns `b` and `best_move`, after the last move, a winning child or a crossed bound. |
| `AlphaBeta.Round` | gomoku/gomoku-template/alpha_beta_engine.py:87-94 | One pass adds one child: `nodes += 1`, the child search, then the stop test and the score tests. |
| `AlphaBeta.Judge` | gomoku/gomoku-template/alpha_beta_engine.py:96-128 | A better score becomes `b` and `best_move`, and a winning one breaks. Otherwise a crossed bound cuts off and counts the cut. Otherwise the player's bound moves to `b`. |
| `AlphaBeta.Play` | gomoku/gomoku-template/alpha_beta_engine.py:89-91 | The position after the move has one empty cell fewer and keeps the invariant, and `undo_move` gives the position back. |
| `SearchFacts.BestIsExtremum` | gomoku/gomoku-template/alpha_beta_engine.py:96-120 | `b` is the largest child score for Black and the smallest for White, and `best_move` is the cell of the first child that reaches it. |
| `SearchFacts.DoneIsBestChild` | gomoku/gomoku-template/alpha_beta_engine.py:85-131 | A finished loop's score is the maximum (Black) or minimum (White) over the children explored. Every child finished, and the move is the cell of one of the sorted moves. |
| `SearchFacts.EarlyExit` | gomoku/gomoku-template/alpha_beta_engine.py:99-126 | A finished loop that skipped moves returns a winning score or one past the opponent's bound. |
| `SearchFacts.NodesPerChild` | gomoku/gomoku-template/alpha_beta_engine.py:87-88 | `nodes` grows by exactly one per child explored, plus the children's own nodes, summed independently. |
| `SearchFacts.CutsCounted` | gomoku/gomoku-template/alpha_beta_engine.py:102-126 | A cutoff adds one beta cut for Black or one alpha cut for White to the children's cuts. Without a cutoff none is added. |
| `SearchFacts.FiveIsTerminal` | gomoku/gomoku-template/alpha_beta_engine.py:55-56 | A stone that sees a five, with no opponent stone that does, makes `is_terminal` true for the position value. |
| `SearchFacts.TerminalNeedsFive` | gomoku/gomoku-template/alpha_beta_engine.py:55-56 | A position that `is_terminal` takes for decided has a stone that sees a five. |
| `SearchFacts.FullBoardFallbackOccupied` | gomoku/gomoku-template/game_state.py:177-178 | As written, a full board offers only the fallback (7, 7), which holds a stone. Playing it and undoing it leaves that cell empty. |
| `SearchFacts.FullBoardLosesCentre` | gomoku/gomoku-template/alpha_beta_engine.py:86-90 | As written, on a full board with no five in a row (Black where `(c + 2 * r) / 2` is even, White elsewhere, White to move) the only move offered is the occupied centre, and a make and undo of it leaves the centre empty. The search plays this move only on a full board where no stone sees a five, since a five ends the search at the leaf test first. |
| `AlphaBeta.MovesAreLegal` | gomoku/gomoku-template/game_state.py:164-180 | On a position with an empty cell, every offered move is an empty cell. |
| `SearchFacts.ShallowEntryAnswersDeeper` | gomoku/gomoku-template/alpha_beta_engine.py:130 | As written, an entry saved at ply 3 after a one-ply search answers a later three-ply search. Corrected, it does not. |
| `SearchFacts.AsWrittenEntryReach` | gomoku/gomoku-template/alpha_beta_engine.py:130 | As written, a finished node's entry answers exactly the searches with at most `depth` (its ply) plies left. |
| `SearchFacts.CorrectedEntryReach` | gomoku/gomoku-template/alpha_beta_engine.py:76-79 | Corrected, a finished node's entry answers exactly the searches with no more plies left than it searched. |
| `Gui.CheckLine` | gomoku/gomoku-template/gomoku_gui.py:118-133 | The check is true exactly when 5 consecutive steps in -4..4 are on-board cells of the player. The line is then those 5 cells of the first such run. Otherwise the old line is kept. |
| `Gui.RunLine` | gomoku/gomoku-template/gomoku_gui.py:121-129 | A winning line holds five cells of the player and contains step 0, the placed stone. |
| `Gui.CheckWinner` | gomoku/gomoku-template/gomoku_gui.py:117-139 | The result is true exactly when one of the (row, column) steps (1,0), (0,1), (1,1), (1,-1) has a five through the cell. The line comes from the first such direction, holds five stones of the player and includes the cell. |
| `Gui.OverlineWins` | gomoku/gomoku-template/gomoku_gui.py:124-129 | Six in a row through the cell also counts as a win. |
| `Gui.ClickCell` | gomoku/gomoku-template/gomoku_gui.py:84-88 | A selected cell's column and row are each an intersection nearest the click along that axis. |
| `Gui.AsWrittenClickQuadrant` | gomoku/gomoku-template/gomoku_gui.py:84-87 | As written, a click selects a cell exactly when it lies at most 20 px right of and below the intersection at or before it. |
| `Gui.AsWrittenMissesNearClick` | gomoku/gomoku-template/gomoku_gui.py:85-87 | As written, a click at (55, 60) is ignored although it is 5 px from the intersection of row 1 and column 1. |
| `Gui.CorrectedClickNearest` | gomoku/gomoku-template/gomoku_gui.py:85-87 | Corrected, a click strictly within 20 px of an intersection on both axes selects that intersection's cell. |
| `Gui.CorrectedClickTotal` | gomoku/gomoku-template/gomoku_gui.py:85-87 | Corrected, every click is rounded to some intersection and is never dropped by the 20 px test. |
| `Gui.HandleClick` | gomoku/gomoku-template/gomoku_gui.py:80-96 | After a win, or for a click on no empty on-board cell, nothing changes. Otherwise the player's stone is placed. A five through it makes the player the winner, with a five-cell line through the stone. Otherwise the turn passes and the line is kept. |

## Left out

- Zobrist hashing: `update_hash` is a stub that returns `None`. As written the hash is 0 at the root (game_state.py:19) and `None` after any `make_move` (game_state.py:45), so every position below the root shares one key in the transposition table, `sorted_moves` and `score_maps`. The model deliberately replaces that key: the state carries no hash, and every cache is keyed by the board itself, as a working Zobrist hash without collisions would be.
- The hash-keyed dictionaries `sorted_moves` and `score_maps` are not modelled as stores. What the cached path of `get_sorted_moves` computes (previous list, invalidated, then recomputed) is modelled by `GameState.CarriedScores` and proved equal to the from-scratch list. `deepcopy` is a library copy and has no counterpart in a value model.
- `get_heuristic_value` is modelled from scratch only. Its cache is never written. Its cache-hit branch returns an unbound `eval_value`, and cells reused from the previous score map are not added to the sum. These are divergences of the cached path, not properties to prove.
- Threading and the session lifecycle are left out: `start_evaluation`, `stop_evaluation`, `get_results`, `iterative_deepening` and its printing.
- `AlphaBeta.Search`: the stop flag is not a plain boolean but a node-count threshold (`stopAt`) from which the flag reads as set. `None` never stops and `Some(0)` is set from the start. Such a threshold covers a flag never set, a flag set from the start, and a flag first read as set at the check after a given `nodes += 1`. A flag set between a child's last stop check and the parent's check right after `undo_move` is left out: both checks see the same `nodes` value, so no threshold separates them.
- `AlphaBeta.Search`: requires at least as many empty cells as plies left. On a full board `get_sorted_moves` falls back to (7, 7) even though that cell is occupied, and a search that expands such a board, which it does only when no stone on it sees a five, would play on it (see Findings). The model does not follow the search onto that board.
- `AlphaBeta.Search`: requires a state reached by legal moves (`Sealed`, which is the invariant `Inv` behind one definition layer). `Value`, `Moves` and `GameState.ScoreLayers` are such layers. They keep proofs small and change no result.
- `Evaluator.RunBefore`: Python's negative index in the backward walk (`seq[startIdx - 1]`) is not modelled. The model shows the walk stops at the cell of the earlier gap, or at the start of the run, so the index stays within the scanned range.
- `find_patterns`' `assert` that the scanned range holds no opponent value is a precondition of `Evaluator.FindPatterns`, and `Evaluator.CorrectedBlockedRule` proves that every call meets it.
- Python's `Enum` aliasing of equal-valued threats: threats are their integer weights. The weights, written as floats, are integral and modelled as `int`.
- `mcts.py`: every method is a stub.
- tkinter is left out: drawing, hover (`handle_motion`, which repeats the click arithmetic), the option menus, the winner label, the AI suggestion and `trigger_ai_eval`.
- `Gui.HandleClick`: the model does not reset `ai_suggestion` or trigger the engine after a move. Both only feed the display.

## Findings

| source | as written | input that shows it | evidently intended | confidence | as-written member | corrected member |
|---|---|---|---|---|---|---|
| gomoku/gomoku-template/evaluator.py:155 | the right-blocked branch marks a run blocked when it STARTS at the marker's index, which no run does | the Black window `. . x x X` (X the opponent marker) scores OPEN_TWO, while its mirror `X x x . .` scores BLOCKED_TWO | `p[3] == len(seq) - 1`: the run ENDS at the marker, as in the both-blocked branch (line 136) | high; not executed | `Evaluator.RightBlockedSlip` | `Evaluator.CorrectedBlockedRule` |
| gomoku/gomoku-template/evaluator.py:88 | after a second gap the restarted run gets `same = tmp + 1`, which leaves out the stone just read at `i` | in `X x . x x . x .` the restarted run covers 3 stones but reports 2 (OPEN_POKED_TWO) | `same = tmp + 2`: the stones walked back over, the stone at the gap's end, and the stone at `i` | medium; not executed | `Evaluator.RestartUndercount` | `Evaluator.FindPatterns` |
| gomoku/gomoku-template/alpha_beta_engine.py:130 | the entry records the ply `depth`, and line 78 compares it with `remaining_depth` | an entry written at ply 3 after a one-ply search answers a later three-ply search of the same board | record `remaining_depth`, the depth actually searched | medium; not executed | `SearchFacts.AsWrittenEntryReach` | `SearchFacts.CorrectedEntryReach` |
| gomoku/gomoku-template/game_state.py:177-178 | with no active cell the list falls back to `(7, 7, 0)` without checking that the cell is empty, so a full board offers the occupied centre; `make_move` overwrites it and `undo_move` (line 54) empties it | a full board with no five in a row, e.g. Black where `(c + 2 * r) / 2` is even and White elsewhere, White to move: no stone sees a five, so the value is not terminal and the search expands the board; it is offered only the occupied centre, and after its make and undo the centre is empty | offer only empty cells and treat a board without one as a leaf; the model's search keeps at least one empty cell per ply left | medium; not executed | `SearchFacts.FullBoardLosesCentre` | `AlphaBeta.MovesAreLegal` |
| gomoku/gomoku-template/gomoku_gui.py:85-87 | `(x - 20) // 40` takes the intersection at or before the click, so the 20 px test accepts only clicks right of and below an intersection | a click at (55, 60), 5 px from the intersection of row 1 and column 1, is ignored | round to the nearest intersection, `x // 40` | medium; not executed | `Gui.AsWrittenMissesNearClick` | `Gui.CorrectedClickNearest` |

=== FILE: alpha_beta.dfy ===
/** `AlphaBetaEngine.alpha_beta` and `is_terminal`: a depth-bounded max/min search over
    the moves of `get_sorted_moves`, with cutoffs, a transposition table and a stop
    flag.

    The game state is a value: every child is searched on `make_move` of it and the
    state is taken back with `undo_move`, which gives the state on entry again. The
    transposition table is keyed by the board. The stop flag reads as set from the
    moment the node counter reaches a threshold (`None`: never; `Some(0)`: set from the
    start). `rev` selects the program as written or corrected, both for the evaluator
    behind the position value and the move order and for the depth a table entry
    records. */
module AlphaBeta {
  import opened Constants
  import opened Grid
  import opened Evaluator
  import opened GameState
  import opened Heuristic

  /** `float('-inf')`, a score and `float('inf')`. */
  datatype Ext = NegInf | Fin(value: int) | PosInf

  predicate ExtLe(x: Ext, y: Ext) {
    x.NegInf? || y.PosInf? || (x.Fin? && y.Fin? && x.value <= y.value)
  }

  function ExtMax(x: Ext, y: Ext): (z: Ext)
    ensures ExtLe(x, z) && ExtLe(y, z) && (z == x || z == y)
  {
    if ExtLe(x, y) then y else x
  }

  function ExtMin(x: Ext, y: Ext): (z: Ext)
    ensures ExtLe(z, x) && ExtLe(z, y) && (z == x || z == y)
  {
    if ExtLe(x, y) then x else y
  }

  /** `is_terminal`. */
  predicate IsTerminal(score: int) {
    score >= WIN || score <= -WIN
  }

  /** A transposition entry: score, best move and the depth it was saved at. */
  datatype Entry = Entry(score: int, move: Option<Cell>, saved: int)

  type Table = map<Board, Entry>

  /** The result of a search: `(None, None)` after a stop, or a score and a move. */
  datatype Outcome = Stopped | Done(score: int, move: Option<Cell>)

  /** The statistics of the engine. */
  datatype Counters = Counters(nodes: nat, alphaCuts: nat, betaCuts: nat)

  function Add(x: Counters, y: Counters): Counters {
    Counters(x.nodes + y.nodes, x.alphaCuts + y.alphaCuts, x.betaCuts + y.betaCuts)
  }

  predicate Grew(x: Counters, y: Counters) {
    x.nodes <= y.nodes && x.alphaCuts <= y.alphaCuts && x.betaCuts <= y.betaCuts
  }

  function Sub(y: Counters, x: Counters): (d: Counters)
    requires Grew(x, y)
    ensures Add(x, d) == y
  {
    Counters(y.nodes - x.nodes, y.alphaCuts - x.alphaCuts, y.betaCuts - x.betaCuts)
  }

  /** One explored child: its move, the window `(alpha, beta)` it was searched with, its
      outcome and what its search added to the counters. */
  datatype Child = Child(cell: Cell, lo: Ext, hi: Ext, out: Outcome, spent: Counters)

  function Score(c: Child): int {
    if c.out.Done? then c.out.score else 0
  }

  /** The stop flag as seen with `nodes` counted so far. */
  predicate StopSet(stopAt: Option<nat>, nodes: nat) {
    stopAt.Some? && nodes >= stopAt.value
  }

  /** The depth the table records for a search at ply `depth` with `rem` plies left. The
      source records the ply, while the lookup compares the recorded value with the
      plies still to search (see README "Findings"). */
  function SavedDepth(rev: Revision, depth: int, rem: nat): int {
    match rev
    case AsWritten => depth
    case Corrected => rem
  }

  /** A table entry answers a search with `rem` plies left. */
  predicate Hit(tt: Table, b: Board, rem: nat) {
    b in tt && tt[b].saved >= rem
  }

  /* ---------------------------------------------------------------------------
     The move loop, as a function of the children explored so far
     --------------------------------------------------------------------------- */

  predicate IsMax(player: int) {
    player == BLACK
  }

  /** `b` before the first child: `-inf` for Black, `inf` for White. */
  function Worst(player: int): Ext {
    if IsMax(player) then NegInf else PosInf
  }

  /** `score > b` for Black, `score < b` for White. */
  predicate Improves(player: int, score: int, b: Ext) {
    if IsMax(player) then !ExtLe(Fin(score), b) else !ExtLe(b, Fin(score))
  }

  /** `score >= WIN` for Black, `score <= -WIN` for White. */
  predicate Wins(player: int, score: int) {
    if IsMax(player) then score >= WIN else score <= -WIN
  }

  /** `b` after the children `ex`. */
  function Best(player: int, ex: seq<Child>): Ext
    decreases |ex|
  {
    if |ex| == 0 then Worst(player)
    else
      var b := Best(player, ex[..|ex| - 1]);
      if Improves(player, Score(ex[|ex| - 1]), b) then Fin(Score(ex[|ex| - 1])) else b
  }

  /** `best_move` after the children `ex`. */
  function BestMove(player: int, ex: seq<Child>): Option<Cell>
    decreases |ex|
  {
    if |ex| == 0 then None
    else
      var b := Best(player, ex[..|ex| - 1]);
      if Improves(player, Score(ex[|ex| - 1]), b) then Some(ex[|ex| - 1].cell)
      else BestMove(player, ex[..|ex| - 1])
  }

  /** The last child improved `b` with a winning score: the loop breaks. */
  predicate Broke(player: int, ex: seq<Child>)
    requires |ex| > 0
  {
    var last := Score(ex[|ex| - 1]);
    Improves(player, last, Best(player, ex[..|ex| - 1])) && Wins(player, last)
  }

  /** `b >= beta` for Black, `b <= alpha` for White. */
  predicate Crossed(player: int, b: Ext, alpha: Ext, beta: Ext) {
    if IsMax(player) then ExtLe(beta, b) else ExtLe(b, alpha)
  }

  /** After the last child the bound is crossed; the break is checked first. */
  predicate CutOff(player: int, ex: seq<Child>, alpha: Ext, beta: Ext)
    requires |ex| > 0
  {
    !Broke(player, ex) && Crossed(player, Best(player, ex), alpha, beta)
  }

  predicate Continues(player: int, ex: seq<Child>, alpha: Ext, beta: Ext)
    requires |ex| > 0
  {
    !Broke(player, ex) && !CutOff(player, ex, alpha, beta)
  }

  /** `alpha = max(alpha, b)` for Black, `beta = min(beta, b)` for White. */
  function Narrow(player: int, lo: Ext, hi: Ext, b: Ext): (Ext, Ext) {
    if IsMax(player) then (ExtMax(lo, b), hi) else (lo, ExtMin(hi, b))
  }

  /** The window `(alpha, beta)` the next child is searched with after the children
      `ex`. */
  function Window(player: int, alpha: Ext, beta: Ext, ex: seq<Child>): (Ext, Ext)
    decreases |ex|
  {
    if |ex| == 0 then (alpha, beta)
    else
      var w := Window(player, alpha, beta, ex[..|ex| - 1]);
      Narrow(player, w.0, w.1, Best(player, ex))
  }

  /** The counters the children add: one node each, plus their own searches. */
  function Tally(ex: seq<Child>): Counters
    decreases |ex|
  {
    if |ex| == 0 then Counters(0, 0, 0)
    else Add(Tally(ex[..|ex| - 1]), Add(Counters(1, 0, 0), ex[|ex| - 1].spent))
  }

  /** The cut this node counts itself. */
  function OwnCut(player: int, cut: bool): Counters {
    if !cut then Counters(0, 0, 0)
    else if IsMax(player) then Counters(0, 0, 1)
    else Counters(0, 1, 0)
  }

  /** The children explored so far, child by child: the children are the first moves in
      order, each searched with the window left by the children before it, and every
      child but the last finished and let the loop go on with the stop flag clear. */
  ghost predicate Trace(player: int, alpha: Ext, beta: Ext, stopAt: Option<nat>, nodes: nat,
                        moves: seq<Move>, ex: seq<Child>)
    decreases |ex|
  {
    && |ex| <= |moves|
    && (|ex| > 0 ==>
          var p := ex[..|ex| - 1];
          var last := ex[|ex| - 1];
          && Trace(player, alpha, beta, stopAt, nodes, moves, p)
          && last.cell == Cell(moves[|ex| - 1].row, moves[|ex| - 1].col)
          && (last.lo, last.hi) == Window(player, alpha, beta, p)
          && (|p| > 0 ==> WentOn(player, alpha, beta, stopAt, nodes, p)))
  }

  /** After the children `ex` the loop goes on: the last one finished, neither broke nor
      cut, and the stop flag is clear. */
  predicate WentOn(player: int, alpha: Ext, beta: Ext, stopAt: Option<nat>, nodes: nat, ex: seq<Child>)
    requires |ex| > 0
  {
    ex[|ex| - 1].out.Done? && Continues(player, ex, alpha, beta) && !StopSet(stopAt, nodes + Tally(ex).nodes)
  }

  /** What the move loop did: a trace of at least one child, a stop reported exactly when
      the flag is set after the last child, and otherwise the best score and move of the
      children, the loop having ended on the last move, a break or a cutoff. */
  ghost predicate Explored(player: int, alpha: Ext, beta: Ext, stopAt: Option<nat>, nodes: nat,
                           moves: seq<Move>, ex: seq<Child>, out: Outcome)
  {
    && 1 <= |ex|
    && Trace(player, alpha, beta, stopAt, nodes, moves, ex)
    && (out.Stopped? <==> StopSet(stopAt, nodes + Tally(ex).nodes))
    && (out.Done? ==>
          && ex[|ex| - 1].out.Done?
          && (|ex| == |moves| || !Continues(player, ex, alpha, beta))
          && Best(player, ex).Fin?
          && out == Done(Best(player, ex).value, BestMove(player, ex)))
  }

  /** The trace read position by position. */
  lemma {:induction false} TraceAt(player: int, alpha: Ext, beta: Ext, stopAt: Option<nat>, nodes: nat,
                                   moves: seq<Move>, ex: seq<Child>, k: int)
    requires Trace(player, alpha, beta, stopAt, nodes, moves, ex) && 0 <= k < |ex|
    ensures ex[k].cell == Cell(moves[k].row, moves[k].col)
    ensures (ex[k].lo, ex[k].hi) == Window(player, alpha, beta, ex[..k])
    ensures k < |ex| - 1 ==> WentOn(player, alpha, beta, stopAt, nodes, ex[..k + 1])
    decreases |ex|
  {
    var p := ex[..|ex| - 1];
    if k < |ex| - 1 {
      TraceAt(player, alpha, beta, stopAt, nodes, moves, p, k);
      assert p[..k] == ex[..k];
      if k < |p| - 1 {
        assert p[..k + 1] == ex[..k + 1];
      } else {
        assert p == ex[..k + 1];
      }
    } else {
      assert p == ex[..k];
    }
  }

  lemma TraceStep(player: int, alpha: Ext, beta: Ext, stopAt: Option<nat>, nodes: nat,
                  moves: seq<Move>, ex: seq<Child>, c: Child)
    requires Trace(player, alpha, beta, stopAt, nodes, moves, ex) && |ex| < |moves|
    requires c.cell == Cell(moves[|ex|].row, moves[|ex|].col)
    requires (c.lo, c.hi) == Window(player, alpha, beta, ex)
    requires |ex| > 0 ==> WentOn(player, alpha, beta, stopAt, nodes, ex)
    ensures Trace(player, alpha, beta, stopAt, nodes, moves, ex + [c])
    ensures (ex + [c])[..|ex|] == ex
    ensures Tally(ex + [c]) == Add(Tally(ex), Add(Counters(1, 0, 0), c.spent))
  {
    assert (ex + [c])[..|ex|] == ex;
  }

  /* ---------------------------------------------------------------------------
     Tables
     --------------------------------------------------------------------------- */

  /** A stored move is an empty cell of the board it is stored for. */
  predicate LegalEntry(b: Board, e: Entry) {
    e.move.Some? ==> IsGrid(b) && OnBoard(e.move.value.row, e.move.value.col) && b[e.move.value.row][e.move.value.col] == EMPTY
  }

  ghost predicate TableLegal(tt: Table) {
    forall b :: b in tt ==> LegalEntry(b, tt[b])
  }

  predicate Unchanged(tt: Table, tt': Table, b: Board) {
    (b in tt' <==> b in tt) && (b in tt ==> tt'[b] == tt[b])
  }

  /** No entry changes for a board with at least `e` empty cells, except `except`. */
  ghost predicate Frame(tt: Table, tt': Table, e: int, except: Option<Board>) {
    forall b {:trigger Unchanged(tt, tt', b)} :: EmptyCount(b) >= e && Some(b) != except ==> Unchanged(tt, tt', b)
  }

  /** The moves a search tries: each is an empty cell of the board. */
  ghost predicate LegalMoves(b: Board, moves: seq<Move>)
    requires IsGrid(b)
  {
    |moves| >= 1 && forall k :: 0 <= k < |moves| ==> OnBoard(moves[k].row, moves[k].col) && b[moves[k].row][moves[k].col] == EMPTY
  }

  /** `Inv(s)` under `layers` levels of definition. The move loop only hands the
      invariant on to the child searches; sealed, it stays out of the loop's proof. */
  ghost predicate Sealed(s: State, layers: nat)
    decreases layers
  {
    if layers == 0 then Inv(s) else Sealed(s, layers - 1)
  }

  lemma Seal(s: State)
    requires Inv(s)
    ensures Sealed(s, 1)
  {
    assert Sealed(s, 0);
  }

  lemma Unseal(s: State)
    requires Sealed(s, 1)
    ensures Inv(s)
  {
    assert Sealed(s, 0);
  }

  /** `get_heuristic_value` of a sealed state. */
  function Value(rev: Revision, s: State): int
    requires Sealed(s, 1)
  {
    Unseal(s);
    HeuristicValue(rev, s.board)
  }

  /** `get_sorted_moves` of a sealed state. */
  function Moves(rev: Revision, s: State): seq<Move>
    requires Sealed(s, 1)
  {
    Unseal(s);
    SortedMoves(rev, s)
  }

  /* ---------------------------------------------------------------------------
     The search
     --------------------------------------------------------------------------- */

  /** `alpha_beta(depth, remaining_depth, player, alpha, beta)` on the game state `s`. */
  method Search(rev: Revision, s: State, depth: int, rem: nat, player: int, alpha: Ext, beta: Ext,
                tt: Table, cnt: Counters, stopAt: Option<nat>)
    returns (out: Outcome, s': State, tt': Table, cnt': Counters, ex: seq<Child>)
    requires IsGrid(s.board) && Sealed(s, 1) && EmptyCount(s.board) >= rem && TableLegal(tt)
    ensures s' == s
    ensures Searched(s, tt, tt', cnt, cnt', stopAt, out)
    // a table entry that was saved deep enough answers at once
    ensures Hit(tt, s.board, rem) ==>
              out == Done(tt[s.board].score, tt[s.board].move) && tt' == tt && cnt' == cnt && ex == []
    ensures !Hit(tt, s.board, rem) ==>
              Expanded(rev, s, depth, rem, player, alpha, beta, Value(rev, s), Moves(rev, s),
                       tt, tt', cnt, cnt', stopAt, ex, out)
    decreases rem, 5
  {
    s' := s;
    if Hit(tt, s.board, rem) {
      var e := tt[s.board];
      out, tt', cnt', ex := Done(e.score, e.move), tt, cnt, [];
      return;
    }
    var h := Value(rev, s);
    var moves := Moves(rev, s);
    if rem > 0 && !IsTerminal(h) {
      MovesAreLegal(rev, s);
    }
    out, tt', cnt', ex := Expand(rev, s, depth, rem, player, alpha, beta, h, moves, tt, cnt, stopAt);
  }

  /** A search the table does not answer, with `h` the value of the position and `moves`
      the moves of `get_sorted_moves`: a leaf when no plies are left or the position is
      decided, otherwise the move loop over `moves`. */
  ghost predicate Expanded(rev: Revision, s: State, depth: int, rem: nat, player: int, alpha: Ext, beta: Ext,
                           h: int, moves: seq<Move>, tt: Table, tt': Table, cnt: Counters, cnt': Counters,
                           stopAt: Option<nat>, ex: seq<Child>, out: Outcome)
  {
    && (rem == 0 || IsTerminal(h) ==> out == Done(h, None) && tt' == tt && cnt' == cnt && ex == [])
    && (rem > 0 && !IsTerminal(h) ==>
          InnerNode(rev, s, depth, rem, player, alpha, beta, tt, tt', cnt, cnt', stopAt, moves, ex, out))
  }

  /** `alpha_beta` past the table lookup, given the value `h` of the position and the
      moves `moves` to try. */
  method Expand(rev: Revision, s: State, depth: int, rem: nat, player: int, alpha: Ext, beta: Ext,
                h: int, moves: seq<Move>, tt: Table, cnt: Counters, stopAt: Option<nat>)
    returns (out: Outcome, tt': Table, cnt': Counters, ex: seq<Child>)
    requires IsGrid(s.board) && Sealed(s, 1) && EmptyCount(s.board) >= rem && TableLegal(tt)
    requires rem > 0 && !IsTerminal(h) ==> LegalMoves(s.board, moves)
    ensures Searched(s, tt, tt', cnt, cnt', stopAt, out)
    ensures Expanded(rev, s, depth, rem, player, alpha, beta, h, moves, tt, tt', cnt, cnt', stopAt, ex, out)
    decreases rem, 4
  {
    if rem == 0 || IsTerminal(h) {
      out, tt', cnt', ex := Done(h, None), tt, cnt, [];
      return;
    }
    out, tt', cnt', ex := Node(rev, s, depth, rem, player, alpha, beta, tt, cnt, stopAt, moves);
  }

  /** What every search guarantees: the table stays legal and changes no entry for a
      board with as many empty cells as this one but its own, the counters only grow, a
      stop is reported only once the flag is set, and a returned move is an empty cell. */
  ghost predicate Searched(s: State, tt: Table, tt': Table, cnt: Counters, cnt': Counters, stopAt: Option<nat>, out: Outcome)
    requires IsGrid(s.board)
  {
    && TableLegal(tt') && Grew(cnt, cnt')
    && Frame(tt, tt', EmptyCount(s.board), Some(s.board))
    && (out.Stopped? ==> StopSet(stopAt, cnt'.nodes))
    && (out.Done? && out.move.Some? ==>
          OnBoard(out.move.value.row, out.move.value.col) && s.board[out.move.value.row][out.move.value.col] == EMPTY)
  }

  /** An inner node: the move loop over `moves`, the cut counters, and a table write of
      `(b, best_move, depth)` exactly when the loop ended without a cutoff or a stop. */
  ghost predicate InnerNode(rev: Revision, s: State, depth: int, rem: nat, player: int, alpha: Ext, beta: Ext,
                            tt: Table, tt': Table, cnt: Counters, cnt': Counters, stopAt: Option<nat>,
                            moves: seq<Move>, ex: seq<Child>, out: Outcome)
  {
    && Explored(player, alpha, beta, stopAt, cnt.nodes, moves, ex, out)
    && var cut := out.Done? && CutOff(player, ex, alpha, beta);
       && cnt' == Add(Add(cnt, Tally(ex)), OwnCut(player, cut))
       && (out.Done? && !cut ==> s.board in tt' && tt'[s.board] == Entry(out.score, out.move, SavedDepth(rev, depth, rem)))
       && (!(out.Done? && !cut) ==> Unchanged(tt, tt', s.board))
  }

  /** The inner node of `alpha_beta` over the moves `moves`: the loop, then the table
      write. */
  method Node(rev: Revision, s: State, depth: int, rem: nat, player: int, alpha: Ext, beta: Ext,
              tt: Table, cnt: Counters, stopAt: Option<nat>, moves: seq<Move>)
    returns (out: Outcome, tt': Table, cnt': Counters, ex: seq<Child>)
    requires IsGrid(s.board) && Sealed(s, 1) && rem >= 1 && EmptyCount(s.board) >= rem && TableLegal(tt)
    requires LegalMoves(s.board, moves)
    ensures Searched(s, tt, tt', cnt, cnt', stopAt, out)
    ensures InnerNode(rev, s, depth, rem, player, alpha, beta, tt, tt', cnt, cnt', stopAt, moves, ex, out)
    decreases rem, 3
  {
    var cut;
    out, cut, tt', cnt', ex := Explore(rev, s, depth, rem, player, alpha, beta, tt, cnt, stopAt, moves);
    if out.Done? && !cut {
      var tt2 := tt'[s.board := Entry(out.score, out.move, SavedDepth(rev, depth, rem))];
      FrameStore(tt, tt', s.board, tt2[s.board], EmptyCount(s.board));
      tt' := tt2;
    }
  }

  /** The move loop of `alpha_beta` over `moves`. */
  method Explore(rev: Revision, s: State, depth: int, rem: nat, player: int, alpha: Ext, beta: Ext,
                 tt: Table, cnt: Counters, stopAt: Option<nat>, moves: seq<Move>)
    returns (out: Outcome, cut: bool, tt': Table, cnt': Counters, ex: seq<Child>)
    requires IsGrid(s.board) && Sealed(s, 1) && rem >= 1 && EmptyCount(s.board) >= rem && TableLegal(tt)
    requires LegalMoves(s.board, moves)
    ensures TableLegal(tt') && Grew(cnt, cnt')
    ensures Frame(tt, tt', EmptyCount(s.board), None)
    ensures Finished(player, alpha, beta, stopAt, cnt, moves, ex, out, cut, cnt')
    ensures out.Done? && out.move.Some? ==>
              OnBoard(out.move.value.row, out.move.value.col) && s.board[out.move.value.row][out.move.value.col] == EMPTY
    decreases rem, 2
  {
    var b := Worst(player);
    var best: Option<Cell> := None;
    var lo, hi := alpha, beta;
    tt', cnt', ex := tt, cnt, [];
    Begin(player, alpha, beta, stopAt, cnt, moves);
    var i := 0;
    while true
      invariant 0 <= i < |moves| && |ex| == i
      invariant TableLegal(tt') && Frame(tt, tt', EmptyCount(s.board), None) && Grew(cnt, cnt')
      invariant Looping(player, alpha, beta, stopAt, cnt, moves, ex, b, best, lo, hi, cnt')
      invariant best.Some? ==> OnBoard(best.value.row, best.value.col) && s.board[best.value.row][best.value.col] == EMPTY
      decreases |moves| - i
    {
      var verdict, tt2;
      verdict, ex, b, best, lo, hi, tt2, cnt' :=
        Round(rev, s, depth, rem, player, alpha, beta, cnt, stopAt, moves, ex, b, best, lo, hi, tt', cnt');
      FrameTrans(tt, tt', tt2, EmptyCount(s.board));
      tt' := tt2;
      if verdict == Stop {
        out, cut := Stopped, false;
        return;
      } else if verdict != Next {
        out, cut := Done(b.value, best), verdict == Cut;
        return;
      }
      if i + 1 == |moves| {
        // the last move
        ExitEnd(player, alpha, beta, stopAt, cnt, moves, ex, b, best, lo, hi, cnt');
        out, cut := Done(b.value, best), false;
        return;
      }
      i := i + 1;
    }
  }

  /** How the move loop goes on after a child. */
  datatype Verdict = Next | Stop | Break | Cut

  /** One pass of the move loop, over the move after the children `ex`: `nodes += 1`,
      the child search, the stop test, and the tests on the child's score. */
  method Round(rev: Revision, s: State, depth: int, rem: nat, player: int, alpha: Ext, beta: Ext,
               cnt: Counters, stopAt: Option<nat>, moves: seq<Move>,
               ex: seq<Child>, b: Ext, best: Option<Cell>, lo: Ext, hi: Ext, tt: Table, cur: Counters)
    returns (verdict: Verdict, ex': seq<Child>, b': Ext, best': Option<Cell>, lo': Ext, hi': Ext,
             tt': Table, cur': Counters)
    requires IsGrid(s.board) && Sealed(s, 1) && rem >= 1 && EmptyCount(s.board) >= rem && TableLegal(tt)
    requires LegalMoves(s.board, moves) && |ex| < |moves|
    requires Looping(player, alpha, beta, stopAt, cnt, moves, ex, b, best, lo, hi, cur)
    requires best.Some? ==> OnBoard(best.value.row, best.value.col) && s.board[best.value.row][best.value.col] == EMPTY
    ensures TableLegal(tt') && Frame(tt, tt', EmptyCount(s.board), None) && Grew(cur, cur')
    ensures |ex'| == |ex| + 1
    ensures verdict == Stop ==> Finished(player, alpha, beta, stopAt, cnt, moves, ex', Stopped, false, cur')
    ensures verdict == Break || verdict == Cut ==>
              b'.Fin? && Finished(player, alpha, beta, stopAt, cnt, moves, ex', Done(b'.value, best'), verdict == Cut, cur')
    ensures verdict == Next ==> Looping(player, alpha, beta, stopAt, cnt, moves, ex', b', best', lo', hi', cur')
    ensures best'.Some? ==> OnBoard(best'.value.row, best'.value.col) && s.board[best'.value.row][best'.value.col] == EMPTY
    decreases rem, 1
  {
    var m := moves[|ex|];
    var cell := Cell(m.row, m.col);
    assert OnBoard(cell.row, cell.col) && s.board[cell.row][cell.col] == EMPTY;
    var before := Add(cur, Counters(1, 0, 0));
    var o, cnt2, back;
    o, back, tt', cnt2 := TryMove(rev, s, depth, rem, player, m, lo, hi, tt, before, stopAt);
    assert back == s;
    var child := Child(cell, lo, hi, o, Sub(cnt2, before));
    Extend(player, alpha, beta, stopAt, cnt, moves, ex, cur, child, cnt2);
    ex', cur' := ex + [child], cnt2;
    if StopSet(stopAt, cur'.nodes) {
      return Stop, ex', b, best, lo, hi, tt', cur';
    }
    verdict, b', best', lo', hi', cur' := Judge(player, alpha, beta, stopAt, cnt, moves, ex, child, b, best, lo, hi, cur');
  }

  /** How the move loop ended: the children `ex`, the outcome, whether a cutoff ended it,
      and the counters `cur` after it. */
  ghost predicate Finished(player: int, alpha: Ext, beta: Ext, stopAt: Option<nat>, cnt: Counters,
                           moves: seq<Move>, ex: seq<Child>, out: Outcome, cut: bool, cur: Counters)
  {
    && Explored(player, alpha, beta, stopAt, cnt.nodes, moves, ex, out)
    && (cut <==> out.Done? && CutOff(player, ex, alpha, beta))
    && cur == Add(Add(cnt, Tally(ex)), OwnCut(player, cut))
  }

  /** The variables of the move loop after the children `ex`, which let it go on: `b`,
      `best_move`, the window and the counters `cur`. */
  ghost predicate Looping(player: int, alpha: Ext, beta: Ext, stopAt: Option<nat>, cnt: Counters,
                          moves: seq<Move>, ex: seq<Child>, b: Ext, best: Option<Cell>, lo: Ext, hi: Ext,
                          cur: Counters)
  {
    && Trace(player, alpha, beta, stopAt, cnt.nodes, moves, ex)
    && (|ex| > 0 ==> WentOn(player, alpha, beta, stopAt, cnt.nodes, ex))
    && b == Best(player, ex) && best == BestMove(player, ex)
    && (lo, hi) == Window(player, alpha, beta, ex)
    && cur == Add(cnt, Tally(ex))
  }

  /** The child `c` after the children `p` finished with the stop flag clear. */
  ghost predicate Settled(player: int, alpha: Ext, beta: Ext, stopAt: Option<nat>, cnt: Counters,
                          moves: seq<Move>, p: seq<Child>, c: Child)
  {
    && Trace(player, alpha, beta, stopAt, cnt.nodes, moves, p + [c])
    && c.out.Done? && !StopSet(stopAt, cnt.nodes + Tally(p + [c]).nodes)
  }

  /** A child searched with the loop's window after the children `ex`: the trace grows by
      it, its counters add up, and the loop ends at once if the flag is now set. */
  lemma Extend(player: int, alpha: Ext, beta: Ext, stopAt: Option<nat>, cnt: Counters, moves: seq<Move>,
               ex: seq<Child>, cur: Counters, c: Child, after: Counters)
    requires Trace(player, alpha, beta, stopAt, cnt.nodes, moves, ex)
    requires |ex| > 0 ==> WentOn(player, alpha, beta, stopAt, cnt.nodes, ex)
    requires cur == Add(cnt, Tally(ex))
    requires |ex| < |moves| && c.cell == Cell(moves[|ex|].row, moves[|ex|].col)
    requires (c.lo, c.hi) == Window(player, alpha, beta, ex)
    requires Grew(Add(cur, Counters(1, 0, 0)), after) && c.spent == Sub(after, Add(cur, Counters(1, 0, 0)))
    requires c.out.Stopped? ==> StopSet(stopAt, after.nodes)
    ensures after == Add(cnt, Tally(ex + [c]))
    ensures StopSet(stopAt, after.nodes) ==> Finished(player, alpha, beta, stopAt, cnt, moves, ex + [c], Stopped, false, after)
    ensures !StopSet(stopAt, after.nodes) ==> Settled(player, alpha, beta, stopAt, cnt, moves, ex, c)
  {
    TraceStep(player, alpha, beta, stopAt, cnt.nodes, moves, ex, c);
    var before := Add(cur, Counters(1, 0, 0));
    assert Add(before, c.spent) == after;
    CountStep(cnt, Tally(ex), Tally(ex + [c]), cur, c.spent, after);
    if StopSet(stopAt, after.nodes) {
      StopNow(player, alpha, beta, stopAt, cnt, moves, ex + [c], after);
    }
  }

  /** The counters after one more child add up. */
  lemma CountStep(cnt: Counters, t: Counters, t': Counters, cur: Counters, spent: Counters, after: Counters)
    requires cur == Add(cnt, t) && t' == Add(t, Add(Counters(1, 0, 0), spent))
    requires after == Add(Add(cur, Counters(1, 0, 0)), spent)
    ensures after == Add(cnt, t')
  {
  }

  /** The flag is set after the children `ex`: the loop reports a stop. */
  lemma StopNow(player: int, alpha: Ext, beta: Ext, stopAt: Option<nat>, cnt: Counters, moves: seq<Move>,
                ex: seq<Child>, after: Counters)
    requires |ex| >= 1 && Trace(player, alpha, beta, stopAt, cnt.nodes, moves, ex)
    requires after == Add(cnt, Tally(ex)) && StopSet(stopAt, after.nodes)
    ensures Finished(player, alpha, beta, stopAt, cnt, moves, ex, Stopped, false, after)
  {
  }

  /** The tests of the move loop after a child `c` that finished with the stop flag
      clear: a better score becomes `b` and its move `best_move`, and the loop breaks on
      a winning one; otherwise a crossed bound cuts the loop off, and counts the cut;
      otherwise the bound on the player's side of the window moves up to `b`. */
  method Judge(player: int, alpha: Ext, beta: Ext, stopAt: Option<nat>, cnt: Counters,
               moves: seq<Move>, p: seq<Child>, c: Child, b: Ext, best: Option<Cell>, lo: Ext, hi: Ext,
               cur: Counters)
    returns (verdict: Verdict, b': Ext, best': Option<Cell>, lo': Ext, hi': Ext, cur': Counters)
    requires Settled(player, alpha, beta, stopAt, cnt, moves, p, c)
    requires b == Best(player, p) && best == BestMove(player, p)
    requires (lo, hi) == Window(player, alpha, beta, p)
    requires cur == Add(cnt, Tally(p + [c]))
    ensures verdict != Stop
    ensures Grew(cur, cur')
    ensures best' == best || best' == Some(c.cell)
    ensures verdict != Next ==>
              b'.Fin? && Finished(player, alpha, beta, stopAt, cnt, moves, p + [c], Done(b'.value, best'), verdict == Cut, cur')
    ensures verdict == Next ==> Looping(player, alpha, beta, stopAt, cnt, moves, p + [c], b', best', lo', hi', cur')
  {
    BestStep(player, p, c);
    var score := c.out.score;
    b', best', lo', hi', cur' := b, best, lo, hi, cur;
    if Improves(player, score, b) {
      b' := Fin(score);
      best' := Some(c.cell);
      if Wins(player, score) {
        ExitBroke(player, alpha, beta, stopAt, cnt, moves, p, c, cur);
        return Break, b', best', lo', hi', cur';
      }
    }
    if Crossed(player, b', alpha, beta) {
      // a beta cut for Black, an alpha cut for White
      ExitCut(player, alpha, beta, stopAt, cnt, moves, p, c, cur);
      cur' := Add(cur, OwnCut(player, true));
      return Cut, b', best', lo', hi', cur';
    }
    lo', hi' := Narrow(player, lo, hi, b').0, Narrow(player, lo, hi, b').1;
    GoOn(player, alpha, beta, stopAt, cnt, moves, p, c, lo, hi, cur);
    verdict := Next;
  }

  lemma BestStep(player: int, p: seq<Child>, c: Child)
    ensures Best(player, p + [c]) == if Improves(player, Score(c), Best(player, p)) then Fin(Score(c)) else Best(player, p)
    ensures BestMove(player, p + [c]) == if Improves(player, Score(c), Best(player, p)) then Some(c.cell) else BestMove(player, p)
  {
    assert (p + [c])[..|p|] == p;
  }

  /** After a first child `b` is a score: the first score improves on the worst bound. */
  lemma {:induction false} BestFin(player: int, ex: seq<Child>)
    requires |ex| > 0
    ensures Best(player, ex).Fin?
    decreases |ex|
  {
    if |ex| > 1 {
      BestFin(player, ex[..|ex| - 1]);
    }
  }

  /** The loop breaks on a winning score of the child `c` after the children `p`. */
  lemma ExitBroke(player: int, alpha: Ext, beta: Ext, stopAt: Option<nat>, cnt: Counters,
                  moves: seq<Move>, p: seq<Child>, c: Child, cur: Counters)
    requires Settled(player, alpha, beta, stopAt, cnt, moves, p, c)
    requires Improves(player, c.out.score, Best(player, p)) && Wins(player, c.out.score)
    requires cur == Add(cnt, Tally(p + [c]))
    ensures Finished(player, alpha, beta, stopAt, cnt, moves, p + [c], Done(c.out.score, Some(c.cell)), false, cur)
  {
    var e := p + [c];
    assert e[..|e| - 1] == p;
  }

  /** The loop is cut off once the bound is crossed after the child `c`. */
  lemma ExitCut(player: int, alpha: Ext, beta: Ext, stopAt: Option<nat>, cnt: Counters,
                moves: seq<Move>, p: seq<Child>, c: Child, cur: Counters)
    requires Settled(player, alpha, beta, stopAt, cnt, moves, p, c)
    requires !(Improves(player, c.out.score, Best(player, p)) && Wins(player, c.out.score))
    requires Crossed(player, Best(player, p + [c]), alpha, beta)
    requires cur == Add(cnt, Tally(p + [c]))
    ensures Best(player, p + [c]).Fin?
    ensures Finished(player, alpha, beta, stopAt, cnt, moves, p + [c],
                     Done(Best(player, p + [c]).value, BestMove(player, p + [c])), true, Add(cur, OwnCut(player, true)))
  {
    var e := p + [c];
    assert e[..|e| - 1] == p;
    BestFin(player, e);
  }

  /** Neither a break nor a cutoff after the child `c`: the loop goes on with the window
      narrowed to `b`. */
  lemma GoOn(player: int, alpha: Ext, beta: Ext, stopAt: Option<nat>, cnt: Counters,
             moves: seq<Move>, p: seq<Child>, c: Child, lo: Ext, hi: Ext, cur: Counters)
    requires Settled(player, alpha, beta, stopAt, cnt, moves, p, c)
    requires !(Improves(player, c.out.score, Best(player, p)) && Wins(player, c.out.score))
    requires !Crossed(player, Best(player, p + [c]), alpha, beta)
    requires (lo, hi) == Window(player, alpha, beta, p)
    requires cur == Add(cnt, Tally(p + [c]))
    ensures var b := Best(player, p + [c]);
            Looping(player, alpha, beta, stopAt, cnt, moves, p + [c], b, BestMove(player, p + [c]),
                    Narrow(player, lo, hi, b).0, Narrow(player, lo, hi, b).1, cur)
  {
    var e := p + [c];
    assert e[..|e| - 1] == p;
    assert Continues(player, e, alpha, beta);
    assert Window(player, alpha, beta, e) == Narrow(player, lo, hi, Best(player, e));
  }

  /** Before the first child. */
  lemma Begin(player: int, alpha: Ext, beta: Ext, stopAt: Option<nat>, cnt: Counters, moves: seq<Move>)
    ensures Looping(player, alpha, beta, stopAt, cnt, moves, [], Worst(player), None, alpha, beta, cnt)
  {
  }

  /** The loop ends after the last move. */
  lemma ExitEnd(player: int, alpha: Ext, beta: Ext, stopAt: Option<nat>, cnt: Counters, moves: seq<Move>,
                ex: seq<Child>, b: Ext, best: Option<Cell>, lo: Ext, hi: Ext, cur: Counters)
    requires |ex| == |moves| >= 1
    requires Looping(player, alpha, beta, stopAt, cnt, moves, ex, b, best, lo, hi, cur)
    ensures b.Fin? && Finished(player, alpha, beta, stopAt, cnt, moves, ex, Done(b.value, best), false, cur)
  {
    BestFin(player, ex);
  }

  /** One pass of the move loop up to the stop test: `make_move`, the search of the
      child for the opponent with the window `(lo, hi)` and one ply less, and
      `undo_move` of the state the child search hands back, which is `s` again. */
  method TryMove(rev: Revision, s: State, depth: int, rem: nat, player: int, m: Move, lo: Ext, hi: Ext,
                 tt: Table, cnt: Counters, stopAt: Option<nat>)
    returns (out: Outcome, s': State, tt': Table, cnt': Counters)
    requires IsGrid(s.board) && Sealed(s, 1) && rem >= 1 && EmptyCount(s.board) >= rem && TableLegal(tt)
    requires OnBoard(m.row, m.col) && s.board[m.row][m.col] == EMPTY
    ensures s' == s
    ensures TableLegal(tt') && Grew(cnt, cnt')
    ensures Frame(tt, tt', EmptyCount(s.board), None)
    ensures out.Stopped? ==> StopSet(stopAt, cnt'.nodes)
    decreases rem, 0
  {
    var c := Play(s, m.row, m.col);
    var c';
    out, c', tt', cnt' := SearchChild(rev, c, depth + 1, rem - 1, -player, lo, hi, tt, cnt, stopAt);
    // the child search hands `c` back, and `Play` promises that undoing its move gives `s`
    s' := UndoMove(c');
    FrameAfterChild(tt, tt', s, c);
  }

  /** The recursive call on the child position, seen only through what every search
      keeps: the table stays legal, the counters grow, and only deeper entries and the
      child's own entry may change. */
  method SearchChild(rev: Revision, c: State, depth: int, rem: nat, player: int, lo: Ext, hi: Ext,
                     tt: Table, cnt: Counters, stopAt: Option<nat>)
    returns (out: Outcome, c': State, tt': Table, cnt': Counters)
    requires IsGrid(c.board) && Sealed(c, 1) && EmptyCount(c.board) >= rem && TableLegal(tt)
    ensures c' == c
    ensures Searched(c, tt, tt', cnt, cnt', stopAt, out)
    decreases rem, 6
  {
    var ex;
    out, c', tt', cnt', ex := Search(rev, c, depth, rem, player, lo, hi, tt, cnt, stopAt);
  }

  /** `make_move` as the move loop needs it: the position after the move keeps the
      invariant, has one empty cell fewer, and `undo_move` gives `s` back. */
  method Play(s: State, row: int, col: int) returns (s': State)
    requires IsGrid(s.board) && Sealed(s, 1) && OnBoard(row, col) && s.board[row][col] == EMPTY
    ensures WellFormed(s') && Sealed(s', 1) && EmptyCount(s'.board) + 1 == EmptyCount(s.board)
    ensures |s'.history| > 0 && UndoMove(s') == s
    ensures s'.board[row][col] == s.player
  {
    Unseal(s);
    MakeMoveKeepsInv(s, row, col);
    EmptyCountAfterMove(s, row, col);
    s' := MakeMove(s, row, col);
    Seal(s');
  }

  /** A child search leaves every entry for a board with as many empty cells as the
      parent's alone. */
  lemma FrameAfterChild(tt: Table, tt': Table, s: State, c: State)
    requires EmptyCount(c.board) + 1 == EmptyCount(s.board)
    requires Frame(tt, tt', EmptyCount(c.board), Some(c.board))
    ensures Frame(tt, tt', EmptyCount(s.board), None)
  {
    forall b | EmptyCount(b) >= EmptyCount(s.board)
      ensures Unchanged(tt, tt', b)
    {
      assert b != c.board;
    }
  }

  lemma FrameTrans(tt: Table, tt1: Table, tt2: Table, e: int)
    requires Frame(tt, tt1, e, None) && Frame(tt1, tt2, e, None)
    ensures Frame(tt, tt2, e, None)
  {
    forall b | EmptyCount(b) >= e
      ensures Unchanged(tt, tt2, b)
    {
      assert Unchanged(tt, tt1, b) && Unchanged(tt1, tt2, b);
    }
  }

  /** Writing the entry of `key` changes no other entry. */
  lemma FrameStore(tt: Table, tt1: Table, key: Board, v: Entry, e: int)
    requires Frame(tt, tt1, e, None)
    ensures Frame(tt, tt1[key := v], e, Some(key))
  {
    forall b | EmptyCount(b) >= e && b != key
      ensures Unchanged(tt, tt1[key := v], b)
    {
      assert Unchanged(tt, tt1, b);
    }
  }

  /** A move fills exactly one empty cell. */
  lemma EmptyCountAfterMove(s: State, row: int, col: int)
    requires WellFormed(s) && OnBoard(row, col) && s.board[row][col] == EMPTY
    ensures EmptyCount(MakeMove(s, row, col).board) + 1 == EmptyCount(s.board)
  {
    var b := SetCell(s.board, row, col, s.player);
    GridExt(b, MakeMove(s, row, col).board);
    EmptyCountSet(s.board, row, col, s.player);
  }

  /** On a position with an empty cell, every move of `get_sorted_moves` is an empty
      cell: an active cell is empty, and with no active cell the board is empty, so the
      fallback (7, 7) is too. */
  lemma MovesAreLegal(rev: Revision, s: State)
    requires IsGrid(s.board) && Sealed(s, 1) && EmptyCount(s.board) >= 1
    ensures LegalMoves(s.board, Moves(rev, s))
  {
    Unseal(s);
    if exists r, c :: OnBoard(r, c) && s.active[r][c] {
      ActiveMovesLegal(rev, s);
    } else {
      FallbackMoveLegal(rev, s);
    }
  }

  /** With an active cell, the moves are active cells, and active cells are empty. */
  lemma ActiveMovesLegal(rev: Revision, s: State)
    requires WellFormed(s) && ActiveExact(s.board, s.active)
    requires exists r, c :: OnBoard(r, c) && s.active[r][c]
    ensures LegalMoves(s.board, SortedMoves(rev, s))
  {
    SortedMovesActive(rev, s);
  }

  /** Without an active cell the board has no stone, so the centre fallback is empty as
      soon as any cell is. */
  lemma FallbackMoveLegal(rev: Revision, s: State)
    requires WellFormed(s) && ActiveExact(s.board, s.active) && EmptyCount(s.board) >= 1
    requires forall r, c :: OnBoard(r, c) ==> !s.active[r][c]
    ensures LegalMoves(s.board, SortedMoves(rev, s))
  {
    SortedMovesFallback(rev, s);
    var e := EmptyCountPositive(s.board);
    NoActiveMeansNoStone(s.board, s.active, e.row, e.col);
  }

}

=== FILE: constants.dfy ===
/** Piece values, the threat weight table and the win threshold of the Gomoku engine.
    Python's `Enum` aliases threats with equal values (BLOCKED_FOUR and OPEN_POKED_FOUR,
    for one), so a threat is modelled by its numeric weight only. Every weight is written
    in float notation in the source but is integral, so all of them are `int` here. */
module Constants {

  const EMPTY: int := 0
  const BLACK: int := 1
  const WHITE: int := -1

  predicate IsPlayer(p: int) {
    p == BLACK || p == WHITE
  }

  predicate IsPiece(v: int) {
    v == EMPTY || IsPlayer(v)
  }

  /** The source writes the opponent as `player * (-1)`. */
  function Opponent(p: int): (q: int)
    ensures IsPlayer(p) ==> IsPlayer(q) && q != p
    ensures q + p == 0
  {
    p * (-1)
  }

  const FIVE: int := 1_000_000_000_000_000

  const OPEN_FOUR: int := 100_000
  const BLOCKED_FOUR: int := 10_000
  const OPEN_POKED_FOUR: int := 10_000
  const BLOCKED_POKED_FOUR: int := 4

  const OPEN_THREE: int := 5_000
  const BLOCKED_THREE: int := 1670
  const OPEN_POKED_THREE: int := 5_000
  const BLOCKED_POKED_THREE: int := 1670

  const OPEN_TWO: int := 1500
  const BLOCKED_TWO: int := 500
  const OPEN_POKED_TWO: int := 1500
  const BLOCKED_POKED_TWO: int := 300

  const NONE: int := 0

  /** The score from which a position counts as won. */
  const WIN: int := 100_000_000_000_000

  /** The values of the threat table. */
  const WEIGHTS: seq<int> := [FIVE,
                              OPEN_FOUR, BLOCKED_FOUR, OPEN_POKED_FOUR, BLOCKED_POKED_FOUR,
                              OPEN_THREE, BLOCKED_THREE, OPEN_POKED_THREE, BLOCKED_POKED_THREE,
                              OPEN_TWO, BLOCKED_TWO, OPEN_POKED_TWO, BLOCKED_POKED_TWO,
                              NONE]

  predicate IsWeight(w: int) {
    w in WEIGHTS
  }

  /** The largest weight other than FIVE. */
  const MAX_MINOR: int := OPEN_FOUR

  /** The facts about the table that the evaluator's contracts rely on: no weight is
      negative, NONE is zero, FIVE alone reaches WIN, two minor threats together stay
      below WIN, and each OPEN shape outweighs its BLOCKED variant. */
  lemma WeightTable()
    ensures forall w :: IsWeight(w) ==> 0 <= w
    ensures NONE == 0 && IsWeight(NONE)
    ensures FIVE >= WIN
    ensures forall w :: IsWeight(w) && w != FIVE ==> w <= MAX_MINOR
    ensures 2 * MAX_MINOR < WIN
    ensures OPEN_FOUR >= BLOCKED_FOUR && OPEN_POKED_FOUR >= BLOCKED_POKED_FOUR
    ensures OPEN_THREE >= BLOCKED_THREE && OPEN_POKED_THREE >= BLOCKED_POKED_THREE
    ensures OPEN_TWO >= BLOCKED_TWO && OPEN_POKED_TWO >= BLOCKED_POKED_TWO
  {
  }
}

=== FILE: evaluator.dfy ===
/** The threat evaluator: for a stone of `p` at (row, col) it builds the four line
    windows through the cell, parses each window into runs of `p` stones with at most
    one single-cell gap, classifies every run against the weight table and scores the
    cell as the sum of the two largest weights.

    Two places of the source read as slips rather than design (see README "Findings");
    `Revision` selects between the code as written and the evidently intended code.
    `Evaluate` and everything built on it take the revision as a parameter: `AsWritten`
    scores as the program does, `Corrected` as it evidently means to. */
module Evaluator {
  import opened Constants
  import opened Grid
  import opened Sorting

  /* ---------------------------------------------------------------------------
     Line windows
     --------------------------------------------------------------------------- */

  /** What `walk` records `i` steps away: the board value, or an opponent marker when
      the step leaves the board. */
  function Look(b: Board, row: int, col: int, d: Dir, i: int, p: int): int
    requires ValidBoard(b)
  {
    var x := StepCell(row, col, d, i);
    if OnBoard(x.row, x.col) then b[x.row][x.col] else Opponent(p)
  }

  /** How a walk ends, with `empty` empty cells seen before it and room for `room` more
      cells: every cell but the last is empty or the player's, at most one empty cell
      precedes the last, and a walk shorter than `room` ended on an opponent value or on
      a second empty cell. */
  ghost predicate StopRule(w: seq<int>, p: int, empty: int, room: int)
    requires |w| > 0
  {
    && (forall k :: 0 <= k < |w| - 1 ==> w[k] == EMPTY || w[k] == p)
    && (empty == 1 ==> forall k :: 0 <= k < |w| - 1 ==> w[k] == p)
    && (forall j, k :: 0 <= j < k < |w| - 1 && w[j] == EMPTY ==> w[k] == p)
    && (|w| < room ==>
          || w[|w| - 1] == Opponent(p)
          || (w[|w| - 1] == EMPTY && (empty == 1 || exists k :: 0 <= k < |w| - 1 && w[k] == EMPTY)))
  }

  /** A walk of one cell ends as the rule says when that cell is an opponent value, a
      second empty cell, or the last the walk has room for. */
  lemma StopRuleSingle(x: int, p: int, empty: int, room: int)
    requires x == Opponent(p) || room <= 1 || (x == EMPTY && empty == 1)
    ensures StopRule([x], p, empty, room)
  {
  }

  lemma StopRulePrepend(v: int, rest: seq<int>, p: int, empty: int, room: int)
    requires |rest| > 0 && (v == EMPTY || v == p) && IsPlayer(p)
    requires v == EMPTY ==> empty == 0
    requires StopRule(rest, p, if v == EMPTY then 1 else empty, room)
    ensures StopRule([v] + rest, p, empty, room + 1)
  {
    var w := [v] + rest;
    assert forall k :: 0 <= k < |rest| ==> w[k + 1] == rest[k];
    if |w| < room + 1 && w[|w| - 1] != Opponent(p) {
      assert w[|w| - 1] == rest[|rest| - 1] == EMPTY;
      if v == EMPTY {
        assert w[0] == EMPTY;
      } else if empty != 1 {
        var k :| 0 <= k < |rest| - 1 && rest[k] == EMPTY;
        assert w[k + 1] == EMPTY;
      }
    }
  }

  /** The five values `walk` can read along `d`, nearest first. */
  function Looks(b: Board, row: int, col: int, d: Dir, p: int): (v: seq<int>)
    requires ValidBoard(b) && IsPlayer(p)
    ensures |v| == 5
    ensures forall k :: 0 <= k < 5 ==> v[k] == Look(b, row, col, d, k + 1, p) && IsPiece(v[k])
  {
    seq(5, k requires 0 <= k < 5 => Look(b, row, col, d, k + 1, p))
  }

  /** Iterations `i + 1..5` of `walk` over the values `v` it reads, `empty` being the
      number of empty cells seen so far. */
  function WalkFrom(v: seq<int>, p: int, i: int, empty: int): (w: seq<int>)
    requires |v| == 5 && IsPlayer(p) && 0 <= i < 5 && 0 <= empty <= 1
    requires forall k :: 0 <= k < 5 ==> IsPiece(v[k])
    ensures 1 <= |w| <= 5 - i
    ensures forall k :: 0 <= k < |w| ==> w[k] == v[i + k]
    ensures StopRule(w, p, empty, 5 - i)
    decreases 5 - i
  {
    // a step off the board reads as an opponent stone and, like one, ends the walk
    if v[i] == EMPTY then
      if empty > 0 || i == 4 then
        StopRuleSingle(EMPTY, p, empty, 5 - i);
        [EMPTY]
      else
        var rest := WalkFrom(v, p, i + 1, empty + 1);
        StopRulePrepend(EMPTY, rest, p, empty, 4 - i);
        ReadsOn(v, i, rest);
        [EMPTY] + rest
    else if v[i] == Opponent(p) || i == 4 then
      StopRuleSingle(v[i], p, empty, 5 - i);
      [v[i]]
    else
      var rest := WalkFrom(v, p, i + 1, empty);
      StopRulePrepend(v[i], rest, p, empty, 4 - i);
      ReadsOn(v, i, rest);
      [v[i]] + rest
  }

  /** The value at `i` followed by values read from `i + 1` on are values read from `i`
      on. */
  lemma ReadsOn(v: seq<int>, i: int, rest: seq<int>)
    requires 0 <= i < |v| && i + 1 + |rest| <= |v|
    requires forall k :: 0 <= k < |rest| ==> rest[k] == v[i + 1 + k]
    ensures forall k :: 0 <= k < |[v[i]] + rest| ==> ([v[i]] + rest)[k] == v[i + k]
  {
  }

  /** `walk`: at most 5 cells along `d`, stopping right after the first opponent stone,
      the first step off the board (recorded as an opponent marker) or the second empty
      cell. */
  function Walk(b: Board, row: int, col: int, d: Dir, p: int): (w: seq<int>)
    requires ValidBoard(b) && IsPlayer(p)
    ensures 1 <= |w| <= 5
    ensures forall k :: 0 <= k < |w| ==> w[k] == Look(b, row, col, d, k + 1, p)
    ensures forall k :: 0 <= k < |w| ==> IsPiece(w[k])
    ensures forall k :: 0 <= k < |w| - 1 ==> w[k] == EMPTY || w[k] == p
    ensures forall j, k :: 0 <= j < k < |w| - 1 && w[j] == EMPTY ==> w[k] == p
    ensures |w| < 5 ==>
              w[|w| - 1] == Opponent(p)
              || (w[|w| - 1] == EMPTY && exists k :: 0 <= k < |w| - 1 && w[k] == EMPTY)
  {
    WalkFrom(Looks(b, row, col, d, p), p, 0, 0)
  }

  function Reverse(s: seq<int>): (r: seq<int>)
    ensures |r| == |s|
    ensures forall k :: 0 <= k < |s| ==> r[k] == s[|s| - 1 - k]
  {
    if |s| == 0 then [] else Reverse(s[1..]) + [s[0]]
  }

  /** A line window of player `p`: pieces only, an opponent value at most at either end,
      and a stone of `p` strictly inside. */
  ghost predicate IsWindow(w: seq<int>, p: int) {
    && IsPlayer(p)
    && 3 <= |w| <= 11
    && (forall k :: 0 <= k < |w| ==> IsPiece(w[k]))
    && (forall k :: 0 < k < |w| - 1 ==> w[k] != Opponent(p))
    && (exists k :: 0 < k < |w| - 1 && w[k] == p)
  }

  /** `get_line`: the reversed walk towards `neg`, the player's own stone, and the walk
      towards `pos`. */
  function GetLine(b: Board, row: int, col: int, neg: Dir, pos: Dir, p: int): (w: seq<int>)
    requires ValidBoard(b) && IsPlayer(p)
    ensures IsWindow(w, p)
    ensures |w| == |Walk(b, row, col, neg, p)| + 1 + |Walk(b, row, col, pos, p)|
    ensures w[|Walk(b, row, col, neg, p)|] == p
  {
    var left := Walk(b, row, col, neg, p);
    var right := Walk(b, row, col, pos, p);
    JoinIsWindow(left, right, p);
    Reverse(left) + [p] + right
  }

  /** Two walks joined around the player's stone make a window. */
  lemma JoinIsWindow(left: seq<int>, right: seq<int>, p: int)
    requires IsPlayer(p) && 1 <= |left| <= 5 && 1 <= |right| <= 5
    requires forall k :: 0 <= k < |left| ==> IsPiece(left[k])
    requires forall k :: 0 <= k < |right| ==> IsPiece(right[k])
    requires forall k :: 0 <= k < |left| - 1 ==> left[k] == EMPTY || left[k] == p
    requires forall k :: 0 <= k < |right| - 1 ==> right[k] == EMPTY || right[k] == p
    ensures IsWindow(Reverse(left) + [p] + right, p)
    ensures (Reverse(left) + [p] + right)[|left|] == p
  {
    JoinParts(left, right, p);
    PartsMakeWindow(Reverse(left) + [p] + right, left, right, p);
  }

  /** A sequence that reads a walk backwards, the player's stone, and another walk
      forwards is a window. */
  lemma PartsMakeWindow(w: seq<int>, left: seq<int>, right: seq<int>, p: int)
    requires IsPlayer(p) && 1 <= |left| <= 5 && 1 <= |right| <= 5
    requires forall k :: 0 <= k < |left| ==> IsPiece(left[k])
    requires forall k :: 0 <= k < |right| ==> IsPiece(right[k])
    requires forall k :: 0 <= k < |left| - 1 ==> left[k] == EMPTY || left[k] == p
    requires forall k :: 0 <= k < |right| - 1 ==> right[k] == EMPTY || right[k] == p
    requires |w| == |left| + 1 + |right| && w[|left|] == p
    requires forall k :: 0 <= k < |left| ==> w[k] == left[|left| - 1 - k]
    requires forall k :: 0 <= k < |right| ==> w[|left| + 1 + k] == right[k]
    ensures IsWindow(w, p)
  {
    forall k | 0 <= k < |w|
      ensures IsPiece(w[k])
      ensures 0 < k < |w| - 1 ==> w[k] != Opponent(p)
    {
      if k < |left| {
        assert w[k] == left[|left| - 1 - k];
      } else if k > |left| {
        assert w[|left| + 1 + (k - |left| - 1)] == right[k - |left| - 1];
      }
    }
    assert 0 < |left| < |w| - 1;
  }

  /** Where the parts of a joined window sit. */
  lemma JoinParts(left: seq<int>, right: seq<int>, p: int)
    ensures |Reverse(left) + [p] + right| == |left| + 1 + |right|
    ensures (Reverse(left) + [p] + right)[|left|] == p
    ensures forall k :: 0 <= k < |left| ==> (Reverse(left) + [p] + right)[k] == left[|left| - 1 - k]
    ensures forall k :: 0 <= k < |right| ==> (Reverse(left) + [p] + right)[|left| + 1 + k] == right[k]
  {
    var lp := Reverse(left) + [p];
    var w := lp + right;
    forall k | 0 <= k < |left| ensures w[k] == left[|left| - 1 - k] {
      assert w[k] == lp[k] == Reverse(left)[k];
    }
    forall k | 0 <= k < |right| ensures w[|left| + 1 + k] == right[k] {
      assert w[|lp| + k] == right[k];
    }
    assert w[|left|] == lp[|left|];
  }

  /** The two directions of each of the four lines: horizontal, vertical and the two
      diagonals. */
  const LINES: seq<(Dir, Dir)> := [(Dir(-1, 0), Dir(1, 0)), (Dir(0, -1), Dir(0, 1)),
                                   (Dir(-1, 1), Dir(1, -1)), (Dir(-1, -1), Dir(1, 1))]

  /** `get_lines_in_each_direction`. */
  function Windows(b: Board, row: int, col: int, p: int): (ws: seq<seq<int>>)
    requires ValidBoard(b) && IsPlayer(p)
    ensures |ws| == 4
    ensures forall k :: 0 <= k < 4 ==> IsWindow(ws[k], p)
  {
    seq(4, k requires 0 <= k < 4 => GetLine(b, row, col, LINES[k].0, LINES[k].1, p))
  }

  /* ---------------------------------------------------------------------------
     Pattern parsing (`find_patterns`)
     --------------------------------------------------------------------------- */

  /** A run: stone count, number of gaps, first index, last index, gap offset. */
  datatype Pattern = Pattern(same: int, gap: int, start: int, end: int, gapIndex: int)

  datatype Revision = AsWritten | Corrected

  /** The local variables of the `find_patterns` loop. */
  datatype Scan = Scan(gap: int, same: int, started: bool, startIdx: int, endIdx: int,
                       pendingGap: int, gapIdx: int, found: seq<Pattern>)

  const InitialScan: Scan := Scan(0, 0, false, -1, -1, 0, -1, [])

  /** Number of stones of `p` in `w[lo..hi)`. */
  function CountStones(w: seq<int>, p: int, lo: int, hi: int): nat
    requires 0 <= lo <= hi <= |w|
    decreases hi - lo
  {
    if lo == hi then 0 else CountStones(w, p, lo, hi - 1) + (if w[hi - 1] == p then 1 else 0)
  }

  lemma {:induction false} CountStonesAll(w: seq<int>, p: int, lo: int, hi: int)
    requires 0 <= lo <= hi <= |w|
    requires forall k :: lo <= k < hi ==> w[k] == p
    ensures CountStones(w, p, lo, hi) == hi - lo
    decreases hi - lo
  {
    if lo < hi {
      CountStonesAll(w, p, lo, hi - 1);
    }
  }

  /** The inner `while seq[startIdx - 1] == player` loop: the number of stones of `p`
      immediately before index `j`. The cell `lo` (a non-stone before `j`) bounds the walk,
      so the source's index never goes below zero. */
  function RunBefore(w: seq<int>, p: int, j: int, lo: int): (n: nat)
    requires 0 <= lo < j <= |w| && w[lo] != p
    ensures n <= j - lo - 1
    ensures forall k :: j - n <= k < j ==> w[k] == p
    ensures w[j - n - 1] != p
    decreases j
  {
    if w[j - 1] != p then 0 else 1 + RunBefore(w, p, j - 1, lo)
  }

  /** The stone count of the run that restarts after a second gap. The source counts
      the stones up to the earlier gap and forgets the stone just read. */
  function RestartCount(rev: Revision, tmp: nat): int {
    match rev
    case AsWritten => tmp + 1
    case Corrected => tmp + 2
  }

  /** The last index a pattern covers, exclusive, within a scan of `[a, b)`. */
  function Limit(pat: Pattern, b: int): int {
    if pat.end + 1 < b then pat.end + 1 else b
  }

  /** What a reported run satisfies: at most one gap, which is an empty cell inside the
      run; and, in the corrected parser, a stone count equal to the stones it covers. */
  ghost predicate PatternOk(rev: Revision, w: seq<int>, p: int, a: int, b: int, pat: Pattern) {
    && 0 <= a <= b <= |w|
    && (pat.gap == 0 || pat.gap == 1)
    && (pat.same > 0 ==>
          && a <= pat.start < Limit(pat, b) <= b
          && w[pat.start] == p
          && (pat.gap == 1 ==>
                pat.start < pat.start + pat.gapIndex < Limit(pat, b) && w[pat.start + pat.gapIndex] == EMPTY)
          && (rev == Corrected ==> pat.same == CountStones(w, p, pat.start, Limit(pat, b))))
  }

  /** Loop invariant of the scan before index `i`. */
  ghost predicate ScanInv(rev: Revision, w: seq<int>, p: int, a: int, b: int, st: Scan, i: int) {
    && IsPlayer(p)
    && 0 <= a <= i <= b <= |w|
    && (forall k :: 0 <= k < |st.found| ==> PatternOk(rev, w, p, a, b, st.found[k]))
    && (st.gap == 0 || st.gap == 1)
    && (st.pendingGap == 0 || st.pendingGap == 1)
    && (!st.started ==> st.same == 0 && st.gap == 0 && st.pendingGap == 0)
    && (st.started ==>
          && a <= st.startIdx < i
          && w[st.startIdx] == p
          && st.same >= 1
          && (st.pendingGap == 0 ==> w[i - 1] == p)
          && (st.pendingGap == 1 ==> st.startIdx <= i - 2 && w[i - 1] == EMPTY && w[i - 2] == p)
          && (st.gap == 1 ==>
                var g := st.startIdx + st.gapIdx;
                st.startIdx < g && g + 1 < i && w[g] == EMPTY && w[g + 1] == p)
          && (rev == Corrected ==> st.same == CountStones(w, p, st.startIdx, i)))
  }

  /** One iteration of the `find_patterns` loop, at index `i`. */
  function ScanStep(rev: Revision, w: seq<int>, p: int, a: int, b: int, st: Scan, i: int): (st': Scan)
    requires ScanInv(rev, w, p, a, b, st, i) && i < b
    requires w[i] == EMPTY || w[i] == p
    ensures ScanInv(rev, w, p, a, b, st', i + 1)
  {
    if w[i] == EMPTY then
      var pending := if st.started then st.pendingGap + 1 else st.pendingGap;
      if pending > 1 then
        // two empty cells in a row close the current run
        var pat := Pattern(st.same, st.gap, st.startIdx, i - pending, st.gapIdx);
        assert PatternOk(rev, w, p, a, b, pat) by {
          if rev == Corrected {
            assert CountStones(w, p, st.startIdx, i) == CountStones(w, p, st.startIdx, i - 1);
          }
        }
        Scan(0, 0, false, i, i, 0, st.gapIdx, st.found + [pat])
      else
        assert st.started && rev == Corrected ==>
          CountStones(w, p, st.startIdx, i + 1) == CountStones(w, p, st.startIdx, i);
        st.(pendingGap := pending)
    else
      var same := st.same + 1;
      var gap := st.gap + st.pendingGap;
      var st1 :=
        if gap > 1 then
          // a second gap: report the run up to the stone before it and restart from the
          // stones that follow the first gap
          var endIdx := i - 2;
          var pat := Pattern(same - 1, 1, st.startIdx, endIdx, st.gapIdx);
          assert PatternOk(rev, w, p, a, b, pat) by {
            if rev == Corrected {
              assert CountStones(w, p, st.startIdx, i) == CountStones(w, p, st.startIdx, i - 1);
            }
          }
          var tmp := RunBefore(w, p, endIdx, st.startIdx + st.gapIdx);
          var start := endIdx - tmp;
          assert rev == Corrected ==> CountStones(w, p, start, i + 1) == RestartCount(rev, tmp) by {
            CountStonesAll(w, p, start, endIdx + 1);
          }
          st.(found := st.found + [pat], startIdx := start, endIdx := start,
              same := RestartCount(rev, tmp), gap := 1)
        else
          st.(same := same, gap := gap);
      var st2 := if st.pendingGap == 1 then st1.(gapIdx := i - 1 - st1.startIdx) else st1;
      var st3 := if !st.started then st2.(startIdx := i) else st2;
      st3.(pendingGap := 0, started := true)
  }

  /** Iterations `i..b-1` of the loop. */
  function ScanFrom(rev: Revision, w: seq<int>, p: int, a: int, b: int, st: Scan, i: int): (st': Scan)
    requires ScanInv(rev, w, p, a, b, st, i)
    requires forall k :: a <= k < b ==> w[k] == EMPTY || w[k] == p
    ensures ScanInv(rev, w, p, a, b, st', b)
    decreases b - i
  {
    if i == b then st else ScanFrom(rev, w, p, a, b, ScanStep(rev, w, p, a, b, st, i), i + 1)
  }

  /** Keeps the runs of more than one stone. */
  function KeepRuns(ps: seq<Pattern>): (r: seq<Pattern>)
    ensures forall k :: 0 <= k < |r| ==> r[k].same > 1
    ensures forall x :: x in r <==> x in ps && x.same > 1
  {
    if |ps| == 0 then []
    else if ps[0].same > 1 then [ps[0]] + KeepRuns(ps[1..])
    else KeepRuns(ps[1..])
  }

  /** `find_patterns(seq, a, b, player)`: the runs of `p` stones in `w[a..b)`, each with
      at most one single-cell gap, keeping only runs of more than one stone. The source
      asserts that the range holds no opponent value. */
  function FindPatterns(rev: Revision, w: seq<int>, a: int, b: int, p: int): (r: seq<Pattern>)
    requires IsPlayer(p)
    requires 0 <= a <= b <= |w|
    requires forall k :: a <= k < b ==> w[k] == EMPTY || w[k] == p
    ensures forall k :: 0 <= k < |r| ==> r[k].same > 1 && PatternOk(rev, w, p, a, b, r[k])
  {
    var st := ScanFrom(rev, w, p, a, b, InitialScan, a);
    var endIdx := if st.pendingGap == 1 then b - 1 else b;
    var last := Pattern(st.same, st.gap, st.startIdx, endIdx, st.gapIdx);
    assert PatternOk(rev, w, p, a, b, last);
    KeepRuns(st.found + [last])
  }

  /* ---------------------------------------------------------------------------
     Classification (`get_threat_type`, `get_threats_in_line`)
     --------------------------------------------------------------------------- */

  /** A run that makes five in a row: five stones without a gap, or more than five with
      the gap exactly five stones from either end. */
  predicate FiveShape(pat: Pattern) {
    || (pat.gap < 1 && pat.same == 5)
    || (pat.gap == 1 && pat.same > 5 && (pat.gapIndex == 5 || pat.same - pat.gapIndex == 5))
  }

  /** `get_threat_type`. */
  function ThreatType(pat: Pattern, blocked: bool): (t: int)
    ensures IsWeight(t)
    ensures t >= WIN <==> FiveShape(pat)
    ensures t == FIVE <==> FiveShape(pat)
  {
    if pat.gap > 1 then NONE
    else if pat.gap == 1 then
      if pat.same == 2 then (if blocked then BLOCKED_POKED_TWO else OPEN_POKED_TWO)
      else if pat.same == 3 then (if blocked then BLOCKED_POKED_THREE else OPEN_POKED_THREE)
      else if pat.same == 4 then (if blocked then BLOCKED_POKED_FOUR else OPEN_POKED_FOUR)
      else if pat.same > 5 && (pat.gapIndex == 5 || pat.same - pat.gapIndex == 5) then FIVE
      else NONE
    else
      if pat.same == 2 then (if blocked then BLOCKED_TWO else OPEN_TWO)
      else if pat.same == 3 then (if blocked then BLOCKED_THREE else OPEN_THREE)
      else if pat.same == 4 then (if blocked then BLOCKED_FOUR else OPEN_FOUR)
      else if pat.same == 5 then FIVE
      else NONE
  }

  /** A blocked run never weighs more than the same run open. */
  lemma BlockedNeverOutweighsOpen(pat: Pattern)
    ensures ThreatType(pat, true) <= ThreatType(pat, false)
    ensures pat.gap <= 1 && 2 <= pat.same <= 4 ==> ThreatType(pat, true) < ThreatType(pat, false)
  {
  }

  /** The weights of the runs of `ps`, each classified with its own `blocked` flag. */
  function Classify(ps: seq<Pattern>, blocked: Pattern -> bool): (ts: seq<int>)
    ensures |ts| == |ps|
    ensures forall k :: 0 <= k < |ps| ==> ts[k] == ThreatType(ps[k], blocked(ps[k]))
  {
    seq(|ps|, k requires 0 <= k < |ps| => ThreatType(ps[k], blocked(ps[k])))
  }

  lemma ClassifyExt(ps: seq<Pattern>, f: Pattern -> bool, g: Pattern -> bool)
    requires forall k :: 0 <= k < |ps| ==> f(ps[k]) == g(ps[k])
    ensures Classify(ps, f) == Classify(ps, g)
  {
  }

  /** `get_threats_in_line`: the weights of the runs in one window. Cells that hold an
      opponent marker are left out of the scan, and a run that touches such a cell is
      blocked. A window enclosed on both sides with fewer than five free cells holds no
      threat. */
  function ThreatsInLine(rev: Revision, w: seq<int>, p: int): (ts: seq<int>)
    requires IsWindow(w, p)
    ensures forall k :: 0 <= k < |ts| ==> IsWeight(ts[k])
    ensures w[0] == Opponent(p) && w[|w| - 1] == Opponent(p) && |w| - 2 < 5 ==> ts == []
  {
    var leftBlocked := w[0] == Opponent(p);
    var rightBlocked := w[|w| - 1] == Opponent(p);
    if leftBlocked && rightBlocked then
      if |w| - 2 < 5 then []
      else
        var start, end := 1, |w| - 1;
        Classify(FindPatterns(rev, w, start, end, p), (pat: Pattern) => pat.start == start || pat.end == end)
    else if leftBlocked then
      Classify(FindPatterns(rev, w, 1, |w|, p), (pat: Pattern) => pat.start == 1)
    else if rightBlocked then
      Classify(FindPatterns(rev, w, 0, |w| - 1, p), RightBlocked(rev, |w|))
    else
      Classify(FindPatterns(rev, w, 0, |w|, p), (pat: Pattern) => false)
  }

  /** The `blocked` test of the right-blocked branch. As written it asks whether the run
      STARTS at the marker's index, which no run does; the corrected test asks whether the
      run ENDS there, as the both-blocked branch does. */
  function RightBlocked(rev: Revision, len: int): Pattern -> bool {
    match rev
    case AsWritten => (pat: Pattern) => pat.start == len - 1
    case Corrected => (pat: Pattern) => pat.end == len - 1
  }

  /** A run is blocked when it starts right after a left marker or ends right at a right
      marker. */
  predicate TouchesMarker(w: seq<int>, p: int, pat: Pattern)
    requires |w| > 0
  {
    (w[0] == Opponent(p) && pat.start == 1) || (w[|w| - 1] == Opponent(p) && pat.end == |w| - 1)
  }

  /** The scanned range of a window: everything except the opponent markers at its ends. */
  function ScanStart(w: seq<int>, p: int): int
    requires |w| > 0
  {
    if w[0] == Opponent(p) then 1 else 0
  }

  function ScanEnd(w: seq<int>, p: int): int
    requires |w| > 0
  {
    if w[|w| - 1] == Opponent(p) then |w| - 1 else |w|
  }

  /** The corrected classifier applies one rule in all four branches: a run is blocked
      exactly when it touches an opponent marker. */
  lemma CorrectedBlockedRule(w: seq<int>, p: int)
    requires IsWindow(w, p)
    requires !(w[0] == Opponent(p) && w[|w| - 1] == Opponent(p) && |w| - 2 < 5)
    ensures forall k :: ScanStart(w, p) <= k < ScanEnd(w, p) ==> w[k] == EMPTY || w[k] == p
    ensures ThreatsInLine(Corrected, w, p)
            == Classify(FindPatterns(Corrected, w, ScanStart(w, p), ScanEnd(w, p), p),
                        (pat: Pattern) => TouchesMarker(w, p, pat))
  {
    var ps := FindPatterns(Corrected, w, ScanStart(w, p), ScanEnd(w, p), p);
    var left, right := w[0] == Opponent(p), w[|w| - 1] == Opponent(p);
    if left && right {
      ClassifyExt(ps, (pat: Pattern) => pat.start == 1 || pat.end == |w| - 1, (pat: Pattern) => TouchesMarker(w, p, pat));
    } else if left {
      ClassifyExt(ps, (pat: Pattern) => pat.start == 1, (pat: Pattern) => TouchesMarker(w, p, pat));
    } else if right {
      ClassifyExt(ps, RightBlocked(Corrected, |w|), (pat: Pattern) => TouchesMarker(w, p, pat));
    } else {
      ClassifyExt(ps, (pat: Pattern) => false, (pat: Pattern) => TouchesMarker(w, p, pat));
    }
  }

  /* ---------------------------------------------------------------------------
     Scoring (`evaluate`)
     --------------------------------------------------------------------------- */

  /** The threats of a list of windows, in order. */
  function WindowThreats(rev: Revision, ws: seq<seq<int>>, p: int): (ts: seq<int>)
    requires forall k :: 0 <= k < |ws| ==> IsWindow(ws[k], p)
    ensures forall k :: 0 <= k < |ts| ==> IsWeight(ts[k])
  {
    if |ws| == 0 then [] else ThreatsInLine(rev, ws[0], p) + WindowThreats(rev, ws[1..], p)
  }

  /** The threats of the four windows through (row, col). */
  function CellThreats(rev: Revision, b: Board, row: int, col: int, p: int): (ts: seq<int>)
    requires ValidBoard(b) && IsPlayer(p)
    ensures forall k :: 0 <= k < |ts| ==> IsWeight(ts[k])
  {
    WindowThreats(rev, Windows(b, row, col, p), p)
  }

  /** `evaluate`: the sum of the two largest threat weights of the four windows. */
  function Evaluate(rev: Revision, b: Board, row: int, col: int, p: int): (v: int)
    requires ValidBoard(b) && IsPlayer(p)
    ensures 0 <= v
    ensures forall k :: 0 <= k < |CellThreats(rev, b, row, col, p)| ==> CellThreats(rev, b, row, col, p)[k] <= v
    ensures v >= WIN <==> FIVE in CellThreats(rev, b, row, col, p)
    ensures v < WIN ==> v <= 2 * MAX_MINOR
  {
    var ts := CellThreats(rev, b, row, col, p);
    TopTwoOfWeights(ts);
    TopTwoSum(ts)
  }

  /** For weights: the top-two sum is 0 with no threat, the threat itself with one, is at
      least every threat, and reaches WIN exactly when one of them is FIVE. */
  lemma TopTwoOfWeights(ts: seq<int>)
    requires forall k :: 0 <= k < |ts| ==> IsWeight(ts[k])
    ensures |ts| == 0 ==> TopTwoSum(ts) == 0
    ensures |ts| == 1 ==> TopTwoSum(ts) == ts[0]
    ensures 0 <= TopTwoSum(ts)
    ensures forall k :: 0 <= k < |ts| ==> ts[k] <= TopTwoSum(ts)
    ensures TopTwoSum(ts) >= WIN <==> FIVE in ts
    ensures FIVE !in ts ==> TopTwoSum(ts) <= 2 * MAX_MINOR
  {
    WeightTable();
    var s := SortDesc(ts, x => x);
    if |ts| == 1 {
      assert s[0] in multiset(ts);
      assert FIVE !in ts ==> ts[0] <= MAX_MINOR;
    } else if |ts| >= 2 {
      TopTwoSumIsBestPair(ts);
      forall k | 0 <= k < |ts| ensures ts[k] <= TopTwoSum(ts) {
        var l := if k == 0 then 1 else 0;
        assert ts[k] + ts[l] <= TopTwoSum(ts);
      }
      var k, l :| 0 <= k < |ts| && 0 <= l < |ts| && k != l && ts[k] + ts[l] == TopTwoSum(ts);
      if FIVE !in ts {
        assert ts[k] <= MAX_MINOR && ts[l] <= MAX_MINOR;
      }
    }
  }

  /* ---------------------------------------------------------------------------
     The `pattern_hash` memo
     --------------------------------------------------------------------------- */

  type Memo = map<seq<int>, seq<int>>

  /** Every stored window maps to its threats. The key is the window alone, without the
      player: this is sound because a window determines its player. */
  ghost predicate MemoSound(rev: Revision, m: Memo) {
    forall w, q :: w in m && IsWindow(w, q) ==> m[w] == ThreatsInLine(rev, w, q)
  }

  /** A window holds a stone of its player inside and no opponent value inside, so no
      window belongs to both players. */
  lemma WindowDeterminesPlayer(w: seq<int>, p: int, q: int)
    requires IsWindow(w, p) && IsWindow(w, q)
    ensures p == q
  {
    var k :| 0 < k < |w| - 1 && w[k] == p;
    assert w[k] != Opponent(q);
  }

  /** Looks a window up in the memo, computing and storing its threats on a miss. */
  function Lookup(rev: Revision, m: Memo, w: seq<int>, p: int): (r: (seq<int>, Memo))
    requires IsWindow(w, p)
    requires MemoSound(rev, m)
    ensures r.0 == ThreatsInLine(rev, w, p)
    ensures MemoSound(rev, r.1)
    ensures w in r.1 && m.Keys <= r.1.Keys
  {
    if w in m then (m[w], m)
    else
      var t := ThreatsInLine(rev, w, p);
      var m' := m[w := t];
      assert MemoSound(rev, m') by {
        forall w', q | w' in m' && IsWindow(w', q) ensures m'[w'] == ThreatsInLine(rev, w', q) {
          if w' == w {
            WindowDeterminesPlayer(w, p, q);
          }
        }
      }
      (t, m')
  }

  /** The threats of a list of windows, read through the memo. */
  function LookupAll(rev: Revision, m: Memo, ws: seq<seq<int>>, p: int): (r: (seq<int>, Memo))
    requires forall k :: 0 <= k < |ws| ==> IsWindow(ws[k], p)
    requires MemoSound(rev, m)
    ensures r.0 == WindowThreats(rev, ws, p)
    ensures MemoSound(rev, r.1)
    ensures m.Keys <= r.1.Keys
    ensures forall k :: 0 <= k < |ws| ==> ws[k] in r.1
    decreases |ws|
  {
    if |ws| == 0 then ([], m)
    else
      var r0 := Lookup(rev, m, ws[0], p);
      var r1 := LookupAll(rev, r0.1, ws[1..], p);
      assert ws == [ws[0]] + ws[1..];
      (r0.0 + r1.0, r1.1)
  }

  /** `evaluate` with the memo threaded through: the memo is transparent, the score is
      the one computed without it, and the memo stays sound. */
  function EvaluateMemo(rev: Revision, m: Memo, b: Board, row: int, col: int, p: int): (r: (int, Memo))
    requires ValidBoard(b) && IsPlayer(p)
    requires MemoSound(rev, m)
    ensures r.0 == Evaluate(rev, b, row, col, p)
    ensures MemoSound(rev, r.1)
    ensures forall k :: 0 <= k < 4 ==> Windows(b, row, col, p)[k] in r.1
  {
    var ws := Windows(b, row, col, p);
    var r := LookupAll(rev, m, ws, p);
    (TopTwoSum(r.0), r.1)
  }

  /* ---------------------------------------------------------------------------
     Locality: a cell's score depends only on the cells up to five steps away along
     the eight directions. This is why the game state may keep every other cached
     score after a move.
     --------------------------------------------------------------------------- */

  ghost predicate AgreeAround(b1: Board, b2: Board, row: int, col: int) {
    && ValidBoard(b1) && ValidBoard(b2)
    && forall r, c :: OnBoard(r, c) && InStar(row, col, r, c, 5) ==> b1[r][c] == b2[r][c]
  }

  lemma LooksLocal(b1: Board, b2: Board, row: int, col: int, d: Dir, p: int)
    requires AgreeAround(b1, b2, row, col) && IsUnitDir(d) && IsPlayer(p)
    ensures Looks(b1, row, col, d, p) == Looks(b2, row, col, d, p)
  {
    forall j | 1 <= j <= 5
      ensures Look(b1, row, col, d, j, p) == Look(b2, row, col, d, j, p)
    {
      StepInStar(row, col, d, j, 5);
    }
  }

  lemma EvaluateLocal(rev: Revision, b1: Board, b2: Board, row: int, col: int, p: int)
    requires AgreeAround(b1, b2, row, col) && IsPlayer(p)
    ensures Windows(b1, row, col, p) == Windows(b2, row, col, p)
    ensures Evaluate(rev, b1, row, col, p) == Evaluate(rev, b2, row, col, p)
  {
    forall k | 0 <= k < 4
      ensures Windows(b1, row, col, p)[k] == Windows(b2, row, col, p)[k]
    {
      LooksLocal(b1, b2, row, col, LINES[k].0, p);
      LooksLocal(b1, b2, row, col, LINES[k].1, p);
    }
  }

  /* ---------------------------------------------------------------------------
     The two slips of the source, each shown on a concrete window
     --------------------------------------------------------------------------- */

  /** One unfolding of the scan loop. */
  lemma ScanFromStep(rev: Revision, w: seq<int>, p: int, a: int, b: int, st: Scan, i: int, st': Scan)
    requires ScanInv(rev, w, p, a, b, st, i) && i < b
    requires forall k :: a <= k < b ==> w[k] == EMPTY || w[k] == p
    requires ScanStep(rev, w, p, a, b, st, i) == st'
    ensures ScanInv(rev, w, p, a, b, st', i + 1)
    ensures ScanFrom(rev, w, p, a, b, st, i) == ScanFrom(rev, w, p, a, b, st', i + 1)
  {
  }

  /** The runs of `. . x x` (left end of a right-blocked window). */
  lemma ScanRightBlocked(rev: Revision, w: seq<int>)
    requires w == [0, 0, 1, 1, -1]
    ensures FindPatterns(rev, w, 0, 4, BLACK) == [Pattern(2, 0, 2, 4, -1)]
  {
    var s0 := InitialScan;
    var s3 := Scan(0, 1, true, 2, -1, 0, -1, []);
    var s4 := Scan(0, 2, true, 2, -1, 0, -1, []);
    ScanFromStep(rev, w, BLACK, 0, 4, s0, 0, s0);
    ScanFromStep(rev, w, BLACK, 0, 4, s0, 1, s0);
    ScanFromStep(rev, w, BLACK, 0, 4, s0, 2, s3);
    ScanFromStep(rev, w, BLACK, 0, 4, s3, 3, s4);
    var st := ScanFrom(rev, w, BLACK, 0, 4, s0, 0);
    assert st == s4;
    var last := Pattern(st.same, st.gap, st.startIdx, 4, st.gapIdx);
    assert st.found + [last] == [Pattern(2, 0, 2, 4, -1)];
    assert FindPatterns(rev, w, 0, 4, BLACK) == KeepRuns(st.found + [last]);
    assert KeepRuns([Pattern(2, 0, 2, 4, -1)]) == [Pattern(2, 0, 2, 4, -1)];
  }

  /** The runs of `x x . .` (right end of a left-blocked window). */
  lemma ScanLeftBlocked(rev: Revision, w: seq<int>)
    requires w == [-1, 1, 1, 0, 0]
    ensures FindPatterns(rev, w, 1, 5, BLACK) == [Pattern(2, 0, 1, 2, -1)]
  {
    var s0 := InitialScan;
    var s2 := Scan(0, 1, true, 1, -1, 0, -1, []);
    var s3 := Scan(0, 2, true, 1, -1, 0, -1, []);
    var s4 := Scan(0, 2, true, 1, -1, 1, -1, []);
    var s5 := Scan(0, 0, false, 4, 4, 0, -1, [Pattern(2, 0, 1, 2, -1)]);
    ScanFromStep(rev, w, BLACK, 1, 5, s0, 1, s2);
    ScanFromStep(rev, w, BLACK, 1, 5, s2, 2, s3);
    ScanFromStep(rev, w, BLACK, 1, 5, s3, 3, s4);
    ScanFromStep(rev, w, BLACK, 1, 5, s4, 4, s5);
    assert KeepRuns([Pattern(2, 0, 1, 2, -1), Pattern(0, 0, 4, 5, -1)]) == [Pattern(2, 0, 1, 2, -1)];
  }

  lemma ThreatsRightBlocked(rev: Revision, w: seq<int>)
    requires w == [0, 0, 1, 1, -1]
    ensures IsWindow(w, BLACK)
    ensures ThreatsInLine(rev, w, BLACK) == [if rev == AsWritten then OPEN_TWO else BLOCKED_TWO]
  {
    assert w[2] == BLACK;
    ScanRightBlocked(rev, w);
    var pat := Pattern(2, 0, 2, 4, -1);
    assert ThreatsInLine(rev, w, BLACK) == Classify([pat], RightBlocked(rev, 5));
    assert RightBlocked(rev, 5)(pat) == (rev == Corrected);
  }

  lemma ThreatsLeftBlocked(rev: Revision, m: seq<int>)
    requires m == [-1, 1, 1, 0, 0]
    ensures IsWindow(m, BLACK)
    ensures ThreatsInLine(rev, m, BLACK) == [BLOCKED_TWO]
  {
    assert m[1] == BLACK;
    ScanLeftBlocked(rev, m);
    var pat := Pattern(2, 0, 1, 2, -1);
    assert ThreatsInLine(rev, m, BLACK) == Classify([pat], (pat: Pattern) => pat.start == 1);
  }

  /** Right-blocked windows: as written, the two-stone run of `. . x x X` (X the
      opponent marker) is scored OPEN_TWO, while its mirror image `X x x . .` is scored
      BLOCKED_TWO. The corrected test scores both BLOCKED_TWO. */
  lemma RightBlockedSlip(w: seq<int>, m: seq<int>)
    requires w == [0, 0, 1, 1, -1] && m == [-1, 1, 1, 0, 0]
    ensures IsWindow(w, BLACK) && IsWindow(m, BLACK)
    ensures ThreatsInLine(AsWritten, w, BLACK) == [OPEN_TWO]
    ensures ThreatsInLine(AsWritten, m, BLACK) == [BLOCKED_TWO]
    ensures ThreatsInLine(Corrected, w, BLACK) == [BLOCKED_TWO]
    ensures ThreatsInLine(Corrected, m, BLACK) == [BLOCKED_TWO]
  {
    ThreatsRightBlocked(AsWritten, w);
    ThreatsRightBlocked(Corrected, w);
    ThreatsLeftBlocked(AsWritten, m);
    ThreatsLeftBlocked(Corrected, m);
  }

  /** The scan of `x . x x . x .` up to the second gap. */
  lemma ScanRestartHead(rev: Revision, w: seq<int>)
    requires w == [-1, 1, 0, 1, 1, 0, 1, 0]
    ensures ScanInv(rev, w, BLACK, 1, 8, Scan(1, 3, true, 1, -1, 1, 1, []), 6)
    ensures ScanFrom(rev, w, BLACK, 1, 8, InitialScan, 1)
            == ScanFrom(rev, w, BLACK, 1, 8, Scan(1, 3, true, 1, -1, 1, 1, []), 6)
  {
    var s0 := InitialScan;
    var s2 := Scan(0, 1, true, 1, -1, 0, -1, []);
    var s3 := Scan(0, 1, true, 1, -1, 1, -1, []);
    var s4 := Scan(1, 2, true, 1, -1, 0, 1, []);
    var s5 := Scan(1, 3, true, 1, -1, 0, 1, []);
    var s6 := Scan(1, 3, true, 1, -1, 1, 1, []);
    ScanFromStep(rev, w, BLACK, 1, 8, s0, 1, s2);
    ScanFromStep(rev, w, BLACK, 1, 8, s2, 2, s3);
    ScanFromStep(rev, w, BLACK, 1, 8, s3, 3, s4);
    ScanFromStep(rev, w, BLACK, 1, 8, s4, 4, s5);
    ScanFromStep(rev, w, BLACK, 1, 8, s5, 5, s6);
  }

  /** The scan of `x . x x . x .` from the stone after the second gap. */
  lemma ScanRestartTail(rev: Revision, w: seq<int>)
    requires w == [-1, 1, 0, 1, 1, 0, 1, 0]
    requires ScanInv(rev, w, BLACK, 1, 8, Scan(1, 3, true, 1, -1, 1, 1, []), 6)
    ensures ScanFrom(rev, w, BLACK, 1, 8, Scan(1, 3, true, 1, -1, 1, 1, []), 6)
            == Scan(1, RestartCount(rev, 1), true, 3, 3, 1, 2, [Pattern(3, 1, 1, 4, 1)])
  {
    var s6 := Scan(1, 3, true, 1, -1, 1, 1, []);
    var s7 := Scan(1, RestartCount(rev, 1), true, 3, 3, 0, 2, [Pattern(3, 1, 1, 4, 1)]);
    var s8 := Scan(1, RestartCount(rev, 1), true, 3, 3, 1, 2, [Pattern(3, 1, 1, 4, 1)]);
    assert RunBefore(w, BLACK, 4, 2) == 1;
    ScanFromStep(rev, w, BLACK, 1, 8, s6, 6, s7);
    ScanFromStep(rev, w, BLACK, 1, 8, s7, 7, s8);
  }

  /** The runs of `x . x x . x .` (the scanned part of a left-blocked window). */
  lemma ScanRestart(rev: Revision, w: seq<int>)
    requires w == [-1, 1, 0, 1, 1, 0, 1, 0]
    ensures FindPatterns(rev, w, 1, 8, BLACK)
            == [Pattern(3, 1, 1, 4, 1), Pattern(RestartCount(rev, 1), 1, 3, 7, 2)]
  {
    ScanRestartHead(rev, w);
    ScanRestartTail(rev, w);
    var st := ScanFrom(rev, w, BLACK, 1, 8, InitialScan, 1);
    assert st == Scan(1, RestartCount(rev, 1), true, 3, 3, 1, 2, [Pattern(3, 1, 1, 4, 1)]);
    var last := Pattern(st.same, st.gap, st.startIdx, 7, st.gapIdx);
    assert FindPatterns(rev, w, 1, 8, BLACK) == KeepRuns(st.found + [last]);
    assert KeepRuns([last]) == [last];
    assert KeepRuns(st.found + [last]) == [Pattern(3, 1, 1, 4, 1), last];
  }

  lemma ThreatsRestart(rev: Revision, w: seq<int>)
    requires w == [-1, 1, 0, 1, 1, 0, 1, 0]
    ensures IsWindow(w, BLACK)
    ensures ThreatsInLine(rev, w, BLACK)
            == [BLOCKED_POKED_THREE, if rev == AsWritten then OPEN_POKED_TWO else OPEN_POKED_THREE]
  {
    RestartWindow(w);
    assert w[0] == Opponent(BLACK) && w[|w| - 1] != Opponent(BLACK);
    ScanRestart(rev, w);
    var ps := [Pattern(3, 1, 1, 4, 1), Pattern(RestartCount(rev, 1), 1, 3, 7, 2)];
    var f := (pat: Pattern) => pat.start == 1;
    assert ThreatsInLine(rev, w, BLACK) == Classify(ps, f);
    ClassifyPair(ps[0], ps[1], f);
    assert f(ps[0]) && !f(ps[1]);
    RestartTypes(rev);
  }

  /** `Classify` of two runs. */
  lemma ClassifyPair(x: Pattern, y: Pattern, blocked: Pattern -> bool)
    ensures Classify([x, y], blocked) == [ThreatType(x, blocked(x)), ThreatType(y, blocked(y))]
  {
    assert [x, y][1..] == [y];
  }

  lemma RestartWindow(w: seq<int>)
    requires w == [-1, 1, 0, 1, 1, 0, 1, 0]
    ensures IsWindow(w, BLACK)
  {
    forall k | 0 <= k < |w|
      ensures IsPiece(w[k]) && (0 < k < |w| - 1 ==> w[k] != Opponent(BLACK))
    {
    }
    assert 0 < 1 < |w| - 1 && w[1] == BLACK;
  }

  /** The weights of the two runs of `ThreatsRestart`. */
  lemma RestartTypes(rev: Revision)
    ensures ThreatType(Pattern(3, 1, 1, 4, 1), true) == BLOCKED_POKED_THREE
    ensures ThreatType(Pattern(RestartCount(rev, 1), 1, 3, 7, 2), false)
            == if rev == AsWritten then OPEN_POKED_TWO else OPEN_POKED_THREE
  {
  }

  /** Restarting after a second gap: in `X x . x x . x .` the run that restarts at index
      3 covers the stones at 3, 4 and 6, but the source counts two of them and reports an
      OPEN_POKED_TWO where the corrected count gives an OPEN_POKED_THREE. */
  lemma RestartUndercount(w: seq<int>)
    requires w == [-1, 1, 0, 1, 1, 0, 1, 0]
    ensures IsWindow(w, BLACK)
    ensures FindPatterns(AsWritten, w, 1, 8, BLACK) == [Pattern(3, 1, 1, 4, 1), Pattern(2, 1, 3, 7, 2)]
    ensures CountStones(w, BLACK, 3, 8) == 3
    ensures FindPatterns(Corrected, w, 1, 8, BLACK) == [Pattern(3, 1, 1, 4, 1), Pattern(3, 1, 3, 7, 2)]
    ensures ThreatsInLine(AsWritten, w, BLACK) == [BLOCKED_POKED_THREE, OPEN_POKED_TWO]
    ensures ThreatsInLine(Corrected, w, BLACK) == [BLOCKED_POKED_THREE, OPEN_POKED_THREE]
  {
    RestartWindow(w);
    ScanRestart(AsWritten, w);
    ScanRestart(Corrected, w);
    ThreatsRestart(AsWritten, w);
    ThreatsRestart(Corrected, w);
  }
}

=== FILE: game_state.dfy ===
/** The game state: the board, the map of candidate ("active") cells, the player to move
    and the undo stack. A state is a value; `MakeMove` and `UndoMove` return the next
    state. The Zobrist hash is a stub in the source; positions are identified by their
    board here, so the state keeps no hash. */
module GameState {
  import opened Constants
  import opened Grid
  import opened Sorting
  import opened Evaluator

  type ActiveMap = seq<seq<bool>>

  /** One undo record: the cell played, the flags flipped by the move and the player who
      moved. */
  datatype Record = Record(row: int, col: int, changes: seq<Cell>, player: int)

  datatype State = State(board: Board, active: ActiveMap, player: int, history: seq<Record>)

  /** The eight directions of `update_active_map` and `invalidate`, as (dx, dy), in the
      source's order. */
  const DIRS: seq<Dir> := [Dir(0, 1), Dir(1, 0), Dir(1, 1), Dir(-1, -1),
                           Dir(-1, 1), Dir(1, -1), Dir(-1, 0), Dir(0, -1)]

  /* ---------------------------------------------------------------------------
     The sixteen cells one or two steps from a cell, in the order the source visits
     them: offset `j` is `j % 2 + 1` steps along `DIRS[j / 2]`.
     --------------------------------------------------------------------------- */

  function Offset(row: int, col: int, j: int): Cell
    requires 0 <= j < 16
  {
    StepCell(row, col, DIRS[j / 2], j % 2 + 1)
  }

  function Sign(x: int): int {
    if x > 0 then 1 else if x < 0 then -1 else 0
  }

  function Abs(x: int): int {
    if x < 0 then -x else x
  }

  /** The position of direction (dx, dy) in `DIRS`. */
  function DirIndex(dx: int, dy: int): int {
    if dx == 0 && dy == 1 then 0
    else if dx == 1 && dy == 0 then 1
    else if dx == 1 && dy == 1 then 2
    else if dx == -1 && dy == -1 then 3
    else if dx == -1 && dy == 1 then 4
    else if dx == 1 && dy == -1 then 5
    else if dx == -1 && dy == 0 then 6
    else 7
  }

  /** The offset index of (r, c) relative to (row, col), or -1 when (r, c) is not one or
      two steps away along a direction. */
  function StarIndex(row: int, col: int, r: int, c: int): (j: int)
    ensures InStar(row, col, r, c, 2) ==> 0 <= j < 16 && Offset(row, col, j) == Cell(r, c)
    ensures !InStar(row, col, r, c, 2) ==> j == -1
  {
    if !InStar(row, col, r, c, 2) then -1
    else
      var dr, dc := r - row, c - col;
      var steps := if Abs(dr) > Abs(dc) then Abs(dr) else Abs(dc);
      2 * DirIndex(Sign(dc), Sign(dr)) + steps - 1
  }

  /** Offset `j` is in the star and has index `j`: the sixteen offsets are distinct. */
  lemma OffsetIndex(row: int, col: int, j: int)
    requires 0 <= j < 16
    ensures InStar(row, col, Offset(row, col, j).row, Offset(row, col, j).col, 2)
    ensures StarIndex(row, col, Offset(row, col, j).row, Offset(row, col, j).col) == j
  {
    StepInStar(row, col, DIRS[j / 2], j % 2 + 1, 2);
  }

  /* ---------------------------------------------------------------------------
     The active map
     --------------------------------------------------------------------------- */

  predicate NoDup<T(==)>(s: seq<T>) {
    forall i, j :: 0 <= i < j < |s| ==> s[i] != s[j]
  }

  /** The flag `update_active_map(row, col)` leaves on (r, c) after the first `k`
      offsets: off at the played cell, on at each visited empty cell, unchanged
      elsewhere. */
  ghost function ActiveAfter(b: Board, a: ActiveMap, row: int, col: int, k: int, r: int, c: int): bool
    requires IsGrid(b) && IsGrid(a) && OnBoard(r, c)
  {
    if r == row && c == col then false
    else if 0 <= StarIndex(row, col, r, c) < k && b[r][c] == EMPTY then true
    else a[r][c]
  }

  /** `changes` lists, without repetition, exactly the cells where `a'` differs from `a`. */
  ghost predicate ExactChanges(a: ActiveMap, a': ActiveMap, changes: seq<Cell>)
    requires IsGrid(a) && IsGrid(a')
  {
    && NoDup(changes)
    && (forall k :: 0 <= k < |changes| ==> OnBoard(changes[k].row, changes[k].col))
    && (forall r, c :: OnBoard(r, c) ==> (Cell(r, c) in changes <==> a'[r][c] != a[r][c]))
  }

  /** Visiting offset `k` can only switch on that one cell. */
  lemma ActiveAfterStep(b: Board, a0: ActiveMap, row: int, col: int, k: int)
    requires IsGrid(b) && IsGrid(a0) && OnBoard(row, col) && 0 <= k < 16
    ensures forall r, c :: OnBoard(r, c) ==>
              ActiveAfter(b, a0, row, col, k + 1, r, c)
              == if Cell(r, c) == Offset(row, col, k) && b[r][c] == EMPTY then true
                 else ActiveAfter(b, a0, row, col, k, r, c)
    ensures forall r, c :: OnBoard(r, c) && Cell(r, c) == Offset(row, col, k) ==>
              ActiveAfter(b, a0, row, col, k, r, c) == a0[r][c]
  {
    var x := Offset(row, col, k);
    OffsetIndex(row, col, k);
    forall r, c | OnBoard(r, c)
      ensures StarIndex(row, col, r, c) == k <==> Cell(r, c) == x
    {
    }
  }

  /** Offsets `k..15` of the loop of `update_active_map`. */
  function ActivateFrom(b: Board, a0: ActiveMap, row: int, col: int, k: int, a: ActiveMap, changes: seq<Cell>)
    : (r: (ActiveMap, seq<Cell>))
    requires IsGrid(b) && IsGrid(a0) && IsGrid(a) && OnBoard(row, col) && 0 <= k <= 16
    requires forall r, c :: OnBoard(r, c) ==> a[r][c] == ActiveAfter(b, a0, row, col, k, r, c)
    requires ExactChanges(a0, a, changes)
    ensures IsGrid(r.0)
    ensures forall r', c' :: OnBoard(r', c') ==> r.0[r'][c'] == ActiveAfter(b, a0, row, col, 16, r', c')
    ensures ExactChanges(a0, r.0, r.1)
    decreases 16 - k
  {
    if k == 16 then (a, changes)
    else
      var x := Offset(row, col, k);
      ActiveAfterStep(b, a0, row, col, k);
      if OnBoard(x.row, x.col) && b[x.row][x.col] == EMPTY && !a[x.row][x.col] then
        var a' := SetCell(a, x.row, x.col, true);
        ActivateFrom(b, a0, row, col, k + 1, a', changes + [x])
      else
        ActivateFrom(b, a0, row, col, k + 1, a, changes)
  }

  /** `update_active_map(row, col)`: the played cell becomes inactive, every empty cell
      one or two steps away along the eight directions becomes active, and no other flag
      changes. The change list names exactly the flipped flags, once each. */
  function UpdateActiveMap(b: Board, a: ActiveMap, row: int, col: int): (r: (ActiveMap, seq<Cell>))
    requires IsGrid(b) && IsGrid(a) && OnBoard(row, col)
    ensures IsGrid(r.0)
    ensures !r.0[row][col]
    ensures forall r', c' :: OnBoard(r', c') && InStar(row, col, r', c', 2) && b[r'][c'] == EMPTY ==> r.0[r'][c']
    ensures forall r', c' ::
              (OnBoard(r', c') && (r' != row || c' != col) && !(InStar(row, col, r', c', 2) && b[r'][c'] == EMPTY))
              ==> r.0[r'][c'] == a[r'][c']
    ensures ExactChanges(a, r.0, r.1)
  {
    if a[row][col] then
      var a' := SetCell(a, row, col, false);
      ActivateFrom(b, a, row, col, 0, a', [Cell(row, col)])
    else
      ActivateFrom(b, a, row, col, 0, a, [])
  }

  /** `undo_active_map_changes`: toggles every listed flag. */
  function ToggleAll(a: ActiveMap, changes: seq<Cell>): (a': ActiveMap)
    requires IsGrid(a)
    requires forall k :: 0 <= k < |changes| ==> OnBoard(changes[k].row, changes[k].col)
    requires NoDup(changes)
    ensures IsGrid(a')
    ensures forall r, c :: OnBoard(r, c) ==> a'[r][c] == (if Cell(r, c) in changes then !a[r][c] else a[r][c])
  {
    if |changes| == 0 then a
    else
      var x := changes[|changes| - 1];
      var rest := changes[..|changes| - 1];
      assert changes == rest + [x];
      assert x !in rest;
      var t := ToggleAll(a, rest);
      SetCell(t, x.row, x.col, !t[x.row][x.col])
  }

  /** Toggling exactly the flipped flags restores the map. */
  lemma ToggleRestores(a: ActiveMap, a': ActiveMap, changes: seq<Cell>)
    requires IsGrid(a) && IsGrid(a') && ExactChanges(a, a', changes)
    ensures ToggleAll(a', changes) == a
  {
    GridExt(ToggleAll(a', changes), a);
  }

  /* ---------------------------------------------------------------------------
     Moves
     --------------------------------------------------------------------------- */

  ghost predicate WellFormed(s: State) {
    && ValidBoard(s.board)
    && IsGrid(s.active)
    && IsPlayer(s.player)
    && forall k :: 0 <= k < |s.history| ==>
         && OnBoard(s.history[k].row, s.history[k].col)
         && IsPlayer(s.history[k].player)
         && NoDup(s.history[k].changes)
         && forall j :: 0 <= j < |s.history[k].changes| ==>
              OnBoard(s.history[k].changes[j].row, s.history[k].changes[j].col)
  }

  /** `make_move(row, col)`: the player's stone goes on (row, col), the active map is
      updated, one record is pushed and the turn passes. */
  function MakeMove(s: State, row: int, col: int): (s': State)
    requires WellFormed(s) && OnBoard(row, col)
    ensures WellFormed(s')
    ensures s'.board[row][col] == s.player
    ensures forall r, c :: OnBoard(r, c) && (r != row || c != col) ==> s'.board[r][c] == s.board[r][c]
    ensures s'.player == Opponent(s.player)
    ensures |s'.history| == |s.history| + 1 && s'.history[..|s.history|] == s.history
    ensures var rec := s'.history[|s.history|];
            rec.row == row && rec.col == col && rec.player == s.player
            && ExactChanges(s.active, s'.active, rec.changes)
  {
    var b := SetCell(s.board, row, col, s.player);
    var (a, changes) := UpdateActiveMap(b, s.active, row, col);
    var s' := State(b, a, Opponent(s.player), s.history + [Record(row, col, changes, s.player)]);
    assert s'.history[..|s.history|] == s.history;
    s'
  }

  /** `undo_move`: pops the last record, toggles its flags back, clears its cell and
      gives the turn back to the player who made it. */
  function UndoMove(s: State): (s': State)
    requires WellFormed(s) && |s.history| > 0
    ensures WellFormed(s')
    ensures s'.history == s.history[..|s.history| - 1]
    ensures var rec := s.history[|s.history| - 1];
            && s'.board[rec.row][rec.col] == EMPTY
            && (forall r, c :: OnBoard(r, c) && (r != rec.row || c != rec.col) ==> s'.board[r][c] == s.board[r][c])
            && (forall r, c :: OnBoard(r, c) ==>
                  s'.active[r][c] == (if Cell(r, c) in rec.changes then !s.active[r][c] else s.active[r][c]))
            && s'.player == rec.player
  {
    var rec := s.history[|s.history| - 1];
    State(SetCell(s.board, rec.row, rec.col, EMPTY), ToggleAll(s.active, rec.changes), rec.player,
          s.history[..|s.history| - 1])
  }

  /** `undo_move` right after `make_move` on an empty cell restores the state exactly. */
  lemma UndoMakeMove(s: State, row: int, col: int)
    requires WellFormed(s) && OnBoard(row, col) && s.board[row][col] == EMPTY
    ensures UndoMove(MakeMove(s, row, col)) == s
  {
    var s' := MakeMove(s, row, col);
    var u := UndoMove(s');
    GridExt(u.board, s.board);
    ToggleRestores(s.active, s'.active, s'.history[|s.history|].changes);
  }

  /* ---------------------------------------------------------------------------
     The active-map invariant: a cell is active exactly when it is empty and a stone
     lies one or two steps away along one of the eight directions.
     --------------------------------------------------------------------------- */

  ghost predicate NearStone(b: Board, r: int, c: int)
    requires IsGrid(b)
  {
    exists r', c' :: OnBoard(r', c') && InStar(r', c', r, c, 2) && b[r'][c'] != EMPTY
  }

  ghost predicate ActiveExact(b: Board, a: ActiveMap)
    requires IsGrid(b) && IsGrid(a)
  {
    forall r, c :: OnBoard(r, c) ==> (a[r][c] <==> b[r][c] == EMPTY && NearStone(b, r, c))
  }

  /** Every active cell is empty. */
  lemma ActiveIsEmpty(b: Board, a: ActiveMap, r: int, c: int)
    requires IsGrid(b) && IsGrid(a) && ActiveExact(b, a) && OnBoard(r, c) && a[r][c]
    ensures b[r][c] == EMPTY
  {
  }

  /** The stars are symmetric: (r, c) is near (row, col) exactly when (row, col) is near
      (r, c). */
  lemma StarSymmetric(row: int, col: int, r: int, c: int, k: int)
    ensures InStar(row, col, r, c, k) <==> InStar(r, c, row, col, k)
  {
  }

  lemma {:induction false} MakeMoveKeepsActiveExact(s: State, row: int, col: int)
    requires WellFormed(s) && ActiveExact(s.board, s.active)
    requires OnBoard(row, col) && s.board[row][col] == EMPTY
    ensures ActiveExact(MakeMove(s, row, col).board, MakeMove(s, row, col).active)
  {
    var s' := MakeMove(s, row, col);
    var b, b', a, a' := s.board, s'.board, s.active, s'.active;
    forall r, c | OnBoard(r, c)
      ensures a'[r][c] <==> b'[r][c] == EMPTY && NearStone(b', r, c)
    {
      if r == row && c == col {
      } else if InStar(row, col, r, c, 2) && b'[r][c] == EMPTY {
        assert NearStone(b', r, c) by {
          assert OnBoard(row, col) && InStar(row, col, r, c, 2) && b'[row][col] != EMPTY;
        }
      } else {
        assert b'[r][c] == b[r][c];
        if NearStone(b, r, c) {
          var r', c' :| OnBoard(r', c') && InStar(r', c', r, c, 2) && b[r'][c'] != EMPTY;
          assert b'[r'][c'] != EMPTY;
        }
        if b'[r][c] == EMPTY && NearStone(b', r, c) {
          var r', c' :| OnBoard(r', c') && InStar(r', c', r, c, 2) && b'[r'][c'] != EMPTY;
          assert b[r'][c'] != EMPTY;
        }
      }
    }
  }

  /** A state reached by legal moves: the active map is exact, and undoing the last move
      and replaying it gives the state back. */
  ghost predicate Inv(s: State)
    decreases |s.history|
  {
    && WellFormed(s)
    && ActiveExact(s.board, s.active)
    && (|s.history| > 0 ==>
          var last := s.history[|s.history| - 1];
          var u := UndoMove(s);
          && Inv(u)
          && u.board[last.row][last.col] == EMPTY
          && MakeMove(u, last.row, last.col) == s)
  }

  /** `make_move` on an empty cell keeps the invariant. */
  lemma MakeMoveKeepsInv(s: State, row: int, col: int)
    requires Inv(s) && OnBoard(row, col) && s.board[row][col] == EMPTY
    ensures Inv(MakeMove(s, row, col))
    ensures UndoMove(MakeMove(s, row, col)) == s
  {
    UndoMakeMove(s, row, col);
    MakeMoveKeepsActiveExact(s, row, col);
  }

  /** On a state reached by legal moves, `undo_move` keeps the invariant and is undone
      by replaying the move. Both facts are conjuncts of `Inv` itself, which records them
      move by move; the proof that each move establishes them is `MakeMoveKeepsInv`. */
  lemma UndoMoveKeepsInv(s: State)
    requires Inv(s) && |s.history| > 0
    ensures Inv(UndoMove(s))
    ensures MakeMove(UndoMove(s), s.history[|s.history| - 1].row, s.history[|s.history| - 1].col) == s
  {
  }

  /* ---------------------------------------------------------------------------
     Construction from a board (`__init__`)
     --------------------------------------------------------------------------- */

  /** The `k`-th cell in row-major order. */
  function CellAt(k: int): Cell
    requires 0 <= k < CELLS
  {
    Cell(k / 15, k % 15)
  }

  /** A stone among the first `k` cells in row-major order is near (r, c). */
  ghost predicate NearStoneAmong(b: Board, r: int, c: int, k: int)
    requires IsGrid(b)
  {
    exists j :: 0 <= j < k && j < CELLS && b[CellAt(j).row][CellAt(j).col] != EMPTY
                && InStar(CellAt(j).row, CellAt(j).col, r, c, 2)
  }

  /** Cells `k..224` of the constructor's loop. */
  function ActivateStones(b: Board, k: int, a: ActiveMap): (a': ActiveMap)
    requires ValidBoard(b) && IsGrid(a) && 0 <= k <= CELLS
    requires forall r, c :: OnBoard(r, c) ==> (a[r][c] <==> b[r][c] == EMPTY && NearStoneAmong(b, r, c, k))
    ensures IsGrid(a')
    ensures forall r, c :: OnBoard(r, c) ==> (a'[r][c] <==> b[r][c] == EMPTY && NearStoneAmong(b, r, c, CELLS))
    decreases CELLS - k
  {
    if k == CELLS then a
    else
      var x := CellAt(k);
      if b[x.row][x.col] != EMPTY then
        var a' := UpdateActiveMap(b, a, x.row, x.col).0;
        assert forall r, c :: OnBoard(r, c) ==> (a'[r][c] <==> b[r][c] == EMPTY && NearStoneAmong(b, r, c, k + 1)) by {
          forall r, c | OnBoard(r, c)
            ensures a'[r][c] <==> b[r][c] == EMPTY && NearStoneAmong(b, r, c, k + 1)
          {
            NearStoneAmongStep(b, r, c, k);
          }
        }
        ActivateStones(b, k + 1, a')
      else
        assert forall r, c :: OnBoard(r, c) ==> (a[r][c] <==> b[r][c] == EMPTY && NearStoneAmong(b, r, c, k + 1)) by {
          forall r, c | OnBoard(r, c)
            ensures a[r][c] <==> b[r][c] == EMPTY && NearStoneAmong(b, r, c, k + 1)
          {
            NearStoneAmongStep(b, r, c, k);
          }
        }
        ActivateStones(b, k + 1, a)
  }

  lemma NearStoneAmongStep(b: Board, r: int, c: int, k: int)
    requires IsGrid(b) && 0 <= k < CELLS
    ensures NearStoneAmong(b, r, c, k + 1)
            <==> NearStoneAmong(b, r, c, k)
                 || (b[CellAt(k).row][CellAt(k).col] != EMPTY && InStar(CellAt(k).row, CellAt(k).col, r, c, 2))
  {
  }

  lemma NearStoneAmongAll(b: Board, r: int, c: int)
    requires IsGrid(b)
    ensures NearStoneAmong(b, r, c, CELLS) <==> NearStone(b, r, c)
  {
    if NearStone(b, r, c) {
      var r', c' :| OnBoard(r', c') && InStar(r', c', r, c, 2) && b[r'][c'] != EMPTY;
      assert CellAt(Index(r', c')) == Cell(r', c');
    }
  }

  /** `GameState(board, player)`: the active map of a given board is exact, and the
      history is empty. */
  function FromBoard(b: Board, player: int): (s: State)
    requires ValidBoard(b) && IsPlayer(player)
    ensures Inv(s)
    ensures s.board == b && s.player == player && s.history == []
  {
    var a := ActivateStones(b, 0, Constant(false));
    forall r, c | OnBoard(r, c) ensures NearStoneAmong(b, r, c, CELLS) <==> NearStone(b, r, c) {
      NearStoneAmongAll(b, r, c);
    }
    State(b, a, player, [])
  }

  /** The empty start position. */
  function Initial(): (s: State)
    ensures Inv(s)
    ensures forall r, c :: OnBoard(r, c) ==> s.board[r][c] == EMPTY && !s.active[r][c]
    ensures s.player == BLACK && s.history == []
  {
    State(EmptyBoard(), Constant(false), BLACK, [])
  }

  /* ---------------------------------------------------------------------------
     With no active cell, a position that still has an empty cell has no stone: from any
     stone, stepping along a row or column towards an empty cell meets an empty cell next
     to a stone, and that cell would be active.
     --------------------------------------------------------------------------- */

  lemma {:induction false} EmptyNearStone(b: Board, sr: int, sc: int, er: int, ec: int) returns (cell: Cell)
    requires ValidBoard(b)
    requires OnBoard(sr, sc) && b[sr][sc] != EMPTY
    requires OnBoard(er, ec) && b[er][ec] == EMPTY
    ensures OnBoard(cell.row, cell.col) && b[cell.row][cell.col] == EMPTY && NearStone(b, cell.row, cell.col)
    decreases Abs(er - sr) + Abs(ec - sc)
  {
    var nr := sr + Sign(er - sr);
    var nc := if nr == sr then sc + Sign(ec - sc) else sc;
    if b[nr][nc] == EMPTY {
      assert InStar(sr, sc, nr, nc, 2);
      assert NearStone(b, nr, nc);
      cell := Cell(nr, nc);
    } else {
      cell := EmptyNearStone(b, nr, nc, er, ec);
    }
  }

  lemma NoActiveMeansNoStone(b: Board, a: ActiveMap, er: int, ec: int)
    requires ValidBoard(b) && IsGrid(a) && ActiveExact(b, a)
    requires forall r, c :: OnBoard(r, c) ==> !a[r][c]
    requires OnBoard(er, ec) && b[er][ec] == EMPTY
    ensures forall r, c :: OnBoard(r, c) ==> b[r][c] == EMPTY
  {
    forall r, c | OnBoard(r, c) ensures b[r][c] == EMPTY {
      if b[r][c] != EMPTY {
        var cell := EmptyNearStone(b, r, c, er, ec);
        assert false;
      }
    }
  }

  /* ---------------------------------------------------------------------------
     `invalidate`: clearing cached per-cell values around a move
     --------------------------------------------------------------------------- */

  /** The number of steps along unit direction `d` from (row, col) to (r, c), assuming
      (r, c) lies on that ray. */
  function RaySteps(row: int, col: int, d: Dir, r: int, c: int): int {
    if d.dx != 0 then Scale(d.dx, c - col) else Scale(d.dy, r - row)
  }

  /** (r, c) is `k` to 5 steps from (row, col) along `d`. */
  predicate OnRay(row: int, col: int, d: Dir, k: int, r: int, c: int) {
    var j := RaySteps(row, col, d, r, c);
    k <= j <= 5 && StepCell(row, col, d, j) == Cell(r, c)
  }

  /** Once a ray from an on-board cell leaves the board it stays off it. */
  lemma RayLeaves(row: int, col: int, d: Dir, k: int, j: int)
    requires OnBoard(row, col) && IsUnitDir(d) && 0 <= k <= j
    requires !OnBoard(StepCell(row, col, d, k).row, StepCell(row, col, d, k).col)
    ensures !OnBoard(StepCell(row, col, d, j).row, StepCell(row, col, d, j).col)
  {
  }

  /** The `while` loop of `invalidate` for one direction, from step `k` on. */
  function ClearRay<T>(g: seq<seq<Option<T>>>, row: int, col: int, d: Dir, k: int): (g': seq<seq<Option<T>>>)
    requires IsGrid(g) && OnBoard(row, col) && IsUnitDir(d) && 0 <= k
    ensures IsGrid(g')
    ensures forall r, c :: OnBoard(r, c) ==> g'[r][c] == if OnRay(row, col, d, k, r, c) then None else g[r][c]
    decreases 6 - k
  {
    var x := StepCell(row, col, d, k);
    if k <= 5 && OnBoard(x.row, x.col) then
      var g1 := SetCell(g, x.row, x.col, None);
      var g' := ClearRay(g1, row, col, d, k + 1);
      assert forall r, c :: OnBoard(r, c) ==>
        (OnRay(row, col, d, k, r, c) <==> Cell(r, c) == x || OnRay(row, col, d, k + 1, r, c));
      g'
    else
      assert forall r, c :: OnBoard(r, c) ==> !OnRay(row, col, d, k, r, c) by {
        forall r, c | OnBoard(r, c) && OnRay(row, col, d, k, r, c) ensures false {
          RayLeaves(row, col, d, k, RaySteps(row, col, d, r, c));
        }
      }
      g
  }

  /** The directions `DIRS[j..]` of `invalidate`. */
  function ClearRays<T>(g: seq<seq<Option<T>>>, row: int, col: int, j: int): (g': seq<seq<Option<T>>>)
    requires IsGrid(g) && OnBoard(row, col) && 0 <= j <= 8
    ensures IsGrid(g')
    ensures forall r, c :: OnBoard(r, c) ==>
              g'[r][c] == if exists i :: j <= i < 8 && OnRay(row, col, DIRS[i], 0, r, c) then None else g[r][c]
    decreases 8 - j
  {
    if j == 8 then g else ClearRays(ClearRay(g, row, col, DIRS[j], 0), row, col, j + 1)
  }

  /** The cells `invalidate(row, col)` clears: the cell itself and the cells one to five
      steps away along the eight directions. */
  predicate Invalidated(row: int, col: int, r: int, c: int) {
    (r == row && c == col) || InStar(row, col, r, c, 5)
  }

  lemma RaysAreStar(row: int, col: int, r: int, c: int)
    ensures (exists i :: 0 <= i < 8 && OnRay(row, col, DIRS[i], 0, r, c)) <==> Invalidated(row, col, r, c)
  {
    if exists i :: 0 <= i < 8 && OnRay(row, col, DIRS[i], 0, r, c) {
      var i :| 0 <= i < 8 && OnRay(row, col, DIRS[i], 0, r, c);
      RayInStar(row, col, i, r, c);
    }
    if Invalidated(row, col, r, c) {
      StarOnRay(row, col, r, c);
    }
  }

  /** A cell on one of the eight rays is one `invalidate` clears. */
  lemma RayInStar(row: int, col: int, i: int, r: int, c: int)
    requires 0 <= i < 8 && OnRay(row, col, DIRS[i], 0, r, c)
    ensures Invalidated(row, col, r, c)
  {
    var j := RaySteps(row, col, DIRS[i], r, c);
    if j > 0 {
      StepInStar(row, col, DIRS[i], j, 5);
    }
  }

  /** A cell `invalidate` clears is on one of the eight rays. */
  lemma StarOnRay(row: int, col: int, r: int, c: int)
    requires Invalidated(row, col, r, c)
    ensures exists i :: 0 <= i < 8 && OnRay(row, col, DIRS[i], 0, r, c)
  {
    if r == row && c == col {
      assert OnRay(row, col, DIRS[0], 0, r, c);
    } else {
      var i := DirIndex(Sign(c - col), Sign(r - row));
      assert OnRay(row, col, DIRS[i], 0, r, c);
    }
  }

  /** `invalidate(board, row, col)`: sets to `None` exactly the on-board cells up to five
      steps from (row, col) along the eight directions, (row, col) included, and keeps
      every other entry. */
  function Invalidate<T>(g: seq<seq<Option<T>>>, row: int, col: int): (g': seq<seq<Option<T>>>)
    requires IsGrid(g) && OnBoard(row, col)
    ensures IsGrid(g')
    ensures forall r, c :: OnBoard(r, c) ==> g'[r][c] == if Invalidated(row, col, r, c) then None else g[r][c]
  {
    var g' := ClearRays(g, row, col, 0);
    forall r, c | OnBoard(r, c)
      ensures (exists i :: 0 <= i < 8 && OnRay(row, col, DIRS[i], 0, r, c)) <==> Invalidated(row, col, r, c)
    {
      RaysAreStar(row, col, r, c);
    }
    g'
  }

  /** A cell that `invalidate` keeps sees the same neighbourhood before and after a move,
      so its value for either player is unchanged: what the cache keeps is still
      correct. */
  lemma InvalidateKeepsScores(rev: Revision, b: Board, b': Board, row: int, col: int, r: int, c: int)
    requires ValidBoard(b) && ValidBoard(b') && OnBoard(row, col)
    requires forall r', c' :: OnBoard(r', c') && (r' != row || c' != col) ==> b'[r'][c'] == b[r'][c']
    requires OnBoard(r, c) && !Invalidated(row, col, r, c)
    ensures b'[r][c] == b[r][c]
    ensures forall p :: IsPlayer(p) ==> Evaluate(rev, b', r, c, p) == Evaluate(rev, b, r, c, p)
  {
    StarSymmetric(row, col, r, c, 5);
    assert AgreeAround(b, b', r, c);
    forall p | IsPlayer(p) ensures Evaluate(rev, b', r, c, p) == Evaluate(rev, b, r, c, p) {
      EvaluateLocal(rev, b, b', r, c, p);
    }
  }

  /* ---------------------------------------------------------------------------
     `get_sorted_moves`
     --------------------------------------------------------------------------- */

  /** A candidate move and its urgency. */
  datatype Move = Move(row: int, col: int, score: int)

  function ScoreOf(m: Move): int {
    m.score
  }

  /** The urgency of a cell: its value for Black plus its value for White. */
  function MoveScore(rev: Revision, b: Board, r: int, c: int): int
    requires ValidBoard(b)
  {
    Evaluate(rev, b, r, c, BLACK) + Evaluate(rev, b, r, c, WHITE)
  }

  /** The scores of all cells of a board; `ScoreAt` reads one cell back. */
  function ScoreGrid(rev: Revision, b: Board): (sc: seq<seq<int>>)
    requires ValidBoard(b)
    ensures IsGrid(sc)
  {
    ScoreLayers(rev, b, 1)
  }

  /** The table behind `ScoreGrid`, reached through `layers` indirections. The solver
      expands a recursive definition one layer at a time, so the evaluator behind each
      cell stays folded in proofs about the move order until `ScoreAt` unfolds it. */
  function ScoreLayers(rev: Revision, b: Board, layers: nat): (sc: seq<seq<int>>)
    requires ValidBoard(b)
    ensures IsGrid(sc)
    decreases layers
  {
    if layers == 0 then seq(N, r => seq(N, c => MoveScore(rev, b, r, c))) else ScoreLayers(rev, b, layers - 1)
  }

  /** Each cell of the score grid holds that cell's score. */
  lemma ScoreAt(rev: Revision, b: Board, r: int, c: int)
    requires ValidBoard(b) && OnBoard(r, c)
    ensures ScoreGrid(rev, b)[r][c] == MoveScore(rev, b, r, c)
  {
    assert ScoreGrid(rev, b) == ScoreLayers(rev, b, 0);
  }

  /** A per-cell score cache: `None` where no value is cached. */
  type ScoreMap = seq<seq<Option<int>>>

  /** Every cached score of an active cell is that cell's current score. */
  ghost predicate CacheFresh(m: ScoreMap, sc: seq<seq<int>>, a: ActiveMap)
    requires IsGrid(sc) && IsGrid(a)
  {
    && IsGrid(m)
    && forall r, c :: OnBoard(r, c) && a[r][c] && m[r][c].Some? ==> m[r][c].value == sc[r][c]
  }

  /** The position of a cell in row-major order. */
  function Index(r: int, c: int): int {
    r * 15 + c
  }

  lemma CellAtIndex(k: int)
    requires 0 <= k < CELLS
    ensures OnBoard(CellAt(k).row, CellAt(k).col)
    ensures Index(CellAt(k).row, CellAt(k).col) == k
    ensures forall r, c :: OnBoard(r, c) && Index(r, c) == k ==> Cell(r, c) == CellAt(k)
  {
  }

  /** The cached score of a cell, or its computed score `sc[r][c]` when none is cached. */
  function CachedScore(sc: seq<seq<int>>, m: ScoreMap, r: int, c: int): int
    requires IsGrid(sc) && IsGrid(m) && OnBoard(r, c)
  {
    match m[r][c]
    case Some(v) => v
    case None => sc[r][c]
  }

  /** The row-major loop of `get_sorted_moves` from cell `k` on: every active cell in
      order, with its cached score when there is one and its computed score otherwise. */
  function Candidates(sc: seq<seq<int>>, a: ActiveMap, m: ScoreMap, k: int): (ms: seq<Move>)
    requires IsGrid(sc) && IsGrid(a) && IsGrid(m) && 0 <= k <= CELLS
    ensures forall i :: 0 <= i < |ms| ==>
              OnBoard(ms[i].row, ms[i].col) && a[ms[i].row][ms[i].col] && k <= Index(ms[i].row, ms[i].col)
    ensures forall i, j :: 0 <= i < j < |ms| ==> Index(ms[i].row, ms[i].col) < Index(ms[j].row, ms[j].col)
    decreases CELLS - k
  {
    if k == CELLS then []
    else
      var x := CellAt(k);
      CellAtIndex(k);
      var rest := Candidates(sc, a, m, k + 1);
      if a[x.row][x.col] then
        [Move(x.row, x.col, CachedScore(sc, m, x.row, x.col))] + rest
      else
        rest
  }

  /** Every active cell from `k` on is a candidate. */
  lemma CandidatesComplete(sc: seq<seq<int>>, a: ActiveMap, m: ScoreMap, k: int, r: int, c: int)
    requires IsGrid(sc) && IsGrid(a) && IsGrid(m) && 0 <= k <= CELLS
    requires OnBoard(r, c) && a[r][c] && k <= Index(r, c)
    ensures exists i :: 0 <= i < |Candidates(sc, a, m, k)| &&
              Candidates(sc, a, m, k)[i].row == r && Candidates(sc, a, m, k)[i].col == c
  {
    var i := CandidateIndex(sc, a, m, k, r, c);
  }

  /** Where `CandidatesComplete` finds the active cell (r, c). */
  lemma {:induction false} CandidateIndex(sc: seq<seq<int>>, a: ActiveMap, m: ScoreMap, k: int, r: int, c: int)
    returns (i: int)
    requires IsGrid(sc) && IsGrid(a) && IsGrid(m) && 0 <= k <= CELLS
    requires OnBoard(r, c) && a[r][c] && k <= Index(r, c)
    ensures 0 <= i < |Candidates(sc, a, m, k)|
    ensures Candidates(sc, a, m, k)[i].row == r && Candidates(sc, a, m, k)[i].col == c
    decreases CELLS - k
  {
    CellAtIndex(k);
    var x := CellAt(k);
    var ms := Candidates(sc, a, m, k);
    var rest := Candidates(sc, a, m, k + 1);
    if Cell(r, c) == x {
      assert ms == [Move(x.row, x.col, CachedScore(sc, m, x.row, x.col))] + rest;
      i := 0;
    } else {
      var j := CandidateIndex(sc, a, m, k + 1, r, c);
      if a[x.row][x.col] {
        assert ms == [Move(x.row, x.col, CachedScore(sc, m, x.row, x.col))] + rest;
        i := j + 1;
      } else {
        assert ms == rest;
        i := j;
      }
    }
  }

  /** The cache is transparent: a cache whose entries for active cells are current gives
      the same candidates as no cache at all. */
  lemma {:induction false} CandidatesCacheTransparent(sc: seq<seq<int>>, a: ActiveMap, m: ScoreMap, k: int)
    requires IsGrid(sc) && IsGrid(a) && 0 <= k <= CELLS
    requires CacheFresh(m, sc, a)
    ensures Candidates(sc, a, m, k) == Candidates(sc, a, Constant(None), k)
    decreases CELLS - k
  {
    if k < CELLS {
      CandidatesCacheTransparent(sc, a, m, k + 1);
      CellAtIndex(k);
    }
  }

  /** Computed from scratch, each candidate carries the score of its cell. */
  lemma {:induction false} CandidatesScored(sc: seq<seq<int>>, a: ActiveMap, k: int)
    requires IsGrid(sc) && IsGrid(a) && 0 <= k <= CELLS
    ensures forall i :: 0 <= i < |Candidates(sc, a, Constant(None), k)| ==>
              var mv := Candidates(sc, a, Constant(None), k)[i];
              mv.score == sc[mv.row][mv.col]
    decreases CELLS - k
  {
    if k < CELLS {
      CandidatesScored(sc, a, k + 1);
      CellAtIndex(k);
    }
  }

  /** The list `get_sorted_moves` builds from cell scores `sc` and reused scores `m`: the
      candidates, or the centre with score 0 when no cell is active, sorted stably by
      non-increasing score. */
  function Order(sc: seq<seq<int>>, a: ActiveMap, m: ScoreMap): (ms: seq<Move>)
    requires IsGrid(sc) && IsGrid(a) && IsGrid(m)
    ensures |ms| >= 1
    ensures SortedDesc(ms, ScoreOf)
    ensures var cs := Candidates(sc, a, m, 0);
            multiset(ms) == multiset(if cs == [] then [Move(7, 7, 0)] else cs)
    ensures var cs := Candidates(sc, a, m, 0);
            forall v :: WithKey(ms, ScoreOf, v) == WithKey(if cs == [] then [Move(7, 7, 0)] else cs, ScoreOf, v)
    ensures forall i :: 0 <= i < |ms| ==> OnBoard(ms[i].row, ms[i].col)
  {
    var cs := Candidates(sc, a, m, 0);
    var list := if cs == [] then [Move(7, 7, 0)] else cs;
    var ms := SortDesc(list, ScoreOf);
    forall i | 0 <= i < |ms| ensures OnBoard(ms[i].row, ms[i].col) {
      var j := PermMember(ms, list, i);
    }
    ms
  }

  lemma OrderFallback(sc: seq<seq<int>>, a: ActiveMap)
    requires IsGrid(sc) && IsGrid(a)
    requires forall r, c :: OnBoard(r, c) ==> !a[r][c]
    ensures Order(sc, a, Constant(None)) == [Move(7, 7, 0)]
  {
    var ms := Order(sc, a, Constant(None));
    assert Candidates(sc, a, Constant(None), 0) == [];
    assert multiset(ms) == multiset([Move(7, 7, 0)]);
    assert ms[0] in multiset(ms);
  }

  /** With an active cell, the order is a permutation of the candidates. */
  lemma OrderPermutes(sc: seq<seq<int>>, a: ActiveMap)
    requires IsGrid(sc) && IsGrid(a)
    requires exists r, c :: OnBoard(r, c) && a[r][c]
    ensures multiset(Order(sc, a, Constant(None))) == multiset(Candidates(sc, a, Constant(None), 0))
  {
    var r0, c0 :| OnBoard(r0, c0) && a[r0][c0];
    CandidatesComplete(sc, a, Constant(None), 0, r0, c0);
  }

  /** An element of a permutation of `cs` is an element of `cs`. */
  lemma PermMember<T>(ms: seq<T>, cs: seq<T>, i: int) returns (j: int)
    requires multiset(ms) == multiset(cs) && 0 <= i < |ms|
    ensures 0 <= j < |cs| && cs[j] == ms[i]
  {
    assert ms[i] in multiset(cs);
    j :| 0 <= j < |cs| && cs[j] == ms[i];
  }

  lemma OrderSound(sc: seq<seq<int>>, a: ActiveMap)
    requires IsGrid(sc) && IsGrid(a)
    requires exists r, c :: OnBoard(r, c) && a[r][c]
    ensures forall i :: 0 <= i < |Order(sc, a, Constant(None))| ==>
              var mv := Order(sc, a, Constant(None))[i];
              OnBoard(mv.row, mv.col) && a[mv.row][mv.col] && mv.score == sc[mv.row][mv.col]
  {
    var ms := Order(sc, a, Constant(None));
    var cs := Candidates(sc, a, Constant(None), 0);
    OrderPermutes(sc, a);
    CandidatesScored(sc, a, 0);
    forall i | 0 <= i < |ms|
      ensures OnBoard(ms[i].row, ms[i].col) && a[ms[i].row][ms[i].col] && ms[i].score == sc[ms[i].row][ms[i].col]
    {
      var j := PermMember(ms, cs, i);
    }
  }

  lemma OrderComplete(sc: seq<seq<int>>, a: ActiveMap)
    requires IsGrid(sc) && IsGrid(a)
    requires exists r, c :: OnBoard(r, c) && a[r][c]
    ensures forall r, c :: OnBoard(r, c) && a[r][c] ==>
              exists i :: 0 <= i < |Order(sc, a, Constant(None))| &&
                Order(sc, a, Constant(None))[i].row == r && Order(sc, a, Constant(None))[i].col == c
  {
    var ms := Order(sc, a, Constant(None));
    var cs := Candidates(sc, a, Constant(None), 0);
    OrderPermutes(sc, a);
    forall r, c | OnBoard(r, c) && a[r][c]
      ensures exists i :: 0 <= i < |ms| && ms[i].row == r && ms[i].col == c
    {
      CandidatesComplete(sc, a, Constant(None), 0, r, c);
      var j :| 0 <= j < |cs| && cs[j].row == r && cs[j].col == c;
      var i := PermMember(cs, ms, j);
    }
  }

  lemma OrderDistinct(sc: seq<seq<int>>, a: ActiveMap)
    requires IsGrid(sc) && IsGrid(a)
    requires exists r, c :: OnBoard(r, c) && a[r][c]
    ensures forall i, j :: 0 <= i < j < |Order(sc, a, Constant(None))| ==>
              Cell(Order(sc, a, Constant(None))[i].row, Order(sc, a, Constant(None))[i].col)
              != Cell(Order(sc, a, Constant(None))[j].row, Order(sc, a, Constant(None))[j].col)
  {
    OrderPermutes(sc, a);
    PermDistinct(Candidates(sc, a, Constant(None), 0), Order(sc, a, Constant(None)));
  }

  /** A permutation of moves listed in strictly increasing cell order names each cell once. */
  lemma PermDistinct(cs: seq<Move>, ms: seq<Move>)
    requires multiset(ms) == multiset(cs)
    requires forall x, y :: 0 <= x < y < |cs| ==> Index(cs[x].row, cs[x].col) < Index(cs[y].row, cs[y].col)
    ensures forall i, j :: 0 <= i < j < |ms| ==> Cell(ms[i].row, ms[i].col) != Cell(ms[j].row, ms[j].col)
  {
    forall i, j | 0 <= i < j < |ms|
      ensures Cell(ms[i].row, ms[i].col) != Cell(ms[j].row, ms[j].col)
    {
      CellsDistinct(cs, ms, i, j);
    }
  }

  /** `get_sorted_moves` with the scores `m` reused from the previous position. */
  function SortedMovesWith(rev: Revision, s: State, m: ScoreMap): (ms: seq<Move>)
    requires WellFormed(s) && IsGrid(m)
    ensures |ms| >= 1
    ensures SortedDesc(ms, ScoreOf)
    ensures forall i :: 0 <= i < |ms| ==> OnBoard(ms[i].row, ms[i].col)
    ensures var cs := Candidates(ScoreGrid(rev, s.board), s.active, m, 0);
            forall v :: WithKey(ms, ScoreOf, v) == WithKey(if cs == [] then [Move(7, 7, 0)] else cs, ScoreOf, v)
  {
    Order(ScoreGrid(rev, s.board), s.active, m)
  }

  /** `get_sorted_moves` computed from scratch. */
  function SortedMoves(rev: Revision, s: State): (ms: seq<Move>)
    requires WellFormed(s)
    ensures |ms| >= 1
    ensures SortedDesc(ms, ScoreOf)
    ensures forall i :: 0 <= i < |ms| ==> OnBoard(ms[i].row, ms[i].col)
    ensures var cs := Candidates(ScoreGrid(rev, s.board), s.active, Constant(None), 0);
            forall v :: WithKey(ms, ScoreOf, v) == WithKey(if cs == [] then [Move(7, 7, 0)] else cs, ScoreOf, v)
  {
    SortedMovesWith(rev, s, Constant(None))
  }

  /** With no active cell, `get_sorted_moves` falls back to the single move (7, 7, 0). */
  lemma SortedMovesFallback(rev: Revision, s: State)
    requires WellFormed(s)
    requires forall r, c :: OnBoard(r, c) ==> !s.active[r][c]
    ensures SortedMoves(rev, s) == [Move(7, 7, 0)]
  {
    OrderFallback(ScoreGrid(rev, s.board), s.active);
  }

  /** With an active cell, every move of `get_sorted_moves` is an active cell. */
  lemma SortedMovesActive(rev: Revision, s: State)
    requires WellFormed(s)
    requires exists r, c :: OnBoard(r, c) && s.active[r][c]
    ensures forall i :: 0 <= i < |SortedMoves(rev, s)| ==>
              OnBoard(SortedMoves(rev, s)[i].row, SortedMoves(rev, s)[i].col) && s.active[SortedMoves(rev, s)[i].row][SortedMoves(rev, s)[i].col]
  {
    OrderSound(ScoreGrid(rev, s.board), s.active);
  }

  /** With an active cell, every move of `get_sorted_moves` carries the score of its cell
      on the current board: its value for Black plus its value for White. */
  lemma SortedMovesScored(rev: Revision, s: State)
    requires WellFormed(s)
    requires exists r, c :: OnBoard(r, c) && s.active[r][c]
    ensures forall i :: 0 <= i < |SortedMoves(rev, s)| ==>
              OnBoard(SortedMoves(rev, s)[i].row, SortedMoves(rev, s)[i].col) &&
              SortedMoves(rev, s)[i].score == MoveScore(rev, s.board, SortedMoves(rev, s)[i].row, SortedMoves(rev, s)[i].col)
  {
    var sc := ScoreGrid(rev, s.board);
    OrderSound(sc, s.active);
    GridScores(rev, s.board, sc, SortedMoves(rev, s));
  }

  lemma GridScores(rev: Revision, b: Board, sc: seq<seq<int>>, ms: seq<Move>)
    requires ValidBoard(b) && sc == ScoreGrid(rev, b)
    requires forall i :: 0 <= i < |ms| ==> OnBoard(ms[i].row, ms[i].col) && ms[i].score == sc[ms[i].row][ms[i].col]
    ensures forall i :: 0 <= i < |ms| ==> OnBoard(ms[i].row, ms[i].col) && ms[i].score == MoveScore(rev, b, ms[i].row, ms[i].col)
  {
    forall i | 0 <= i < |ms| ensures ms[i].score == MoveScore(rev, b, ms[i].row, ms[i].col) {
      ScoreAt(rev, b, ms[i].row, ms[i].col);
    }
  }

  /** Every active cell is among the moves of `get_sorted_moves`. */
  lemma SortedMovesComplete(rev: Revision, s: State)
    requires WellFormed(s)
    ensures forall r, c :: OnBoard(r, c) && s.active[r][c] ==>
              exists i :: 0 <= i < |SortedMoves(rev, s)| && SortedMoves(rev, s)[i].row == r && SortedMoves(rev, s)[i].col == c
  {
    var sc := ScoreGrid(rev, s.board);
    var ms := SortedMoves(rev, s);
    assert ms == Order(sc, s.active, Constant(None));
    forall r, c | OnBoard(r, c) && s.active[r][c]
      ensures exists i :: 0 <= i < |ms| && ms[i].row == r && ms[i].col == c
    {
      OrderComplete(sc, s.active);
    }
  }

  /** No cell occurs twice among the moves of `get_sorted_moves`. */
  lemma SortedMovesDistinct(rev: Revision, s: State)
    requires WellFormed(s)
    ensures forall i, j :: 0 <= i < j < |SortedMoves(rev, s)| ==>
              Cell(SortedMoves(rev, s)[i].row, SortedMoves(rev, s)[i].col) != Cell(SortedMoves(rev, s)[j].row, SortedMoves(rev, s)[j].col)
  {
    if exists r, c :: OnBoard(r, c) && s.active[r][c] {
      OrderDistinct(ScoreGrid(rev, s.board), s.active);
    } else {
      SortedMovesFallback(rev, s);
    }
  }

  /* ---------------------------------------------------------------------------
     The scores `get_sorted_moves` reuses from the previous position
     --------------------------------------------------------------------------- */

  /** The score map rebuilt from the previous move list: each listed cell holds its
      listed score, a later entry overriding an earlier one. */
  function ScoreMapOf(ms: seq<Move>): (m: ScoreMap)
    requires forall i :: 0 <= i < |ms| ==> OnBoard(ms[i].row, ms[i].col)
    ensures IsGrid(m)
    ensures forall r, c :: OnBoard(r, c) && m[r][c].Some? ==>
              exists i :: 0 <= i < |ms| && ms[i].row == r && ms[i].col == c && ms[i].score == m[r][c].value
  {
    if |ms| == 0 then Constant(None)
    else
      var last := ms[|ms| - 1];
      var prefix := ms[..|ms| - 1];
      var m := ScoreMapOf(prefix);
      var m' := SetCell(m, last.row, last.col, Some(last.score));
      forall r, c | OnBoard(r, c) && m'[r][c].Some?
        ensures exists i :: 0 <= i < |ms| && ms[i].row == r && ms[i].col == c && ms[i].score == m'[r][c].value
      {
        if r == last.row && c == last.col {
          assert ms[|ms| - 1].row == r;
        } else {
          var i :| 0 <= i < |prefix| && prefix[i].row == r && prefix[i].col == c && prefix[i].score == m[r][c].value;
          assert ms[i] == prefix[i];
        }
      }
      m'
  }

  /** Two score grids agree on every cell that `invalidate(row, col)` keeps. */
  ghost predicate AgreeOutside(sc: seq<seq<int>>, sc': seq<seq<int>>, row: int, col: int)
    requires IsGrid(sc) && IsGrid(sc')
  {
    forall r, c :: OnBoard(r, c) && !Invalidated(row, col, r, c) ==> sc[r][c] == sc'[r][c]
  }

  /** A move changes no score outside the cells `invalidate` clears. */
  lemma ScoresAgreeOutside(rev: Revision, b: Board, b': Board, row: int, col: int)
    requires ValidBoard(b) && ValidBoard(b') && OnBoard(row, col)
    requires forall r', c' :: OnBoard(r', c') && (r' != row || c' != col) ==> b'[r'][c'] == b[r'][c']
    ensures AgreeOutside(ScoreGrid(rev, b), ScoreGrid(rev, b'), row, col)
  {
    forall r, c | OnBoard(r, c) && !Invalidated(row, col, r, c)
      ensures ScoreGrid(rev, b)[r][c] == ScoreGrid(rev, b')[r][c]
    {
      ScoreAt(rev, b, r, c);
      ScoreAt(rev, b', r, c);
      InvalidateKeepsScores(rev, b, b', row, col, r, c);
    }
  }

  /** The reused scores are current on every active cell, given that the scores outside
      the invalidated cells did not change and that, when the previous position had no
      active cell, (7, 7) is active now only if it is invalidated. */
  lemma ReusedScoresFresh(sc: seq<seq<int>>, sc': seq<seq<int>>, a: ActiveMap, a': ActiveMap, row: int, col: int)
    requires IsGrid(sc) && IsGrid(sc') && IsGrid(a) && IsGrid(a') && OnBoard(row, col)
    requires AgreeOutside(sc, sc', row, col)
    requires (forall r, c :: OnBoard(r, c) ==> !a[r][c]) ==> (a'[7][7] ==> Invalidated(row, col, 7, 7))
    ensures CacheFresh(Invalidate(ScoreMapOf(Order(sc, a, Constant(None))), row, col), sc', a')
  {
    var m0 := ScoreMapOf(Order(sc, a, Constant(None)));
    var m: ScoreMap := Invalidate(m0, row, col);
    forall r, c | OnBoard(r, c) && a'[r][c] && m[r][c].Some?
      ensures m[r][c].value == sc'[r][c]
    {
      assert !Invalidated(row, col, r, c) && m[r][c] == m0[r][c];
      assert sc[r][c] == sc'[r][c];
      ReusedEntry(sc, a, r, c);
    }
  }

  /** An entry of the score map rebuilt from the previous move list is that cell's score
      when the previous position had an active cell, and otherwise the centre's. */
  lemma ReusedEntry(sc: seq<seq<int>>, a: ActiveMap, r: int, c: int)
    requires IsGrid(sc) && IsGrid(a) && OnBoard(r, c)
    requires ScoreMapOf(Order(sc, a, Constant(None)))[r][c].Some?
    ensures (exists r', c' :: OnBoard(r', c') && a[r'][c']) ==>
              ScoreMapOf(Order(sc, a, Constant(None)))[r][c].value == sc[r][c]
    ensures (forall r', c' :: OnBoard(r', c') ==> !a[r'][c']) ==> r == 7 && c == 7
  {
    var ms := Order(sc, a, Constant(None));
    var i :| 0 <= i < |ms| && ms[i].row == r && ms[i].col == c && ms[i].score == ScoreMapOf(ms)[r][c].value;
    if exists r', c' :: OnBoard(r', c') && a[r'][c'] {
      OrderSound(sc, a);
    } else {
      OrderFallback(sc, a);
    }
  }

  /** When the position before the last move had no active cell, its board was empty, so
      a cell is active now only if it is near the one stone: (7, 7) is then active only if
      `invalidate` clears it. */
  lemma FallbackCellInvalidated(s: State)
    requires Inv(s) && |s.history| > 0
    requires forall r, c :: OnBoard(r, c) ==> !UndoMove(s).active[r][c]
    ensures s.active[7][7] ==> Invalidated(s.history[|s.history| - 1].row, s.history[|s.history| - 1].col, 7, 7)
  {
    var last := s.history[|s.history| - 1];
    var u := UndoMove(s);
    NoActiveMeansNoStone(u.board, u.active, last.row, last.col);
    if s.active[7][7] {
      var r', c' :| OnBoard(r', c') && InStar(r', c', 7, 7, 2) && s.board[r'][c'] != EMPTY;
      assert r' == last.row && c' == last.col;
      StarSymmetric(r', c', 7, 7, 2);
    }
  }

  /** Ordering with the reused scores gives exactly the moves ordered from scratch, under
      the conditions of `ReusedScoresFresh`. */
  lemma CachedOrderExact(sc: seq<seq<int>>, sc': seq<seq<int>>, a: ActiveMap, a': ActiveMap, row: int, col: int)
    requires IsGrid(sc) && IsGrid(sc') && IsGrid(a) && IsGrid(a') && OnBoard(row, col)
    requires AgreeOutside(sc, sc', row, col)
    requires (forall r, c :: OnBoard(r, c) ==> !a[r][c]) ==> (a'[7][7] ==> Invalidated(row, col, 7, 7))
    ensures Order(sc', a', Invalidate(ScoreMapOf(Order(sc, a, Constant(None))), row, col)) == Order(sc', a', Constant(None))
  {
    ReusedScoresFresh(sc, sc', a, a', row, col);
    var m: ScoreMap := Invalidate(ScoreMapOf(Order(sc, a, Constant(None))), row, col);
    CandidatesCacheTransparent(sc', a', m, 0);
  }

  /** The score cache a position hands on to the next: the scores of its sorted moves,
      with the cells around the move (row, col) that `update_active_map` invalidates
      cleared. */
  function CarriedScores(rev: Revision, u: State, row: int, col: int): (m: ScoreMap)
    requires WellFormed(u) && OnBoard(row, col)
    ensures IsGrid(m)
    ensures forall r, c :: OnBoard(r, c) && Invalidated(row, col, r, c) ==> m[r][c] == None
    ensures forall r, c :: OnBoard(r, c) && m[r][c].Some? ==>
              exists i :: 0 <= i < |SortedMoves(rev, u)| && SortedMoves(rev, u)[i].row == r
                          && SortedMoves(rev, u)[i].col == c && SortedMoves(rev, u)[i].score == m[r][c].value
  {
    Invalidate(ScoreMapOf(SortedMoves(rev, u)), row, col)
  }

  /** `get_sorted_moves` with the scores reused from the previous position returns exactly
      what it returns computed from scratch. */
  lemma CachedSortedMovesExact(rev: Revision, s: State)
    requires Inv(s) && |s.history| > 0
    ensures var last := s.history[|s.history| - 1];
            SortedMovesWith(rev, s, CarriedScores(rev, UndoMove(s), last.row, last.col)) == SortedMoves(rev, s)
  {
    var last := s.history[|s.history| - 1];
    LastMoveFacts(rev, s);
    CachedMovesExact(rev, UndoMove(s), s, last.row, last.col);
  }

  /** What `CachedMovesExact` needs of the position before the last move and after it. */
  lemma LastMoveFacts(rev: Revision, s: State)
    requires Inv(s) && |s.history| > 0
    ensures var last := s.history[|s.history| - 1];
            var u := UndoMove(s);
            && WellFormed(u) && WellFormed(s) && OnBoard(last.row, last.col)
            && AgreeOutside(ScoreGrid(rev, u.board), ScoreGrid(rev, s.board), last.row, last.col)
            && ((forall r, c :: OnBoard(r, c) ==> !u.active[r][c]) ==> (s.active[7][7] ==> Invalidated(last.row, last.col, 7, 7)))
  {
    var last := s.history[|s.history| - 1];
    var u := UndoMove(s);
    assert MakeMove(u, last.row, last.col) == s;
    ScoresAgreeOutside(rev, u.board, s.board, last.row, last.col);
    if forall r, c :: OnBoard(r, c) ==> !u.active[r][c] {
      FallbackCellInvalidated(s);
    }
  }

  /** `CachedOrderExact` for the sorted moves of two well-formed positions. */
  lemma CachedMovesExact(rev: Revision, u: State, s: State, row: int, col: int)
    requires WellFormed(u) && WellFormed(s) && OnBoard(row, col)
    requires AgreeOutside(ScoreGrid(rev, u.board), ScoreGrid(rev, s.board), row, col)
    requires (forall r, c :: OnBoard(r, c) ==> !u.active[r][c]) ==> (s.active[7][7] ==> Invalidated(row, col, 7, 7))
    ensures SortedMovesWith(rev, s, CarriedScores(rev, u, row, col)) == SortedMoves(rev, s)
  {
    CachedOrderExact(ScoreGrid(rev, u.board), ScoreGrid(rev, s.board), u.active, s.active, row, col);
  }

  /** Two positions of a permutation of a list with distinct cells hold distinct cells. */
  lemma CellsDistinct(cs: seq<Move>, ms: seq<Move>, i: int, j: int)
    requires multiset(ms) == multiset(cs)
    requires forall x, y :: 0 <= x < y < |cs| ==> Index(cs[x].row, cs[x].col) < Index(cs[y].row, cs[y].col)
    requires 0 <= i < j < |ms|
    ensures Cell(ms[i].row, ms[i].col) != Cell(ms[j].row, ms[j].col)
  {
    assert ms[i] in multiset(cs) && ms[j] in multiset(cs);
    var x :| 0 <= x < |cs| && cs[x] == ms[i];
    var y :| 0 <= y < |cs| && cs[y] == ms[j];
    if x == y {
      // the same move twice in `ms` would occur twice in `cs`
      assert multiset(ms)[ms[i]] >= 2 by {
        TwoPositionsOf(ms, i, j);
      }
      OnlyOnce(cs, x);
    }
  }

  lemma TwoPositionsOf<T>(t: seq<T>, k: int, l: int)
    requires 0 <= k < l < |t| && t[k] == t[l]
    ensures multiset(t)[t[k]] >= 2
  {
    assert t == t[..k] + [t[k]] + t[k + 1..l] + [t[l]] + t[l + 1..];
  }

  lemma OnlyOnce(cs: seq<Move>, x: int)
    requires forall i, j :: 0 <= i < j < |cs| ==> Index(cs[i].row, cs[i].col) < Index(cs[j].row, cs[j].col)
    requires 0 <= x < |cs|
    ensures multiset(cs)[cs[x]] == 1
  {
    assert cs == cs[..x] + [cs[x]] + cs[x + 1..];
    assert cs[x] !in cs[..x];
    assert cs[x] !in cs[x + 1..];
    assert multiset(cs) == multiset(cs[..x]) + multiset{cs[x]} + multiset(cs[x + 1..]);
  }
}

=== FILE: grid.dfy ===
/** The 15x15 board shared by the game state, the evaluator and the GUI: a grid is a
    sequence of 15 rows of 15 cells, indexed `g[row][col]`. */
module Grid {
  import opened Constants

  const N: int := 15

  /** The number of cells, `N * N`. */
  const CELLS: int := 225

  /** Python's `None` next to a value. */
  datatype Option<T> = None | Some(value: T)

  type Board = seq<seq<int>>

  datatype Cell = Cell(row: int, col: int)

  /** A direction as the source writes it: `dx` moves the column, `dy` the row. */
  datatype Dir = Dir(dx: int, dy: int)

  predicate OnBoard(r: int, c: int) {
    0 <= r < N && 0 <= c < N
  }

  predicate IsGrid<T>(g: seq<seq<T>>) {
    |g| == N && forall r :: 0 <= r < N ==> |g[r]| == N
  }

  predicate ValidBoard(b: Board) {
    IsGrid(b) && forall r, c :: 0 <= r < N && 0 <= c < N ==> IsPiece(b[r][c])
  }

  predicate IsUnitDir(d: Dir) {
    -1 <= d.dx <= 1 && -1 <= d.dy <= 1 && (d.dx != 0 || d.dy != 0)
  }

  /** `s * i` for a unit component `s` in {-1, 0, 1}, written without a product. */
  function Scale(s: int, i: int): (r: int)
    ensures -1 <= s <= 1 ==> r == s * i
  {
    if s == 0 then 0 else if s > 0 then i else -i
  }

  /** The cell `i` steps from (row, col) along `d`: `(row + dy * i, col + dx * i)`. */
  function StepCell(row: int, col: int, d: Dir, i: int): Cell {
    Cell(row + Scale(d.dy, i), col + Scale(d.dx, i))
  }

  /** (r, c) lies 1 to k steps from (row, col) along one of the 8 directions. */
  predicate InStar(row: int, col: int, r: int, c: int, k: int) {
    var dr, dc := r - row, c - col;
    && (dr != 0 || dc != 0)
    && (dr == 0 || dc == 0 || dr == dc || dr == -dc)
    && -k <= dr <= k && -k <= dc <= k
  }

  lemma StepInStar(row: int, col: int, d: Dir, i: int, k: int)
    requires IsUnitDir(d) && 1 <= i <= k
    ensures InStar(row, col, StepCell(row, col, d, i).row, StepCell(row, col, d, i).col, k)
  {
  }

  function Get<T>(g: seq<seq<T>>, r: int, c: int): T
    requires IsGrid(g) && OnBoard(r, c)
  {
    g[r][c]
  }

  /** The grid with one cell replaced; every other cell keeps its value. */
  function SetCell<T>(g: seq<seq<T>>, r: int, c: int, v: T): (g': seq<seq<T>>)
    requires IsGrid(g) && OnBoard(r, c)
    ensures IsGrid(g')
    ensures g'[r][c] == v
    ensures forall r', c' :: OnBoard(r', c') && (r' != r || c' != c) ==> g'[r'][c'] == g[r'][c']
  {
    g[r := g[r][c := v]]
  }

  lemma GridExt<T>(g: seq<seq<T>>, h: seq<seq<T>>)
    requires IsGrid(g) && IsGrid(h)
    requires forall r, c :: OnBoard(r, c) ==> g[r][c] == h[r][c]
    ensures g == h
  {
    forall r | 0 <= r < N
      ensures g[r] == h[r]
    {
      assert forall c :: 0 <= c < N ==> g[r][c] == h[r][c];
    }
  }

  function Constant<T>(v: T): (g: seq<seq<T>>)
    ensures IsGrid(g)
    ensures forall r, c :: OnBoard(r, c) ==> g[r][c] == v
  {
    seq(N, _ => seq(N, _ => v))
  }

  function EmptyBoard(): (b: Board)
    ensures ValidBoard(b)
    ensures forall r, c :: OnBoard(r, c) ==> b[r][c] == EMPTY
  {
    Constant(EMPTY)
  }

  /** Number of empty cells in a row. */
  function Zeros(s: seq<int>): nat {
    if |s| == 0 then 0 else (if s[0] == EMPTY then 1 else 0) + Zeros(s[1..])
  }

  /** Number of empty cells of a board. */
  function EmptyCount(b: seq<seq<int>>): nat {
    if |b| == 0 then 0 else Zeros(b[0]) + EmptyCount(b[1..])
  }

  lemma {:induction false} ZerosSet(s: seq<int>, c: int, v: int)
    requires 0 <= c < |s| && s[c] == EMPTY && v != EMPTY
    ensures Zeros(s[c := v]) + 1 == Zeros(s)
    decreases |s|
  {
    if c == 0 {
      assert s[c := v][1..] == s[1..];
    } else {
      assert s[c := v][1..] == s[1..][c - 1 := v];
      ZerosSet(s[1..], c - 1, v);
    }
  }

  lemma {:induction false} ZerosPositive(s: seq<int>) returns (c: int)
    requires Zeros(s) > 0
    ensures 0 <= c < |s| && s[c] == EMPTY
    decreases |s|
  {
    if s[0] == EMPTY {
      c := 0;
    } else {
      var c' := ZerosPositive(s[1..]);
      c := c' + 1;
    }
  }

  /** Placing a stone on an empty cell leaves exactly one empty cell fewer. */
  lemma {:induction false} EmptyCountSet(b: Board, r: int, c: int, v: int)
    requires IsGrid(b) && OnBoard(r, c) && b[r][c] == EMPTY && v != EMPTY
    ensures EmptyCount(SetCell(b, r, c, v)) + 1 == EmptyCount(b)
  {
    EmptyCountSetRows(b, r, c, v);
  }

  lemma {:induction false} EmptyCountSetRows(b: seq<seq<int>>, r: int, c: int, v: int)
    requires 0 <= r < |b| && 0 <= c < |b[r]| && b[r][c] == EMPTY && v != EMPTY
    ensures EmptyCount(b[r := b[r][c := v]]) + 1 == EmptyCount(b)
    decreases |b|
  {
    var b' := b[r := b[r][c := v]];
    if r == 0 {
      assert b'[1..] == b[1..];
      ZerosSet(b[0], c, v);
    } else {
      assert b'[1..] == b[1..][r - 1 := b[r][c := v]];
      EmptyCountSetRows(b[1..], r - 1, c, v);
    }
  }

  /** A board with an empty cell count above zero has an empty cell. */
  lemma {:induction false} EmptyCountPositive(b: seq<seq<int>>) returns (cell: Cell)
    requires EmptyCount(b) > 0
    ensures 0 <= cell.row < |b| && 0 <= cell.col < |b[cell.row]| && b[cell.row][cell.col] == EMPTY
    decreases |b|
  {
    if Zeros(b[0]) > 0 {
      var c := ZerosPositive(b[0]);
      cell := Cell(0, c);
    } else {
      var cell' := EmptyCountPositive(b[1..]);
      cell := Cell(cell'.row + 1, cell'.col);
    }
  }
}

=== FILE: gui.dfy ===
/** The rules the GUI applies to a game between two people: the pixel arithmetic of
    `handle_click`, which turns a click on the 600x600 canvas into a board cell, and
    `check_winner`, which looks for five in a row through the stone just placed. The
    canvas draws intersection `i` at pixel `20 + 40 * i`. */
module Gui {
  import opened Constants
  import opened Grid
  import opened Evaluator
  import opened GameState

  /** The directions of `check_winner`, as (row step, column step): (1, 0), (0, 1),
      (1, 1) and (1, -1). */
  const DIRECTIONS: seq<Dir> := [Dir(0, 1), Dir(1, 0), Dir(1, 1), Dir(-1, 1)]

  /* ---------------------------------------------------------------------------
     Five in a row
     --------------------------------------------------------------------------- */

  /** The cell `i` steps from (row, col) along `d` is on the board and holds `p`. */
  predicate Holds(b: Board, row: int, col: int, d: Dir, p: int, i: int)
    requires IsGrid(b)
  {
    var cell := StepCell(row, col, d, i);
    OnBoard(cell.row, cell.col) && b[cell.row][cell.col] == p
  }

  /** The five cells from step `s` to step `s + 4` hold `p`. */
  predicate RunAt(b: Board, row: int, col: int, d: Dir, p: int, s: int)
    requires IsGrid(b)
  {
    forall i :: s <= i < s + 5 ==> Holds(b, row, col, d, p, i)
  }

  /** Five stones of `p` in a row along `d`, one of them on (row, col): a run that starts
      between 4 steps back and (row, col) itself. */
  predicate FiveThrough(b: Board, row: int, col: int, d: Dir, p: int)
    requires IsGrid(b)
  {
    exists s :: -4 <= s <= 0 && RunAt(b, row, col, d, p, s)
  }

  /** The run that starts at step `s` is the first one through (row, col). */
  predicate FirstRun(b: Board, row: int, col: int, d: Dir, p: int, s: int)
    requires IsGrid(b)
  {
    && -4 <= s <= 0
    && RunAt(b, row, col, d, p, s)
    && forall t :: -4 <= t < s ==> !RunAt(b, row, col, d, p, t)
  }

  /** The `n` cells along `d` from step `lo` on. */
  function Segment(row: int, col: int, d: Dir, lo: int, n: nat): seq<Cell> {
    seq(n, j => StepCell(row, col, d, lo + j))
  }

  lemma SegmentGrows(row: int, col: int, d: Dir, lo: int, n: nat)
    ensures Segment(row, col, d, lo, n) + [StepCell(row, col, d, lo + n)] == Segment(row, col, d, lo, n + 1)
  {
    var u := Segment(row, col, d, lo, n) + [StepCell(row, col, d, lo + n)];
    assert forall j :: 0 <= j < n + 1 ==> u[j] == StepCell(row, col, d, lo + j);
  }

  /** `check_line(start, direction)`: the steps -4 to 4 are scanned with a counter of
      consecutive stones of `p` and the list of their cells; on the fifth the list
      becomes the winning line. */
  method CheckLine(b: Board, row: int, col: int, d: Dir, p: int, prev: seq<Cell>)
    returns (found: bool, line: seq<Cell>)
    requires IsGrid(b)
    ensures found <==> FiveThrough(b, row, col, d, p)
    ensures found ==> exists s :: FirstRun(b, row, col, d, p, s) && line == Segment(row, col, d, s, 5)
    ensures !found ==> line == prev
  {
    var count := 0;
    var cur: seq<Cell> := [];
    var step := -4;
    while step < 5
      invariant -4 <= step <= 5 && 0 <= count <= 4 && count <= step + 4
      invariant forall i :: step - count <= i < step ==> Holds(b, row, col, d, p, i)
      invariant step - count - 1 >= -4 ==> !Holds(b, row, col, d, p, step - count - 1)
      invariant cur == Segment(row, col, d, step - count, count)
      invariant forall t :: -4 <= t && t + 5 <= step ==> !RunAt(b, row, col, d, p, t)
      decreases 5 - step
    {
      var cell := StepCell(row, col, d, step);
      if OnBoard(cell.row, cell.col) && b[cell.row][cell.col] == p {
        SegmentGrows(row, col, d, step - count, count);
        ghost var gap := step - count - 1;
        count := count + 1;
        cur := cur + [cell];
        if count == 5 {
          assert FirstRun(b, row, col, d, p, step - 4);
          found, line := true, cur;
          return;
        }
        // the cell before the run ends any run that would reach this step
        assert step >= 0 ==> gap >= -4 && !Holds(b, row, col, d, p, gap);
        assert step >= 0 ==> !RunAt(b, row, col, d, p, step - 4);
      } else {
        count := 0;
        cur := [];
        assert !Holds(b, row, col, d, p, step);
      }
      step := step + 1;
    }
    found, line := false, prev;
  }

  /** A winning line has five cells of `p`, and the stone at (row, col) is one of them. */
  lemma RunLine(b: Board, row: int, col: int, d: Dir, p: int, s: int)
    requires IsGrid(b) && -4 <= s <= 0 && RunAt(b, row, col, d, p, s)
    ensures Cell(row, col) in Segment(row, col, d, s, 5)
    ensures forall cell :: cell in Segment(row, col, d, s, 5) ==>
              OnBoard(cell.row, cell.col) && b[cell.row][cell.col] == p
  {
    var line := Segment(row, col, d, s, 5);
    assert line[-s] == StepCell(row, col, d, 0);
    forall j | 0 <= j < 5 ensures OnBoard(line[j].row, line[j].col) && b[line[j].row][line[j].col] == p {
      assert line[j] == StepCell(row, col, d, s + j);
      assert Holds(b, row, col, d, p, s + j);
    }
  }

  /** The winning direction of `check_winner`: the first direction with a five. */
  ghost predicate WinsAlong(b: Board, row: int, col: int, p: int, k: int, line: seq<Cell>)
    requires IsGrid(b)
  {
    && 0 <= k < |DIRECTIONS|
    && (forall j :: 0 <= j < k ==> !FiveThrough(b, row, col, DIRECTIONS[j], p))
    && exists s :: FirstRun(b, row, col, DIRECTIONS[k], p, s) && line == Segment(row, col, DIRECTIONS[k], s, 5)
  }

  /** `check_winner(row, col)` for the player `p` to move, who has just played (row, col):
      true exactly when `p` has five in a row through it in one of the four directions;
      the winning line is then five cells of `p` that include (row, col). */
  method CheckWinner(b: Board, row: int, col: int, p: int, prev: seq<Cell>)
    returns (won: bool, line: seq<Cell>)
    requires IsGrid(b)
    ensures won <==> exists k :: 0 <= k < |DIRECTIONS| && FiveThrough(b, row, col, DIRECTIONS[k], p)
    ensures won ==> exists k :: WinsAlong(b, row, col, p, k, line)
    ensures won ==> |line| == 5 && Cell(row, col) in line
    ensures won ==> forall cell :: cell in line ==> OnBoard(cell.row, cell.col) && b[cell.row][cell.col] == p
    ensures !won ==> line == prev
  {
    var k := 0;
    while k < |DIRECTIONS|
      invariant 0 <= k <= |DIRECTIONS|
      invariant forall j :: 0 <= j < k ==> !FiveThrough(b, row, col, DIRECTIONS[j], p)
    {
      won, line := CheckLine(b, row, col, DIRECTIONS[k], p, prev);
      if won {
        ghost var s :| FirstRun(b, row, col, DIRECTIONS[k], p, s) && line == Segment(row, col, DIRECTIONS[k], s, 5);
        RunLine(b, row, col, DIRECTIONS[k], p, s);
        assert WinsAlong(b, row, col, p, k, line);
        return;
      }
      k := k + 1;
    }
    won, line := false, prev;
  }

  /** Six or more in a row win too: `check_line` stops at the fifth stone and does not
      ask that the run end there. */
  lemma OverlineWins(b: Board, row: int, col: int, d: Dir, p: int, s: int)
    requires IsGrid(b) && -5 <= s <= 0
    requires forall i :: s <= i < s + 6 ==> Holds(b, row, col, d, p, i)
    ensures FiveThrough(b, row, col, d, p)
  {
    if s == -5 {
      assert RunAt(b, row, col, d, p, -4);
    } else {
      assert RunAt(b, row, col, d, p, s);
    }
  }

  /* ---------------------------------------------------------------------------
     Clicks
     --------------------------------------------------------------------------- */

  /** The pixel of intersection `i`. */
  function Pixel(i: int): int {
    20 + 40 * i
  }

  /** The intersection a pixel is taken for: as written `(x - 20) // 40`, the
      intersection at or before it; corrected `x // 40`, the nearest one. Python's `//`
      rounds down, as Dafny's `/` does for a positive divisor. */
  function PixelIndex(rev: Revision, x: int): int {
    match rev
    case AsWritten => (x - 20) / 40
    case Corrected => x / 40
  }

  /** Intersections are 40 pixels apart, so one within 20 pixels of a coordinate is a
      nearest one. */
  lemma NearestWithin(x: int, i: int)
    ensures Abs(x - Pixel(i)) <= 20 ==> forall j :: Abs(x - Pixel(i)) <= Abs(x - Pixel(j))
  {
    if Abs(x - Pixel(i)) <= 20 {
      forall j ensures Abs(x - Pixel(i)) <= Abs(x - Pixel(j)) {
        if j > i {
          assert Pixel(j) >= Pixel(i) + 40;
        } else if j < i {
          assert Pixel(j) <= Pixel(i) - 40;
        }
      }
    }
  }

  /** The cell a click at (x, y) selects: the intersection found for each coordinate, if
      the click is within 20 pixels of it along both axes (see README "Findings"). */
  function ClickCell(rev: Revision, x: int, y: int): (r: Option<Cell>)
    ensures r.Some? ==> forall j :: Abs(x - Pixel(r.value.col)) <= Abs(x - Pixel(j))
    ensures r.Some? ==> forall j :: Abs(y - Pixel(r.value.row)) <= Abs(y - Pixel(j))
  {
    var col := PixelIndex(rev, x);
    var row := PixelIndex(rev, y);
    NearestWithin(x, col);
    NearestWithin(y, row);
    if Abs(x - Pixel(col)) <= 20 && Abs(y - Pixel(row)) <= 20 then Some(Cell(row, col)) else None
  }

  /** As written, a click selects a cell only in the quarter right of and below an
      intersection: its offset past the intersection before it is at most 20 pixels. */
  lemma AsWrittenClickQuadrant(x: int, y: int)
    ensures ClickCell(AsWritten, x, y).Some? <==> (x - 20) % 40 <= 20 && (y - 20) % 40 <= 20
    ensures ClickCell(AsWritten, x, y).Some? ==>
              ClickCell(AsWritten, x, y) == Some(Cell((y - 20) / 40, (x - 20) / 40))
  {
    assert x - Pixel((x - 20) / 40) == (x - 20) % 40;
    assert y - Pixel((y - 20) / 40) == (y - 20) % 40;
  }

  /** As written, a click 5 pixels left of the intersection of row 1 and column 1 is
      ignored. */
  lemma AsWrittenMissesNearClick()
    ensures Abs(55 - Pixel(1)) <= 20 && Abs(60 - Pixel(1)) <= 20
    ensures ClickCell(AsWritten, 55, 60) == None
  {
  }

  /** Corrected, every click strictly closer than 20 pixels to an intersection along
      both axes selects that intersection's cell, and no click is ignored. */
  lemma CorrectedClickNearest(x: int, y: int, row: int, col: int)
    requires Abs(x - Pixel(col)) < 20 && Abs(y - Pixel(row)) < 20
    ensures ClickCell(Corrected, x, y) == Some(Cell(row, col))
  {
    NearestIndex(x, col);
    NearestIndex(y, row);
  }

  lemma NearestIndex(x: int, i: int)
    requires Abs(x - Pixel(i)) < 20
    ensures x / 40 == i && Abs(x - Pixel(x / 40)) <= 20
  {
    assert 40 * i <= x < 40 * i + 40;
  }

  /** Corrected, a click anywhere selects some cell no more than 20 pixels away. */
  lemma CorrectedClickTotal(x: int, y: int)
    ensures ClickCell(Corrected, x, y).Some?
  {
    assert 0 <= x - 40 * (x / 40) < 40;
    assert 0 <= y - 40 * (y / 40) < 40;
  }

  /* ---------------------------------------------------------------------------
     The click handler
     --------------------------------------------------------------------------- */

  /** The state of the GUI's game: the board, the player to move, the winner once there
      is one, and the winning line. */
  datatype Game = Game(board: Board, player: int, winner: Option<int>, winning: seq<Cell>)

  predicate GameOk(g: Game) {
    ValidBoard(g.board) && IsPlayer(g.player) && (g.winner.Some? ==> IsPlayer(g.winner.value))
  }

  /** `handle_click(event)`: after a win, or for a click that selects no empty cell of the
      board, nothing changes. Otherwise the player's stone goes on the cell; a five
      through it makes the player the winner, and otherwise the other player is to move.
      The redraw and the engine's suggestion are left to the GUI. */
  method HandleClick(rev: Revision, g: Game, x: int, y: int) returns (g': Game)
    requires GameOk(g)
    ensures GameOk(g')
    ensures g.winner.Some? ==> g' == g
    ensures g.winner.None? && !Playable(g.board, ClickCell(rev, x, y)) ==> g' == g
    ensures g.winner.None? && Playable(g.board, ClickCell(rev, x, y)) ==>
              var cell := ClickCell(rev, x, y).value;
              && g'.board == SetCell(g.board, cell.row, cell.col, g.player)
              && (g'.winner.Some? <==>
                    exists k :: 0 <= k < |DIRECTIONS| && FiveThrough(g'.board, cell.row, cell.col, DIRECTIONS[k], g.player))
              && (g'.winner.Some? ==>
                    && g'.winner == Some(g.player) && g'.player == g.player
                    && |g'.winning| == 5 && cell in g'.winning
                    && forall c :: c in g'.winning ==> OnBoard(c.row, c.col) && g'.board[c.row][c.col] == g.player)
              && (g'.winner.None? ==> g'.player == Opponent(g.player) && g'.winning == g.winning)
  {
    if g.winner.Some? {
      return g;
    }
    var click := ClickCell(rev, x, y);
    if !Playable(g.board, click) {
      return g;
    }
    var row, col := click.value.row, click.value.col;
    var board := SetCell(g.board, row, col, g.player);
    var won, line := CheckWinner(board, row, col, g.player, g.winning);
    if won {
      g' := Game(board, g.player, Some(g.player), line);
    } else {
      g' := Game(board, Opponent(g.player), None, g.winning);
    }
  }

  /** The click selects an empty cell of the board. */
  predicate Playable(b: Board, click: Option<Cell>)
    requires IsGrid(b)
  {
    click.Some? && OnBoard(click.value.row, click.value.col) && b[click.value.row][click.value.col] == EMPTY
  }
}

=== FILE: heuristic.dfy ===
/** `GameState.get_heuristic_value` computed from scratch: every stone is evaluated for
    its own colour, Black's values counted positively and White's negatively, and the
    values of all stones are summed. The sum is taken in row-major order, as the source's
    two nested loops take it. */
module Heuristic {
  import opened Constants
  import opened Grid
  import opened Evaluator
  import opened GameState

  /** What one cell adds to the position value: nothing for an empty cell, otherwise the
      stone's evaluation for its own colour, negated for White. */
  function CellValue(rev: Revision, b: Board, r: int, c: int): int
    requires ValidBoard(b) && OnBoard(r, c)
  {
    if b[r][c] == EMPTY then 0
    else
      var v := Evaluate(rev, b, r, c, b[r][c]);
      if b[r][c] == BLACK then v else -v
  }

  /** The values of all cells. */
  function ValueGrid(rev: Revision, b: Board): (g: seq<seq<int>>)
    requires ValidBoard(b)
    ensures IsGrid(g)
    ensures forall r, c :: OnBoard(r, c) ==> g[r][c] == CellValue(rev, b, r, c)
  {
    seq(N, r => seq(N, c => if 0 <= r < N && 0 <= c < N then CellValue(rev, b, r, c) else 0))
  }

  /** Sum of the cells `k`, `k + 1`, ... in row-major order. */
  function SumFrom(g: seq<seq<int>>, k: int): int
    requires IsGrid(g) && 0 <= k <= CELLS
    decreases CELLS - k
  {
    if k == CELLS then 0
    else
      CellAtIndex(k);
      g[CellAt(k).row][CellAt(k).col] + SumFrom(g, k + 1)
  }

  /** No stone of colour `p` is on the board. */
  ghost predicate NoStoneOf(b: Board, p: int)
    requires ValidBoard(b)
  {
    forall r, c :: OnBoard(r, c) ==> b[r][c] != p
  }

  /** The value of a position: the sum of the values of all its cells. */
  function HeuristicValue(rev: Revision, b: Board): (v: int)
    requires ValidBoard(b)
    ensures NoStoneOf(b, WHITE) ==> v >= 0
    ensures NoStoneOf(b, BLACK) ==> v <= 0
  {
    assert NoStoneOf(b, WHITE) ==> SumFrom(ValueGrid(rev, b), 0) >= 0 by {
      if NoStoneOf(b, WHITE) {
        BlackOnlySum(rev, b);
      }
    }
    assert NoStoneOf(b, BLACK) ==> SumFrom(ValueGrid(rev, b), 0) <= 0 by {
      if NoStoneOf(b, BLACK) {
        WhiteOnlySum(rev, b);
      }
    }
    SumFrom(ValueGrid(rev, b), 0)
  }

  /** Without white stones no cell value is negative, so neither is their sum. */
  lemma BlackOnlySum(rev: Revision, b: Board)
    requires ValidBoard(b) && NoStoneOf(b, WHITE)
    ensures SumFrom(ValueGrid(rev, b), 0) >= 0
  {
    BlackOnlyCells(rev, b);
    SumNonNeg(ValueGrid(rev, b), 0);
  }

  lemma BlackOnlyCells(rev: Revision, b: Board)
    requires ValidBoard(b) && NoStoneOf(b, WHITE)
    ensures forall r, c :: OnBoard(r, c) ==> 0 <= ValueGrid(rev, b)[r][c]
  {
    forall r, c | OnBoard(r, c) ensures 0 <= CellValue(rev, b, r, c) {
      CellValueSign(rev, b, r, c);
    }
  }

  /** Without black stones no cell value is positive, so neither is their sum. */
  lemma WhiteOnlySum(rev: Revision, b: Board)
    requires ValidBoard(b) && NoStoneOf(b, BLACK)
    ensures SumFrom(ValueGrid(rev, b), 0) <= 0
  {
    WhiteOnlyCells(rev, b);
    var g := ValueGrid(rev, b);
    SumNonNeg(NegGrid(g), 0);
    SumNeg(g, 0);
  }

  lemma WhiteOnlyCells(rev: Revision, b: Board)
    requires ValidBoard(b) && NoStoneOf(b, BLACK)
    ensures forall r, c :: OnBoard(r, c) ==> 0 <= NegGrid(ValueGrid(rev, b))[r][c]
  {
    forall r, c | OnBoard(r, c) ensures 0 <= -CellValue(rev, b, r, c) {
      CellValueSign(rev, b, r, c);
    }
  }

  /** Cells of no negative value sum to no negative value. */
  lemma {:induction false} SumNonNeg(g: seq<seq<int>>, k: int)
    requires IsGrid(g) && 0 <= k <= CELLS
    requires forall r, c :: OnBoard(r, c) ==> 0 <= g[r][c]
    ensures SumFrom(g, k) >= 0
    decreases CELLS - k
  {
    if k < CELLS {
      CellAtIndex(k);
      SumNonNeg(g, k + 1);
    }
  }

  /** The stone on (r, c) is part of a line of five of its own colour, as the evaluator
      sees it: FIVE is among the threats of its four windows. */
  ghost predicate SeesFive(rev: Revision, b: Board, r: int, c: int)
    requires ValidBoard(b) && OnBoard(r, c)
  {
    b[r][c] != EMPTY && FIVE in CellThreats(rev, b, r, c, b[r][c])
  }

  /* ---------------------------------------------------------------------------
     What a single cell contributes
     --------------------------------------------------------------------------- */

  /** A cell whose stone sees no five contributes at most two minor threats. */
  lemma CellValueMinor(rev: Revision, b: Board, r: int, c: int)
    requires ValidBoard(b) && OnBoard(r, c) && !SeesFive(rev, b, r, c)
    ensures -2 * MAX_MINOR <= CellValue(rev, b, r, c) <= 2 * MAX_MINOR
  {
    if b[r][c] != EMPTY {
      var v := Evaluate(rev, b, r, c, b[r][c]);
      assert v < WIN;
    }
  }

  /** A stone that sees a five contributes at least FIVE, towards its own colour. */
  lemma CellValueFive(rev: Revision, b: Board, r: int, c: int)
    requires ValidBoard(b) && OnBoard(r, c) && SeesFive(rev, b, r, c)
    ensures b[r][c] == BLACK ==> CellValue(rev, b, r, c) >= FIVE
    ensures b[r][c] == WHITE ==> CellValue(rev, b, r, c) <= -FIVE
  {
    var ts := CellThreats(rev, b, r, c, b[r][c]);
    var k :| 0 <= k < |ts| && ts[k] == FIVE;
  }

  /** A black stone never lowers the value and a white stone never raises it. */
  lemma CellValueSign(rev: Revision, b: Board, r: int, c: int)
    requires ValidBoard(b) && OnBoard(r, c)
    ensures b[r][c] == BLACK ==> CellValue(rev, b, r, c) >= 0
    ensures b[r][c] == WHITE ==> CellValue(rev, b, r, c) <= 0
    ensures b[r][c] == EMPTY ==> CellValue(rev, b, r, c) == 0
  {
  }

  /* ---------------------------------------------------------------------------
     Sums over a grid of values
     --------------------------------------------------------------------------- */

  /** Cells within two minor threats of zero sum to within two minor threats per cell. */
  lemma {:induction false} SumBounded(g: seq<seq<int>>, k: int)
    requires IsGrid(g) && 0 <= k <= CELLS
    requires forall r, c :: OnBoard(r, c) ==> -200_000 <= g[r][c] <= 200_000
    ensures -(CELLS - k) * 200_000 <= SumFrom(g, k) <= (CELLS - k) * 200_000
    decreases CELLS - k
  {
    if k < CELLS {
      CellAtIndex(k);
      SumBounded(g, k + 1);
    }
  }

  /** How much one cell at `high` or above lifts a sum whose cells are all at least
      `-200_000` (two minor threats): at index `k` or before it adds `high + 200_000`. */
  lemma {:induction false} SumLifted(g: seq<seq<int>>, k: int, high: int, c1: Cell)
    requires IsGrid(g) && 0 <= k <= CELLS && -200_000 <= high
    requires forall r, c :: OnBoard(r, c) ==> -200_000 <= g[r][c]
    requires OnBoard(c1.row, c1.col) && g[c1.row][c1.col] >= high
    ensures SumFrom(g, k) >= -(CELLS - k) * 200_000
                             + (if Index(c1.row, c1.col) >= k then high + 200_000 else 0)
    decreases CELLS - k
  {
    if k < CELLS {
      CellAtIndex(k);
      SumLifted(g, k + 1, high, c1);
      if Index(c1.row, c1.col) == k {
        assert CellAt(k) == c1;
      }
    } else {
      CellAtIndex(Index(c1.row, c1.col));
    }
  }

  function NegGrid(g: seq<seq<int>>): (h: seq<seq<int>>)
    requires IsGrid(g)
    ensures IsGrid(h)
    ensures forall r, c :: OnBoard(r, c) ==> h[r][c] == -g[r][c]
  {
    seq(N, r => seq(N, c => if 0 <= r < N && 0 <= c < N then -g[r][c] else 0))
  }

  lemma {:induction false} SumNeg(g: seq<seq<int>>, k: int)
    requires IsGrid(g) && 0 <= k <= CELLS
    ensures SumFrom(NegGrid(g), k) == -SumFrom(g, k)
    decreases CELLS - k
  {
    if k < CELLS {
      CellAtIndex(k);
      var cell := CellAt(k);
      assert NegGrid(g)[cell.row][cell.col] == -g[cell.row][cell.col];
      SumNeg(g, k + 1);
    }
  }

  /** `SumLifted` at the start of the grid: one cell at FIVE or above lifts a sum whose
      cells are at least minus two minor threats to WIN, since FIVE is ten times WIN. */
  lemma SumRaised(g: seq<seq<int>>, c1: Cell)
    requires IsGrid(g)
    requires forall r, c :: OnBoard(r, c) ==> -200_000 <= g[r][c]
    requires OnBoard(c1.row, c1.col) && g[c1.row][c1.col] >= FIVE
    ensures SumFrom(g, 0) >= WIN
  {
    SumLifted(g, 0, FIVE, c1);
  }

  /** Mirror image of `SumRaised`: one cell at `-FIVE` or below pulls a sum whose cells
      are at most two minor threats down to `-WIN`. */
  lemma SumLowered(g: seq<seq<int>>, c1: Cell)
    requires IsGrid(g)
    requires forall r, c :: OnBoard(r, c) ==> g[r][c] <= 200_000
    requires OnBoard(c1.row, c1.col) && g[c1.row][c1.col] <= -FIVE
    ensures SumFrom(g, 0) <= -WIN
  {
    SumLifted(NegGrid(g), 0, FIVE, c1);
    SumNeg(g, 0);
  }

  /* ---------------------------------------------------------------------------
     The value of a position and the win threshold
     --------------------------------------------------------------------------- */

  /** With no stone that sees a five, every cell is within two minor threats of zero. */
  lemma MinorGrid(rev: Revision, b: Board)
    requires ValidBoard(b)
    requires forall r, c :: OnBoard(r, c) ==> !SeesFive(rev, b, r, c)
    ensures forall r, c :: OnBoard(r, c) ==> -200_000 <= ValueGrid(rev, b)[r][c] <= 200_000
  {
    forall r, c | OnBoard(r, c) ensures -200_000 <= CellValue(rev, b, r, c) <= 200_000 {
      CellValueMinor(rev, b, r, c);
    }
  }

  /** Without a stone that sees a five, the position value stays far from WIN in both
      directions: the engine never takes such a position for a won one. */
  lemma NoFiveNoWin(rev: Revision, b: Board)
    requires ValidBoard(b)
    requires forall r, c :: OnBoard(r, c) ==> !SeesFive(rev, b, r, c)
    ensures -CELLS * 200_000 <= HeuristicValue(rev, b) <= CELLS * 200_000
    ensures -WIN < HeuristicValue(rev, b) < WIN
  {
    MinorGrid(rev, b);
    SumBounded(ValueGrid(rev, b), 0);
  }

  /** With no white stone that sees a five, no cell is below minus two minor threats. */
  lemma BlackFloor(rev: Revision, b: Board)
    requires ValidBoard(b)
    requires forall r, c :: OnBoard(r, c) && b[r][c] == WHITE ==> !SeesFive(rev, b, r, c)
    ensures forall r, c :: OnBoard(r, c) ==> -200_000 <= ValueGrid(rev, b)[r][c]
  {
    forall r, c | OnBoard(r, c) ensures -200_000 <= CellValue(rev, b, r, c) {
      CellValueSign(rev, b, r, c);
      if b[r][c] == WHITE {
        CellValueMinor(rev, b, r, c);
      }
    }
  }

  /** With no black stone that sees a five, no cell is above two minor threats. */
  lemma WhiteCeiling(rev: Revision, b: Board)
    requires ValidBoard(b)
    requires forall r, c :: OnBoard(r, c) && b[r][c] == BLACK ==> !SeesFive(rev, b, r, c)
    ensures forall r, c :: OnBoard(r, c) ==> ValueGrid(rev, b)[r][c] <= 200_000
  {
    forall r, c | OnBoard(r, c) ensures CellValue(rev, b, r, c) <= 200_000 {
      CellValueSign(rev, b, r, c);
      if b[r][c] == BLACK {
        CellValueMinor(rev, b, r, c);
      }
    }
  }

  /** A black stone that sees a five, and no white stone that does, make the position
      won for Black. */
  lemma BlackFiveWins(rev: Revision, b: Board, c1: Cell)
    requires ValidBoard(b)
    requires OnBoard(c1.row, c1.col) && b[c1.row][c1.col] == BLACK && SeesFive(rev, b, c1.row, c1.col)
    requires forall r, c :: OnBoard(r, c) && b[r][c] == WHITE ==> !SeesFive(rev, b, r, c)
    ensures HeuristicValue(rev, b) >= WIN
  {
    BlackFloor(rev, b);
    CellValueFive(rev, b, c1.row, c1.col);
    SumRaised(ValueGrid(rev, b), c1);
  }

  /** A white stone that sees a five, and no black stone that does, make the position
      won for White. */
  lemma WhiteFiveWins(rev: Revision, b: Board, c1: Cell)
    requires ValidBoard(b)
    requires OnBoard(c1.row, c1.col) && b[c1.row][c1.col] == WHITE && SeesFive(rev, b, c1.row, c1.col)
    requires forall r, c :: OnBoard(r, c) && b[r][c] == BLACK ==> !SeesFive(rev, b, r, c)
    ensures HeuristicValue(rev, b) <= -WIN
  {
    WhiteCeiling(rev, b);
    CellValueFive(rev, b, c1.row, c1.col);
    SumLowered(ValueGrid(rev, b), c1);
  }
}

=== FILE: search_facts.dfy ===
/** What the search computes, stated against independent definitions: the score of a
    finished inner node is the best score among its children and its move is the move of
    a child with that score, a decided position needs a stone that sees a five, and a
    table entry answers only searches it is deep enough for. */
module SearchFacts {
  import opened Constants
  import opened Grid
  import opened Evaluator
  import opened GameState
  import opened Heuristic
  import opened AlphaBeta

  /** `b` is the largest child score for Black and the smallest for White, and
      `best_move` is the move of the first child that reaches it. */
  lemma {:induction false} BestIsExtremum(player: int, ex: seq<Child>) returns (k: int)
    requires |ex| > 0
    ensures 0 <= k < |ex|
    ensures Best(player, ex) == Fin(Score(ex[k])) && BestMove(player, ex) == Some(ex[k].cell)
    ensures IsMax(player) ==> forall j :: 0 <= j < |ex| ==> Score(ex[j]) <= Score(ex[k])
    ensures !IsMax(player) ==> forall j :: 0 <= j < |ex| ==> Score(ex[k]) <= Score(ex[j])
    ensures forall j :: 0 <= j < k ==> Score(ex[j]) != Score(ex[k])
    decreases |ex|
  {
    var p := ex[..|ex| - 1];
    var last := ex[|ex| - 1];
    if |ex| == 1 {
      k := 0;
    } else {
      var k' := BestIsExtremum(player, p);
      assert forall j :: 0 <= j < |p| ==> ex[j] == p[j];
      if Improves(player, Score(last), Best(player, p)) {
        k := |ex| - 1;
      } else {
        k := k';
      }
    }
  }

  /** A finished move loop: its score is the best score among the children, for Black
      the largest and for White the smallest, every child finished, and its move is the
      cell of the first child with that score, one of the moves tried. */
  lemma DoneIsBestChild(player: int, alpha: Ext, beta: Ext, stopAt: Option<nat>, nodes: nat,
                        moves: seq<Move>, ex: seq<Child>, out: Outcome) returns (k: int)
    requires Explored(player, alpha, beta, stopAt, nodes, moves, ex, out) && out.Done?
    ensures 0 <= k < |ex| <= |moves|
    ensures forall j :: 0 <= j < |ex| ==> ex[j].out.Done?
    ensures out.score == ex[k].out.score
    ensures out.move == Some(Cell(moves[k].row, moves[k].col))
    ensures IsMax(player) ==> forall j :: 0 <= j < |ex| ==> ex[j].out.score <= out.score
    ensures !IsMax(player) ==> forall j :: 0 <= j < |ex| ==> out.score <= ex[j].out.score
  {
    forall j | 0 <= j < |ex| ensures ex[j].out.Done? {
      if j < |ex| - 1 {
        TraceAt(player, alpha, beta, stopAt, nodes, moves, ex, j);
        assert ex[..j + 1][j] == ex[j];
      }
    }
    k := BestIsExtremum(player, ex);
    TraceAt(player, alpha, beta, stopAt, nodes, moves, ex, k);
  }

  /** The loop stops early only on a winning score or a crossed bound: a finished loop
      that did not try every move ended on a child that won for the player or that put
      `b` past the bound of the opponent. */
  lemma EarlyExit(player: int, alpha: Ext, beta: Ext, stopAt: Option<nat>, nodes: nat,
                  moves: seq<Move>, ex: seq<Child>, out: Outcome)
    requires Explored(player, alpha, beta, stopAt, nodes, moves, ex, out) && out.Done?
    requires |ex| < |moves|
    ensures Wins(player, out.score) || Crossed(player, Fin(out.score), alpha, beta)
  {
  }

  /** The nodes the children's own searches counted, summed front to back. */
  function SpentNodes(ex: seq<Child>): nat
    decreases |ex|
  {
    if |ex| == 0 then 0 else ex[0].spent.nodes + SpentNodes(ex[1..])
  }

  lemma {:induction false} SpentNodesSnoc(ex: seq<Child>, c: Child)
    ensures SpentNodes(ex + [c]) == SpentNodes(ex) + c.spent.nodes
    decreases |ex|
  {
    if |ex| > 0 {
      assert (ex + [c])[1..] == ex[1..] + [c];
      SpentNodesSnoc(ex[1..], c);
    }
  }

  /** The counters add one node for each child plus what the children's searches count. */
  lemma {:induction false} TallyNodes(ex: seq<Child>)
    ensures Tally(ex).nodes == |ex| + SpentNodes(ex)
    decreases |ex|
  {
    if |ex| > 0 {
      var p := ex[..|ex| - 1];
      assert ex == p + [ex[|ex| - 1]];
      TallyNodes(p);
      SpentNodesSnoc(p, ex[|ex| - 1]);
    }
  }

  /** `nodes += 1` once per child explored: an inner node counts one node for each child
      plus the nodes of the children's own searches. */
  lemma NodesPerChild(rev: Revision, s: State, depth: int, rem: nat, player: int, alpha: Ext, beta: Ext,
                      tt: Table, tt': Table, cnt: Counters, cnt': Counters, stopAt: Option<nat>,
                      moves: seq<Move>, ex: seq<Child>, out: Outcome)
    requires InnerNode(rev, s, depth, rem, player, alpha, beta, tt, tt', cnt, cnt', stopAt, moves, ex, out)
    ensures cnt'.nodes == cnt.nodes + |ex| + SpentNodes(ex)
  {
    TallyNodes(ex);
  }

  /** A cutoff is counted once, as a beta cut for Black and an alpha cut for White, on top
      of the cuts the children counted; without a cutoff no cut is added. */
  lemma CutsCounted(rev: Revision, s: State, depth: int, rem: nat, player: int, alpha: Ext, beta: Ext,
                    tt: Table, tt': Table, cnt: Counters, cnt': Counters, stopAt: Option<nat>,
                    moves: seq<Move>, ex: seq<Child>, out: Outcome)
    requires InnerNode(rev, s, depth, rem, player, alpha, beta, tt, tt', cnt, cnt', stopAt, moves, ex, out)
    ensures var cut := out.Done? && CutOff(player, ex, alpha, beta);
            var kids := Tally(ex);
            && cnt'.betaCuts == cnt.betaCuts + kids.betaCuts + (if cut && player == BLACK then 1 else 0)
            && cnt'.alphaCuts == cnt.alphaCuts + kids.alphaCuts + (if cut && player != BLACK then 1 else 0)
  {
  }

  /** `is_terminal` of `get_heuristic_value`: a position the search takes for decided has
      a stone that sees a five. */
  lemma TerminalNeedsFive(rev: Revision, b: Board) returns (cell: Cell)
    requires ValidBoard(b) && IsTerminal(HeuristicValue(rev, b))
    ensures OnBoard(cell.row, cell.col) && SeesFive(rev, b, cell.row, cell.col)
  {
    if r, c :| OnBoard(r, c) && SeesFive(rev, b, r, c) {
      cell := Cell(r, c);
    } else {
      NoFiveNoWin(rev, b);
      assert false;
    }
  }

  /** The converse of `TerminalNeedsFive` for a one-sided board: a stone that sees a
      five, with no stone of the other colour that does, makes the position decided. */
  lemma FiveIsTerminal(rev: Revision, b: Board, cell: Cell)
    requires ValidBoard(b) && OnBoard(cell.row, cell.col) && SeesFive(rev, b, cell.row, cell.col)
    requires forall r, c :: OnBoard(r, c) && b[r][c] == -b[cell.row][cell.col] ==> !SeesFive(rev, b, r, c)
    ensures IsTerminal(HeuristicValue(rev, b))
  {
    if b[cell.row][cell.col] == BLACK {
      BlackFiveWins(rev, b, cell);
    } else {
      WhiteFiveWins(rev, b, cell);
    }
  }

  /** The table as written: an entry saved by a search at ply 3 with one ply left is
      recorded with 3 and so answers a later search of the same board with 3 plies left;
      recording the plies left, it does not. */
  lemma ShallowEntryAnswersDeeper(tt: Table, b: Board, score: int, move: Option<Cell>)
    ensures Hit(tt[b := Entry(score, move, SavedDepth(AsWritten, 3, 1))], b, 3)
    ensures !Hit(tt[b := Entry(score, move, SavedDepth(Corrected, 3, 1))], b, 3)
  {
  }

  /** As written, the entry of a finished inner node at ply `depth` answers every search
      of its board with up to `depth` plies left, however few plies it searched itself. */
  lemma AsWrittenEntryReach(s: State, depth: int, rem: nat, player: int, alpha: Ext, beta: Ext,
                            tt: Table, tt': Table, cnt: Counters, cnt': Counters, stopAt: Option<nat>,
                            moves: seq<Move>, ex: seq<Child>, out: Outcome, r: nat)
    requires InnerNode(AsWritten, s, depth, rem, player, alpha, beta, tt, tt', cnt, cnt', stopAt, moves, ex, out)
    requires out.Done? && !CutOff(player, ex, alpha, beta)
    ensures Hit(tt', s.board, r) <==> r <= depth
  {
  }

  /** Corrected, the entry of a finished inner node answers exactly the searches of its
      board with no more plies left than it searched. */
  lemma CorrectedEntryReach(s: State, depth: int, rem: nat, player: int, alpha: Ext, beta: Ext,
                            tt: Table, tt': Table, cnt: Counters, cnt': Counters, stopAt: Option<nat>,
                            moves: seq<Move>, ex: seq<Child>, out: Outcome, r: nat)
    requires InnerNode(Corrected, s, depth, rem, player, alpha, beta, tt, tt', cnt, cnt', stopAt, moves, ex, out)
    requires out.Done? && !CutOff(player, ex, alpha, beta)
    ensures Hit(tt', s.board, r) <==> r <= rem
  {
  }

  /* ---------------------------------------------------------------------------
     The centre fallback on a full board
     --------------------------------------------------------------------------- */

  /** As written, a full board has no active cell, so `get_sorted_moves` falls back to
      (7, 7) although a stone is there. Playing it overwrites that stone, and `undo_move`
      then empties the cell. A search that expands a full board, which happens when no
      stone on it sees a five, deletes a stone from the position this way. */
  lemma FullBoardFallbackOccupied(rev: Revision, s: State)
    requires WellFormed(s) && ActiveExact(s.board, s.active)
    requires forall r, c :: OnBoard(r, c) ==> s.board[r][c] != EMPTY
    ensures SortedMoves(rev, s) == [Move(7, 7, 0)]
    ensures s.board[7][7] != EMPTY
    ensures UndoMove(MakeMove(s, 7, 7)).board[7][7] == EMPTY
  {
    forall r, c | OnBoard(r, c) ensures !s.active[r][c] {
      if s.active[r][c] {
        ActiveIsEmpty(s.board, s.active, r, c);
      }
    }
    SortedMovesFallback(rev, s);
  }

  /** A full board without five in a row: Black where `(c + 2 * r) / 2` is even, White
      elsewhere. Every row alternates pairs and every column alternates single stones, and
      no line holds more than two stones of one colour in a row. */
  function PairsBoard(): (b: Board)
    ensures ValidBoard(b)
    ensures forall r, c :: OnBoard(r, c) ==> b[r][c] != EMPTY
    ensures b[7][7] == BLACK
  {
    seq(N, r => seq(N, c => if ((c + 2 * r) / 2) % 2 == 0 then BLACK else WHITE))
  }

  /** On the full board `PairsBoard`, White to move, the only move offered is the occupied
      centre, and making and undoing it leaves the centre empty. */
  lemma FullBoardLosesCentre(rev: Revision)
    ensures var s := FromBoard(PairsBoard(), WHITE);
            && SortedMoves(rev, s) == [Move(7, 7, 0)]
            && s.board[7][7] == BLACK
            && UndoMove(MakeMove(s, 7, 7)).board[7][7] == EMPTY
  {
    var b := PairsBoard();
    var s := FromBoard(b, WHITE);
    assert s.board == b;
    FullBoardFallbackOccupied(rev, s);
  }
}

=== FILE: sorting.dfy ===
/** Python's `list.sort(key=..., reverse=True)`: a stable sort into non-increasing key
    order. The evaluator sorts threat weights with it and the game state sorts
    candidate moves with it. */
module Sorting {

  predicate SortedDesc<T>(s: seq<T>, key: T -> int) {
    forall i, j :: 0 <= i < j < |s| ==> key(s[i]) >= key(s[j])
  }

  /** The elements of `s` whose key is `v`, in their order in `s`. A sort is stable when
      it keeps every one of these subsequences. */
  function WithKey<T>(s: seq<T>, key: T -> int, v: int): seq<T>
    decreases |s|
  {
    if |s| == 0 then [] else (if key(s[0]) == v then [s[0]] else []) + WithKey(s[1..], key, v)
  }

  lemma WithKeyCons<T>(h: T, t: seq<T>, key: T -> int, v: int)
    ensures WithKey([h] + t, key, v) == (if key(h) == v then [h] else []) + WithKey(t, key, v)
  {
    assert ([h] + t)[1..] == t;
  }

  lemma {:induction false} WithKeyAppend<T>(a: seq<T>, b: seq<T>, key: T -> int, v: int)
    ensures WithKey(a + b, key, v) == WithKey(a, key, v) + WithKey(b, key, v)
    decreases |a|
  {
    if |a| > 0 {
      assert a + b == [a[0]] + (a[1..] + b);
      WithKeyCons(a[0], a[1..] + b, key, v);
      WithKeyAppend(a[1..], b, key, v);
      assert a == [a[0]] + a[1..];
      WithKeyCons(a[0], a[1..], key, v);
    } else {
      assert a + b == b;
    }
  }

  lemma {:induction false} WithKeyNone<T>(s: seq<T>, key: T -> int, v: int)
    requires forall i :: 0 <= i < |s| ==> key(s[i]) != v
    ensures WithKey(s, key, v) == []
    decreases |s|
  {
    if |s| > 0 {
      WithKeyNone(s[1..], key, v);
    }
  }

  /** Inserts `x` after every element whose key is at least its own, so elements with
      equal keys keep their original order. */
  function Insert<T>(x: T, s: seq<T>, key: T -> int): (r: seq<T>)
    requires SortedDesc(s, key)
    ensures SortedDesc(r, key)
    ensures multiset(r) == multiset(s) + multiset{x}
    ensures |r| == |s| + 1
    ensures r[0] == x || (|s| > 0 && r[0] == s[0])
  {
    if |s| == 0 then [x]
    else if key(s[0]) >= key(x) then
      var t := Insert(x, s[1..], key);
      assert s == [s[0]] + s[1..];
      ConsSorted(s[0], t, key);
      [s[0]] + t
    else
      ConsSorted(x, s, key);
      [x] + s
  }

  /** `x` goes after every element of its own key: among the elements with key `v`,
      the insertion appends `x` when its key is `v` and changes nothing otherwise. */
  lemma {:induction false} InsertWithKey<T>(x: T, s: seq<T>, key: T -> int, v: int)
    requires SortedDesc(s, key)
    ensures WithKey(Insert(x, s, key), key, v) == WithKey(s, key, v) + (if key(x) == v then [x] else [])
    decreases |s|
  {
    if |s| == 0 {
      WithKeyCons(x, [], key, v);
    } else if key(s[0]) >= key(x) {
      var t := Insert(x, s[1..], key);
      InsertWithKey(x, s[1..], key, v);
      ConsWithKey(s[0], t, s[1..], if key(x) == v then [x] else [], key, v);
      assert Insert(x, s, key) == [s[0]] + t;
      assert [s[0]] + s[1..] == s;
    } else {
      InsertFrontWithKey(x, s, key, v);
    }
  }

  /** Putting the same head on two sequences keeps a relation between their elements of
      key `v`. */
  lemma ConsWithKey<T>(h: T, t: seq<T>, u: seq<T>, e: seq<T>, key: T -> int, v: int)
    requires WithKey(t, key, v) == WithKey(u, key, v) + e
    ensures WithKey([h] + t, key, v) == WithKey([h] + u, key, v) + e
  {
    WithKeyCons(h, t, key, v);
    WithKeyCons(h, u, key, v);
    var p := if key(h) == v then [h] else [];
    assert p + (WithKey(u, key, v) + e) == (p + WithKey(u, key, v)) + e;
  }

  /** The step of `InsertWithKey` where `x` goes in front of `s`: no element of `s` has
      the key of `x`. */
  lemma InsertFrontWithKey<T>(x: T, s: seq<T>, key: T -> int, v: int)
    requires SortedDesc(s, key) && |s| > 0 && key(s[0]) < key(x)
    ensures WithKey(Insert(x, s, key), key, v) == WithKey(s, key, v) + (if key(x) == v then [x] else [])
  {
    assert Insert(x, s, key) == [x] + s;
    WithKeyCons(x, s, key, v);
    if key(x) == v {
      assert forall i :: 0 <= i < |s| ==> key(s[i]) <= key(s[0]);
      WithKeyNone(s, key, v);
    }
  }

  /** A head whose key is at least the key of the sorted tail's head keeps it sorted. */
  lemma ConsSorted<T>(h: T, t: seq<T>, key: T -> int)
    requires SortedDesc(t, key) && (|t| > 0 ==> key(h) >= key(t[0]))
    ensures SortedDesc([h] + t, key)
  {
    var u := [h] + t;
    forall i, j | 0 <= i < j < |u| ensures key(u[i]) >= key(u[j]) {
      if i == 0 {
        assert u[j] == t[j - 1];
      } else {
        assert u[i] == t[i - 1] && u[j] == t[j - 1];
      }
    }
  }

  /** Stable sort, non-increasing by `key`: sorted, and for every key the elements with
      that key in their original order. The two together determine the result. */
  function SortDesc<T>(s: seq<T>, key: T -> int): (r: seq<T>)
    ensures SortedDesc(r, key)
    ensures multiset(r) == multiset(s)
    ensures |r| == |s|
    ensures forall v :: WithKey(r, key, v) == WithKey(s, key, v)
  {
    if |s| == 0 then []
    else
      var p := s[..|s| - 1];
      var x := s[|s| - 1];
      assert s == p + [x];
      var q := SortDesc(p, key);
      InsertStable(x, q, p, key);
      Insert(x, q, key)
  }

  /** Inserting the last element into a stable sort of the others gives a stable sort of
      the whole sequence. */
  lemma InsertStable<T>(x: T, q: seq<T>, p: seq<T>, key: T -> int)
    requires SortedDesc(q, key)
    requires forall v :: WithKey(q, key, v) == WithKey(p, key, v)
    ensures forall v :: WithKey(Insert(x, q, key), key, v) == WithKey(p + [x], key, v)
  {
    forall v ensures WithKey(Insert(x, q, key), key, v) == WithKey(p + [x], key, v) {
      InsertWithKey(x, q, key, v);
      WithKeyAppend(p, [x], key, v);
      WithKeyCons(x, [], key, v);
    }
  }

  lemma SortedHead<T>(s: seq<T>, key: T -> int, x: T)
    requires SortedDesc(s, key) && x in multiset(s)
    ensures key(x) <= key(s[0])
  {
    var i :| 0 <= i < |s| && s[i] == x;
  }

  /** In a sequence sorted non-increasingly, a value greater than the element at
      position 1 can only occur at position 0. */
  lemma {:induction false} AboveSecondOnlyFirst(s: seq<int>, v: int)
    requires SortedDesc(s, x => x) && |s| >= 2 && v > s[1]
    ensures multiset(s)[v] <= 1
    ensures v != s[0] ==> multiset(s)[v] == 0
  {
    assert s == [s[0]] + s[1..];
    assert v !in s[1..] by {
      forall k | 1 <= k < |s| ensures s[k] != v { assert s[1] >= s[k]; }
    }
    assert multiset(s) == multiset{s[0]} + multiset(s[1..]);
  }

  /** Sum of the two largest elements: 0, the only element, or `s[0] + s[1]` after
      sorting. */
  function TopTwoSum(t: seq<int>): (r: int)
  {
    var s := SortDesc(t, x => x);
    if |s| == 0 then 0 else if |s| == 1 then s[0] else s[0] + s[1]
  }

  /** The top-two sum is the largest sum of two distinct positions of `t`, and it is
      attained by some pair of distinct positions. */
  lemma TopTwoSumIsBestPair(t: seq<int>)
    requires |t| >= 2
    ensures forall k, l :: 0 <= k < |t| && 0 <= l < |t| && k != l ==> t[k] + t[l] <= TopTwoSum(t)
    ensures exists k, l :: 0 <= k < |t| && 0 <= l < |t| && k != l && t[k] + t[l] == TopTwoSum(t)
  {
    var s := SortDesc(t, x => x);
    forall k, l | 0 <= k < |t| && 0 <= l < |t| && k != l
      ensures t[k] + t[l] <= s[0] + s[1]
    {
      PairBound(t, s, k, l);
    }
    assert s[0] in multiset(t) && s[1] in multiset(t);
    var k :| 0 <= k < |t| && t[k] == s[0];
    assert multiset(t)[s[1]] >= 2 || s[1] != t[k] by {
      if s[1] == s[0] {
        assert s == [s[0], s[1]] + s[2..];
        assert multiset(s) == multiset{s[0], s[1]} + multiset(s[2..]);
      }
    }
    var l := OtherPosition(t, k, s[1]);
    assert t[k] + t[l] == TopTwoSum(t);
  }

  lemma PairBound(t: seq<int>, s: seq<int>, k: int, l: int)
    requires s == SortDesc(t, x => x) && |t| >= 2
    requires 0 <= k < |t| && 0 <= l < |t| && k != l
    ensures t[k] + t[l] <= s[0] + s[1]
  {
    assert t[k] in multiset(s) && t[l] in multiset(s);
    SortedHead(s, x => x, t[k]);
    SortedHead(s, x => x, t[l]);
    if t[k] > s[1] && t[l] > s[1] {
      AboveSecondOnlyFirst(s, t[k]);
      AboveSecondOnlyFirst(s, t[l]);
      TwoPositions(t, k, l);
    }
  }

  lemma TwoPositions(t: seq<int>, k: int, l: int)
    requires 0 <= k < |t| && 0 <= l < |t| && k != l && t[k] == t[l]
    ensures multiset(t)[t[k]] >= 2
  {
    var rest := t[..k] + t[k + 1..];
    assert t == t[..k] + [t[k]] + t[k + 1..];
    assert multiset(t) == multiset(rest) + multiset{t[k]};
    if l < k {
      assert rest[l] == t[l];
    } else {
      assert rest[l - 1] == t[l];
    }
    assert t[l] in multiset(rest);
  }

  /** A value that occurs in `t` at some position other than `k`, given that it occurs
      twice or differs from `t[k]`. */
  lemma OtherPosition(t: seq<int>, k: int, v: int) returns (l: int)
    requires 0 <= k < |t| && v in multiset(t)
    requires multiset(t)[v] >= 2 || v != t[k]
    ensures 0 <= l < |t| && l != k && t[l] == v
  {
    assert t == t[..k] + [t[k]] + t[k + 1..];
    assert multiset(t) == multiset(t[..k]) + multiset{t[k]} + multiset(t[k + 1..]);
    if v in t[..k] {
      l :| 0 <= l < k && t[..k][l] == v;
    } else {
      assert v in t[k + 1..];
      var j :| 0 <= j < |t[k + 1..]| && t[k + 1..][j] == v;
      l := k + 1 + j;
    }
  }
}
